=== FILE: README.md ===
# tabsplid core, modelled in Dafny

tabsplid tracks a group's shared expenses and tells who owes whom. This
project models its core as pure functions over immutable sequences of
members and expenses, and proves properties about that model. The core has
three parts:

- **Settlement.** The frontend's `calculatePayments` and its two backend
  twins: the helper `calculate_project_payments` and the older `calculate`
  route, which the application no longer mounts. Each resets or loads a
  balance per member, then debits every member who shares an expense
  `amount / |sharers|`. An empty `involved_members` list means every member.
  Each then credits the payer and runs the fixed debtor × creditor scan that
  emits transfers. The scan is modelled once (`Settlement`) and shared by all
  three. `Twins` proves that frontend and helper compute the same balances
  and the same transfers, and that the frontend's recorded amounts are the
  helper's amounts rounded to cents.
- **Local edits and the save plan.** The page's edit handlers, the
  constructors for new members and expenses, the involvement toggle, and the
  dirty check. The save (`handleSaveChanges`) is a pure plan generator. Its
  inputs are the loaded project, the two snapshots, the demo flag, and the
  ids the store answers for new members. It returns the ordered list of
  store requests and the snapshots the page is left with.
- **Small encoders and predicates.** The request bodies and the error-message
  choice of the API module, the backend's involved-member lookup, and the
  middleware that refuses writes to the demo project.

Amounts are exact `real`s. Members in balance vectors and transfers are list
positions; the source uses object references and ORM rows for these.
JSON-serialisation equality is structural equality. Random placeholder ids,
the store's answers and the demo project id are parameters.

## Model

| member | source | states |
|---|---|---|
| Balances.SumShift | frontend/src/utils/calculatePayments.ts:18-22 | debiting or crediting `delta` at the selected members moves the total by `delta` once per selected member |
| Balances.SumSplit | backend/app/helper.py:105-109 | one expense split changes the total by what is credited minus what is debited |
| Balances.TimesShare | backend/app/helper.py:105-108 | `n` shares of `amount / n` add up to `amount` |
| Balances.NonNegativeZeroSum | frontend/src/utils/calculatePayments.ts:26-41 | balances that are all non-negative and total zero are all zero |
| Settlement.PayCreditorsBalances | frontend/src/utils/calculatePayments.ts:28-39 | the inner loop keeps the total and never lets a balance cross zero; members already passed are untouched; it ends with the debtor at 0 or nobody from the cursor on still owed |
| Settlement.PayCreditorsTransfers | frontend/src/utils/calculatePayments.ts:28-35 | each inner-loop transfer leaves the debtor for a different member whose balance was positive, for an amount between 0 and that balance, with creditors in increasing order |
| Settlement.PayCreditorsFlow | frontend/src/utils/calculatePayments.ts:30-37 | after the inner loop each balance equals its start plus what it paid out minus what it received |
| Settlement.PaidOffDebtorEmitsZeroTransfers | frontend/src/utils/calculatePayments.ts:28-35 | once the debtor is at 0, every creditor still owed yields a transfer of 0 and no balance moves |
| Settlement.SettleFromBalances | frontend/src/utils/calculatePayments.ts:26-41 | the outer loop keeps the total and moves every balance toward zero without crossing it |
| Settlement.SettleFromEndpoints | frontend/src/utils/calculatePayments.ts:26-33 | every transfer goes from a member that started in debt to a different member that started in credit, for a non-negative amount |
| Settlement.SettleFromOrder | frontend/src/utils/calculatePayments.ts:26-29 | transfers come in strictly increasing (debtor, creditor) order |
| Settlement.SettleFromFlow | frontend/src/utils/calculatePayments.ts:26-41 | each final balance is the starting balance plus what the member paid out minus what it received |
| Settlement.SettleFromClears | frontend/src/utils/calculatePayments.ts:26-41 | with a zero total and no debtor among the members already passed, every final balance is exactly 0 |
| Settlement.NoMembersNoTransfers | frontend/src/utils/calculatePayments.ts:26-43 | no members, no transfers |
| Settlement.SettleShape | backend/app/helper.py:112-126 | the scan all three twins share: total kept, balances move toward zero, transfers go from initial debtors to different initial creditors, non-negative, in discovery order |
| Settlement.SettledGroupNeedsNoTransfers | backend/app/routes.py:177-188 | balances that are already all zero give no transfers and stay as they are |
| Settlement.ZeroSumSettlesEveryone | frontend/src/utils/calculatePayments.ts:26-41 | with a zero total, everybody ends at 0; each debtor pays out exactly its deficit and receives nothing; each creditor receives exactly its surplus and pays nothing |
| Settlement.ZeroTransferExample | frontend/src/utils/calculatePayments.ts:28-35 | for balances (-5, 5, 5, -5), the payments are 0→1 of 5, then 0→2 of 0, then 3→2 of 5 |
| Settlement.PayCreditors | frontend/src/utils/calculatePayments.ts:28-39 | the inner loop yields one balance per member; its effect is stated by `Settlement.PayCreditorsBalances`, `Settlement.PayCreditorsTransfers` and `Settlement.PayCreditorsFlow` |
| Settlement.SettleFrom | frontend/src/utils/calculatePayments.ts:26-41 | the outer loop yields one balance per member; its effect is stated by the `Settlement.SettleFrom…` lemmas |
| Settlement.Settle | backend/app/helper.py:112-126 | the scan from the first member yields one balance per member; `Settlement.SettleShape` states what it computes |
| Rounding.MathRound | frontend/src/utils/calculatePayments.ts:34 | `Math.round` lies within half a unit of its argument |
| Rounding.RoundCents | frontend/src/utils/calculatePayments.ts:34 | the recorded amount is the whole number of cents nearest the transfer, a tie going up, and not negative for a non-negative transfer |
| Rounding.RoundCentsIdempotent | frontend/src/utils/calculatePayments.ts:34 | rounding a recorded amount again changes nothing |
| Rounding.ExactCentsUnchanged | frontend/src/utils/calculatePayments.ts:34 | an amount that is already a whole number of cents is recorded as it is |
| Rounding.ToFixed | frontend/src/components/MemberItem.tsx:96 | `parseFloat(x.toFixed(d))` is the number with `d` decimals nearest to `x`, a tie going away from zero, with the sign of `x` |
| Rounding.ToFixedOdd | frontend/src/components/MemberItem.tsx:96 | `toFixed` treats a value and its negation symmetrically |
| CalculatePayments.SharedBy | frontend/src/utils/calculatePayments.ts:14-16 | the sharers of an expense: every member for an empty list, otherwise exactly the current members whose id is among the involved ids; `Twins.MasksAgree` equates it with the backend's involved mask and `CalculatePayments.UnknownIdsIgnored` shows unknown ids play no part |
| CalculatePayments.ApplyExpense | frontend/src/utils/calculatePayments.ts:12-22 | a null or zero amount changes nothing; with sharers the total is kept; with no sharer the total grows by the amount |
| CalculatePayments.RecordAll | frontend/src/utils/calculatePayments.ts:31-35 | each transfer is recorded once, in order, with its amount rounded to cents |
| CalculatePayments.Charges | frontend/src/utils/calculatePayments.ts:10-11 | every charge is an expense of the member it credits, member by member |
| CalculatePayments.Accumulate | frontend/src/utils/calculatePayments.ts:10-24 | applying the charges keeps one balance per member; `CalculatePayments.AccumulateSum` states how the total moves |
| CalculatePayments.AccumulatedBalances | frontend/src/utils/calculatePayments.ts:6-24 | reset and accumulation give one balance per member; `CalculatePayments.BalancesTotal` states their total |
| CalculatePayments.CalculatePayments | frontend/src/utils/calculatePayments.ts:3-45 | payments go between distinct members of the list, are never negative, and come in (debtor, creditor) order; no members gives no payments |
| CalculatePayments.AccumulateSum | frontend/src/utils/calculatePayments.ts:10-24 | the accumulation changes the total only by the amounts nobody shares |
| CalculatePayments.BalancesTotal | frontend/src/utils/calculatePayments.ts:6-24 | after reset and accumulation the balances total the unshared amounts, and zero when every split has a sharer |
| CalculatePayments.EverybodySettled | frontend/src/utils/calculatePayments.ts:26-41 | when every split has a sharer, every member ends at 0; each debtor's unrounded payments add up to its deficit and each creditor's receipts to its surplus |
| CalculatePayments.PaymentsRoundTransfers | frontend/src/utils/calculatePayments.ts:30-37 | payment k has the endpoints of transfer k and lies within half a cent of its unrounded amount |
| CalculatePayments.UnknownIdsIgnored | frontend/src/utils/calculatePayments.ts:14-16 | an involved id that no current member has changes nothing about who shares |
| CalculatePayments.BystanderUnaffected | frontend/src/utils/calculatePayments.ts:18-22 | a member who neither shares nor paid keeps its balance |
| CalculatePayments.ResetIgnoresStoredBalances | frontend/src/utils/calculatePayments.ts:6-8 | the balances members arrive with play no part in the result |
| Stored.CountMaskIn | backend/app/helper.py:104-108 | over unique ids, the members selected by an id set number the ids of the set that are present |
| Helper.Distribute | backend/app/helper.py:103-109 | the distribution loop fails only by dividing by zero, or, when a missing amount raises, with a type error |
| Helper.ToPublic | backend/app/helper.py:129-136 | the public format maps transfers one to one, in order, with their unrounded amounts and the two members' public views |
| Helper.InvolvedMask | backend/app/helper.py:104-108 | the members debited for an expense: every member for an empty list, otherwise exactly those whose id is involved |
| Helper.PayerMask | backend/app/helper.py:109 | the member credited for an expense: exactly those with the payer's id |
| Helper.Divisor | backend/app/helper.py:105 | the divisor is 0 exactly when there are no members and the expense involves nobody explicitly; `Helper.CountInvolved` equates it with the involved mask's count |
| Helper.CalculateProjectPayments | backend/app/helper.py:97-138 | fails only with a division by zero, which needs an expense in a project without members; with members it succeeds |
| Helper.DistributeFailsOnlyWithoutMembers | backend/app/helper.py:103-105 | the helper's distribution fails exactly when there are no members and some expense involves nobody explicitly |
| Helper.CountInvolved | backend/app/helper.py:104-105 | over unique member ids, with involved ids that are distinct and all present, the involved mask selects exactly as many members as the divisor counts |
| Helper.StepKeepsTotal | backend/app/helper.py:104-109 | under well-formed data one expense keeps the total: `n` members debited `amount / n`, one credited `amount` |
| Helper.DistributeKeepsTotal | backend/app/helper.py:103-109 | under well-formed data the distribution keeps the total it starts from |
| Helper.HelperSettlesEveryone | backend/app/helper.py:97-126 | with well-formed data and members present, the balances total zero before the scan and all end at 0 |
| Helper.RemodelInvolvedMembers | backend/app/helper.py:77-95 | the lookup fails only with 404 "One or more involved members not found" |
| Helper.RemodelSucceedsIff | backend/app/helper.py:79-92 | the lookup succeeds exactly when no id is requested, or the ids are duplicate-free and all exist; it then links exactly the requested ids |
| Routes.Calculate | backend/app/routes.py:157-197 | the older route fails with 404 "No members found in this project" exactly when there are no members; otherwise it fails only with a type error |
| Routes.DistributeNeverDividesByZero | backend/app/routes.py:167-169 | with members present no divisor is 0 |
| Routes.RaisesIffAmountMissing | backend/app/routes.py:169-173 | with members present, the older route raises exactly when some expense has no amount |
| Routes.MissingTreatmentIrrelevant | backend/app/routes.py:168-173 | when every amount is present, raising on a missing amount and counting it as 0 give the same result |
| Routes.CalculateKeepsStoredTotal | backend/app/routes.py:167-173 | under well-formed data the older route keeps the total of the loaded balances |
| Routes.CalculateAgreesWithHelper | backend/app/routes.py:157-188 | with every loaded balance at its default 0 and every amount present, the older route computes exactly what the helper computes |
| Routes.CreateExpense | backend/app/routes.py:110-124 | (in the file that cannot be imported; the live route, backend/app/routers/expenses.py:34-48, behaves the same through `Helper.RemodelInvolvedMembers`) creating an expense fails exactly when the lookup fails, with that 404; otherwise it stores the payer, the given amount or the schema's default 0 when the body leaves it out, and exactly the looked-up members |
| Routes.CreatedExpenseLinksExistingMembers | backend/app/routes.py:114-122 | a stored involved list is duplicate-free and names existing members only |
| Routes.CreatedExpensesNeverRaise | backend/app/routes.py:110-124 | expenses this route stores always carry an amount, so over members present the older route's division never raises on them |
| Twins.MasksAgree | backend/app/helper.py:104-109 | the frontend's sharers and payer position are the backend's involved and payer masks, and the sharers number the backend's divisor |
| Twins.StepAgrees | backend/app/helper.py:103-109 | for one expense the frontend step and the backend step give the same balances |
| Twins.DistributeAgrees | backend/app/helper.py:103-109 | over a consistent project the backend's distribution equals the frontend's accumulation, from any start |
| Twins.ConsistentIsWellFormed | backend/app/helper.py:103-109 | a consistent frontend project is a well-formed stored one |
| Twins.FrontendAgreesWithBackend | backend/app/helper.py:97-138 | over a consistent project the helper succeeds and reaches the frontend's balances; it emits the same transfers in the same order, and each frontend amount is the helper's amount rounded to cents |
| Middlewares.StripDashes | backend/app/middlewares.py:9 | the dash-free path keeps exactly the characters other than `-` and is never longer; `Middlewares.StripAppend` shows it keeps their order |
| Middlewares.StripAppend | backend/app/middlewares.py:9 | stripping distributes over concatenation and drops a single character exactly when it is a dash |
| Middlewares.RejectDemoRequests | backend/app/middlewares.py:7-13 | 403 exactly when a non-empty demo id occurs in the dash-free path and the verb is neither GET nor OPTIONS; otherwise the request is handed on |
| Middlewares.StripIdempotent | backend/app/middlewares.py:9 | stripping twice is stripping once |
| Middlewares.ForbiddenIff | backend/app/middlewares.py:8-12 | a request is refused exactly when the verb is neither GET nor OPTIONS and some stretch of the raw path, its dashes dropped, is the non-empty demo id |
| Middlewares.PassesWithoutDemoIdOrForReads | backend/app/middlewares.py:10-13 | without a demo id everything passes, and GET and OPTIONS always pass |
| Middlewares.DashesInPathIgnored | backend/app/middlewares.py:8-12 | a write to a path holding the demo id with dashes inserted anywhere, whatever precedes or follows it, is refused |
| Middlewares.DashedDemoIdNeverBlocks | backend/app/middlewares.py:9-10 | a configured id that contains a dash never matches, so it blocks nothing |
| Api.CodeKey | frontend/src/api/index.ts:9-16 | `ERR_NETWORK`, `ECONNABORTED` and `ETIMEDOUT` map to `common:error.networkError`, `common:error.requesetAborted` (the source's spelling) and `common:error.requestTimeout`; no other code has a key |
| Api.ErrorMessage | frontend/src/api/index.ts:8-24 | the message is translated exactly when the code is one of the three known codes or the status is 429; a known code picks its own key; otherwise 429 gives `common:error.tooManyRequests`; an untranslated message is the error's own message |
| Api.CodeBeforeStatus | frontend/src/api/index.ts:9-23 | with a known code the status plays no part; without one, the code plays no part |
| Api.NetworkErrorWinsOverRateLimit | frontend/src/api/index.ts:9-20 | a rate-limited request with the network code reports the network error |
| Api.NormalizeName | frontend/src/api/index.ts:46 | an empty name becomes null and any other name is kept |
| Api.NormalizeNameIdempotent | frontend/src/api/index.ts:51 | normalising twice is normalising once |
| Api.DisplayedNameRoundTrip | frontend/src/hooks/useProjectState.ts:15-16 | the name field shows a null name as "" and the store sends "" as null, so a shown name sent back stores what was loaded |
| Api.ProjectPayload | frontend/src/api/index.ts:45-53 | the project body differs from the project only in its name, which is null exactly when it was null or empty |
| Api.UpdateMemberPayload | frontend/src/api/index.ts:63-66 | the member update body differs from the member only in its name, which is null exactly when it was null or empty |
| Api.EmptyNameOnlyNormalizedOnUpdate | frontend/src/api/index.ts:59-66 | `addMember` sends the member as it is; the update body differs from it exactly for a member named "", whose name it sends as null |
| Api.ExpensePayload | frontend/src/api/index.ts:72-82 | the expense body keeps every field and replaces the involved members by their ids, same length and order |
| Api.ExpensePayloadForgetsNames | frontend/src/api/index.ts:74 | two expenses give the same body exactly when they agree on everything except the involved members' names |
| Api.FromBody | frontend/src/api/index.ts:80 | rebuilding an expense from a body succeeds exactly when every id has a known name, and encodes back to the same body |
| Api.ExpensePayloadRoundTrip | frontend/src/api/index.ts:74 | decoding the body with the members' names gives the expense back |
| ProjectState.Initial | frontend/src/hooks/useProjectState.ts:7-10 | before a load both names are "" and both member lists are empty; `ProjectState.InitialIsEmptyLoad` shows which projects load into that state |
| ProjectState.InitialIsEmptyLoad | frontend/src/hooks/useProjectState.ts:7-18 | a project loads into the pre-load state exactly when it has no members and a null or empty name, and that state is clean |
| ProjectState.DisplayName | frontend/src/hooks/useProjectState.ts:15 | a null name shows as ""; `Api.DisplayedNameRoundTrip` shows that sending it back stores the loaded name |
| ProjectState.SyncOnLoad | frontend/src/hooks/useProjectState.ts:13-21 | on load both snapshots take the project's name (or "") and its members; `ProjectPage.MountedMemberMarksUnnumberedDirty` shows what the rows' first reports then do to the dirty check |
| ProjectState.DetectChanges | frontend/src/hooks/useProjectState.ts:23-27 | the name changed exactly when the names differ; the members changed exactly when the lists differ; `ProjectState.CleanIff` and `ProjectPage.MountedMemberMarksUnnumberedDirty` use it |
| ProjectState.LoadedIsClean | frontend/src/hooks/useProjectState.ts:13-27 | right after a load nothing is unsaved |
| ProjectState.CleanIff | frontend/src/hooks/useProjectState.ts:23-27 | a state has no unsaved changes (`HasUnsavedChanges` false) exactly when both snapshots agree |
| ProjectState.RenameDetected | frontend/src/hooks/useProjectState.ts:24-25 | editing only the name reports exactly a name change |
| ExpenseItem.WithoutId | frontend/src/components/ExpenseItem.tsx:49 | deselecting keeps exactly the references with other ids, and shortens the list when the id was present; `ExpenseItem.WithoutIdConcat` shows the order is kept |
| ExpenseItem.WithoutIdConcat | frontend/src/components/ExpenseItem.tsx:49 | the filter distributes over concatenation and keeps one reference exactly when its id differs, so the survivors keep their order |
| ExpenseItem.AllExcept | frontend/src/components/ExpenseItem.tsx:36-41 | expanding "everybody" without a member lists exactly the other member ids; `ExpenseItem.AllExceptConcat` fixes the order |
| ExpenseItem.AllExceptConcat | frontend/src/components/ExpenseItem.tsx:36-41 | the expansion distributes over the id list and turns one id into nothing when it is the deselected one and otherwise into the first member with that id |
| ExpenseItem.DeselectFromEverybodyKeepsOrder | frontend/src/components/ExpenseItem.tsx:35-43 | over unique member ids, deselecting from "everybody" lists the id and name of every other member, in member order |
| ExpenseItem.ToggleMember | frontend/src/components/ExpenseItem.tsx:31-55 | from "everybody", everybody but the member; otherwise the member removed if present or appended if not, collapsing to empty when the count reaches the member count |
| ExpenseItem.EffectiveIds | frontend/src/components/ExpenseItem.tsx:57-61 | every member for an empty list, otherwise the listed ids; `ExpenseItem.EffectiveIdsAreSharers` ties it to the settlement |
| ExpenseItem.EffectiveIdsAreSharers | frontend/src/components/ExpenseItem.tsx:57-61 | a member shows as selected exactly when the settlement splits the expense among it; over unique ids and a list the toggle can produce, the number selected is the split's divisor |
| ExpenseItem.ToggleKeepsValid | frontend/src/components/ExpenseItem.tsx:31-55 | over unique member ids a toggle keeps the list empty or made of fewer than all distinct members |
| ExpenseItem.WithoutIdIds | frontend/src/components/ExpenseItem.tsx:49 | removing by id keeps the other ids distinct and drops exactly that id |
| ExpenseItem.ExpandedIdsDistinct | frontend/src/components/ExpenseItem.tsx:36-41 | the expansion of "everybody" has distinct ids when the members do |
| ExpenseItem.ExpandedLength | frontend/src/components/ExpenseItem.tsx:36-41 | the expansion without a present id has one entry fewer than the members |
| ExpenseItem.DeselectThenSelectRestoresEverybody | frontend/src/components/ExpenseItem.tsx:35-54 | from "everybody", deselecting a member and selecting it again gives "everybody" back |
| ExpenseItem.SoleMemberCannotBeDeselected | frontend/src/components/ExpenseItem.tsx:35-43 | in a one-member project, deselecting from "everybody" gives "everybody" again |
| ExpenseItem.DeselectLastMeansEverybody | frontend/src/components/ExpenseItem.tsx:47-54 | deselecting the only selected member leaves the empty list, meaning everybody |
| ExpenseItem.SelectThenDeselect | frontend/src/components/ExpenseItem.tsx:47-54 | selecting a new member and deselecting it again gives the list back unless the selection completed the list |
| ExpenseItem.SubsetHighlightIff | frontend/src/components/ExpenseItem.tsx:63-66 | over a valid list, the highlight (`IsInvolvedSubset`) shows exactly when the effective members are a proper subset of the members |
| ExpenseItem.AmountInput | frontend/src/components/ExpenseItem.tsx:80-84 | empty text clears the amount; otherwise `parseInt` decides, and NaN or 0 keep the previous amount; so the result is the previous amount, null, or a non-zero whole number, and null only for empty text or when there was no amount |
| ExpenseItem.SkipSpace | frontend/src/components/ExpenseItem.tsx:82 | `parseInt` starts after the leading white space: the suffix left once every white-space character in front is dropped, so it does not start with white space and all it drops is white space |
| ExpenseItem.SpaceBeforeIgnored | frontend/src/components/ExpenseItem.tsx:82 | white space typed before the text changes nothing `parseInt` returns (by `ExpenseItem.SkipSpaceAfterSpace`) |
| ExpenseItem.SkipSpaceAfterSpace | frontend/src/components/ExpenseItem.tsx:82 | skipping white space after any run of white space gives what skipping it from the rest gives |
| ExpenseItem.Unsigned | frontend/src/components/ExpenseItem.tsx:82 | the digits after the sign: never negative; NaN for empty text or text not starting with a decimal digit; after `0x` or `0X` a number exactly when a base-16 digit follows; otherwise a number whenever a decimal digit starts the text. `ExpenseItem.PlainNumeral` and `ExpenseItem.LeadingNumeral` give the base-10 value, `ExpenseItem.HexPrefixed` the base-16 one |
| ExpenseItem.ParseInt | frontend/src/components/ExpenseItem.tsx:82 | `parseInt(input)` without a radix: NaN for blank text; after the white space one `-` or `+` is taken and the digits after it decide, negated for `-`; without a sign the digits start at once; a negative result needs a minus sign. `ExpenseItem.MinusSign` and `ExpenseItem.SpaceBeforeIgnored` are its partners |
| ExpenseItem.PlainNumeral | frontend/src/components/ExpenseItem.tsx:82 | text starting with a non-zero digit is read in base 10 from its first character, as the value of its longest digit run |
| ExpenseItem.MinusSign | frontend/src/components/ExpenseItem.tsx:82 | a leading minus sign negates what the digits after it spell, and NaN stays NaN |
| ExpenseItem.DigitRun | frontend/src/components/ExpenseItem.tsx:82 | `parseInt` reads the longest prefix of digits of its base |
| ExpenseItem.LeadingNumeral | frontend/src/components/ExpenseItem.tsx:82 | a numeral followed by anything but a digit parses to the number it writes |
| ExpenseItem.TypedNumberIsStored | frontend/src/components/ExpenseItem.tsx:80-84 | typing a positive whole number stores exactly that number, and text after the digits is dropped: "12.50" stores 12 |
| ExpenseItem.NegativeNumberIsStored | frontend/src/components/ExpenseItem.tsx:80-84 | a minus sign is accepted, so "-n" stores -n |
| ExpenseItem.NumeralValue | frontend/src/components/ExpenseItem.tsx:82 | in every base from 2 to 36, the digits of a numeral are read back as the number it writes |
| ExpenseItem.HexPrefixed | frontend/src/components/ExpenseItem.tsx:82 | after `0x` or `0X`, the base-16 numeral of any number followed by anything but a base-16 digit is read as that number |
| ExpenseItem.HexNumberIsStored | frontend/src/components/ExpenseItem.tsx:80-84 | typing `0x` or `0X` and the base-16 numeral of any positive number stores exactly that number, and text after its digits is dropped |
| ExpenseItem.HexNumeralIsStored | frontend/src/components/ExpenseItem.tsx:80-84 | a `0x` prefix switches to base 16: "0x1A" stores 26 |
| ExpenseItem.AmountInputNeverZero | frontend/src/components/ExpenseItem.tsx:82-83 | from a non-zero previous amount, the field never produces a zero amount |
| MemberItem.AddNewExpense | frontend/src/components/MemberItem.tsx:44-56 | exactly one blank expense is appended, with a "new-" id and order equal to the previous count; nothing else changes |
| MemberItem.AddNewExpenseUndone | frontend/src/components/MemberItem.tsx:44-56 | dropping the new expense by its id gives the member back |
| MemberItem.DropExpense | frontend/src/pages/ProjectPage.tsx:218 | filtering by id keeps exactly the expenses with other ids, and changes nothing when the id is absent; `MemberItem.DropExpenseConcat` shows the order is kept |
| MemberItem.DropExpenseConcat | frontend/src/pages/ProjectPage.tsx:218 | the filter distributes over concatenation and keeps one expense exactly when its id differs, so the survivors keep their order |
| MemberItem.DropExpenseRemovesId | frontend/src/pages/ProjectPage.tsx:218 | no expense with the filtered id is left |
| MemberItem.DropAppended | frontend/src/pages/ProjectPage.tsx:218 | filtering out an appended expense with a fresh id gives the list back |
| MemberItem.NameEdit | frontend/src/components/MemberItem.tsx:40-42 | the member passed up differs from the current one only in its name |
| MemberItem.NameEditUndone | frontend/src/components/MemberItem.tsx:40-42 | editing the name back restores the member |
| MemberItem.ExpenseTotalAppend | frontend/src/components/MemberItem.tsx:96 | the total of two lists is the sum of their totals |
| MemberItem.AddNewExpenseKeepsTotal | frontend/src/components/MemberItem.tsx:96 | a new blank expense leaves the total alone |
| MemberItem.ExpenseTotalNonNegative | frontend/src/components/MemberItem.tsx:96 | with no negative amounts the total is not negative |
| MemberItem.DisplayedTotal | frontend/src/components/MemberItem.tsx:96 | the shown total is the number with ten decimals nearest to the exact sum of the amounts (null counted as 0), a tie going away from zero, with the sum's sign |
| MemberList.NewMember | frontend/src/components/MemberList.tsx:17-25 | a new member has a "new-" id, order equal to the member count, name "", no expenses and balance 0 |
| MemberList.MemberAdd | frontend/src/pages/ProjectPage.tsx:176-178 | adding appends exactly that member and keeps the others in place |
| MemberList.AddNewMemberKeepsNumbering | frontend/src/components/MemberList.tsx:17-25 | adding a new member to a list numbered by position keeps it numbered, and adds exactly one member |
| ProjectPage.MemberUpdate | frontend/src/pages/ProjectPage.tsx:180-187 | the member with the update's id is replaced, the others kept, ids unchanged, and every order set to its position |
| ProjectPage.MemberUpdateIdempotent | frontend/src/pages/ProjectPage.tsx:180-187 | applying the same member update twice is applying it once |
| ProjectPage.MemberUpdateWithCurrentIsNoOp | frontend/src/pages/ProjectPage.tsx:180-187 | re-sending a current member of a list numbered by position changes nothing |
| ProjectPage.MemberDelete | frontend/src/pages/ProjectPage.tsx:189-191 | exactly the members with the deleted id are removed; `ProjectPage.MemberDeleteConcat` shows the order is kept |
| ProjectPage.MemberDeleteConcat | frontend/src/pages/ProjectPage.tsx:189-191 | the filter distributes over concatenation and keeps one member exactly when its id differs, so the survivors keep their order |
| ProjectPage.DeleteUndoesAdd | frontend/src/pages/ProjectPage.tsx:176-191 | adding a member with a fresh id and deleting it gives the list back |
| ProjectPage.RenumberedWith | frontend/src/pages/ProjectPage.tsx:199-202 | the target member's expenses with the matching one replaced, ids kept, every order set to its position |
| ProjectPage.ExpenseUpdate | frontend/src/pages/ProjectPage.tsx:193-210 | only members with the target id change, and only in their expense list |
| ProjectPage.ExpenseUpdateUnchangedIsNoOp | frontend/src/pages/ProjectPage.tsx:193-210 | re-sending an unchanged expense of a list numbered by position leaves the members as they are |
| ProjectPage.ExpenseDelete | frontend/src/pages/ProjectPage.tsx:212-222 | only the target member changes, and its expenses become the id filter of its list (order kept, by `MemberItem.DropExpenseConcat`), without the deleted id; everything else stays |
| ProjectPage.MountedMemberMarksUnnumberedDirty | frontend/src/components/MemberItem.tsx:40-42 | right after a load, a member row's first report leaves the page clean exactly when the loaded members were numbered by position, so members loaded without an `order` make it dirty at once |
| ProjectPage.MountedExpenseMarksUnnumberedDirty | frontend/src/components/ExpenseItem.tsx:19-25 | over unique ids, an expense row's report of its unchanged expense, on mount or after a reload, changes the members exactly when that member's expenses were not numbered by position |
| ProjectPage.ReloadedExpenseMarksDirty | frontend/src/components/ExpenseItem.tsx:19-25 | after any load, the refetch after a save included, the report of an expense without an `order` leaves the page with unsaved changes |
| Domain.FindMember | frontend/src/pages/ProjectPage.tsx:116 | `find` yields the first member with that id, and one exists exactly when some member has it |
| Domain.FindExpense | frontend/src/pages/ProjectPage.tsx:141 | `find` yields the first expense with that id, and one exists exactly when some expense has it |
| SavePlan.Creations | frontend/src/pages/ProjectPage.tsx:103-111 | a creation exactly for each edited member whose id the original snapshot lacks |
| SavePlan.Rewrite | frontend/src/pages/ProjectPage.tsx:103-111 | only the ids of new members change, each to the id the store answered |
| SavePlan.MemberUpdates | frontend/src/pages/ProjectPage.tsx:115-124 | an update exactly for each member whose original by id exists and differs in name or order |
| SavePlan.MemberDeletes | frontend/src/pages/ProjectPage.tsx:127-132 | a deletion exactly for each original member whose id is absent after the rewrite |
| SavePlan.OriginalExpense | frontend/src/pages/ProjectPage.tsx:139-141 | the original expense is found exactly when the original member exists and has that expense id |
| SavePlan.ExpenseWrites | frontend/src/pages/ProjectPage.tsx:136-158 | a creation exactly for each expense without an original, an update exactly for each that differs from it |
| SavePlan.ExpenseDeletes | frontend/src/pages/ProjectPage.tsx:161-166 | a deletion exactly for each original expense whose id the member lost; none without an original member |
| SavePlan.DeletesFrom | frontend/src/pages/ProjectPage.tsx:161-166 | a deletion, for the member's id, exactly for each original expense whose id the list lacks |
| SavePlan.MemberExpenseOps | frontend/src/pages/ProjectPage.tsx:136-166 | every request made for a member is an expense request for its id; `SavePlan.MemberExpenseOpsIff` states which |
| SavePlan.MemberExpenseOpsIff | frontend/src/pages/ProjectPage.tsx:136-166 | for one member: an expense is created exactly when it has no original, updated exactly when it differs from its original, and an original expense deleted exactly when the member lost its id |
| SavePlan.ExpenseOpsMembership | frontend/src/pages/ProjectPage.tsx:135-167 | an expense request is in the expense block exactly when a member with its member id produced it |
| SavePlan.ExpenseOps | frontend/src/pages/ProjectPage.tsx:135-167 | the expense block holds the requests of the listed members, each naming one of their ids |
| SavePlan.NameOps | frontend/src/pages/ProjectPage.tsx:96-98 | a rename, carrying the edited name, exactly when the name changed |
| SavePlan.SavedOps | frontend/src/pages/ProjectPage.tsx:96-167 | the requests come in phase order, and each kind comes from its own step only |
| SavePlan.SaveChanges | frontend/src/pages/ProjectPage.tsx:80-174 | skipped without a project or changes; demo: no requests and nothing unsaved; a failed creation leaves the state as it was and sends only the rename and the creations; a save takes the pre-rewrite edited list as the new original |
| SavePlan.RenameIff | frontend/src/pages/ProjectPage.tsx:96-98 | the project is renamed exactly when its name changed, and only with the edited name |
| SavePlan.CreatesIff | frontend/src/pages/ProjectPage.tsx:100-111 | a member is created exactly when the members changed and the original lacks its id |
| SavePlan.SurvivorsKeepIds | frontend/src/pages/ProjectPage.tsx:103-111 | with fresh store ids, an id of the original snapshot is kept by the rewrite exactly when the edited list has it, and a member with such an id survives unchanged |
| SavePlan.UpdatesAreChangedSurvivors | frontend/src/pages/ProjectPage.tsx:115-124 | with fresh store ids, a member is updated exactly when it kept an original id and its name or order changed |
| SavePlan.DeletesAreRemovedMembers | frontend/src/pages/ProjectPage.tsx:127-132 | with fresh store ids, an original member is deleted exactly when the edited list lacks its id |
| SavePlan.NoExpenseOpsForDeletedMembers | frontend/src/pages/ProjectPage.tsx:127-167 | no expense request names a member that the same save deletes |
| SavePlan.NewMemberExpensesCreated | frontend/src/pages/ProjectPage.tsx:135-147 | every expense of a new member is created under the store's id, and nothing else is sent for that id |
| SavePlan.CreatedExpensesIff | frontend/src/pages/ProjectPage.tsx:139-146 | an expense is created under an id exactly when a member of that id has it and the original member lacks its id |
| SavePlan.UpdatedExpensesIff | frontend/src/pages/ProjectPage.tsx:148-157 | an expense is updated exactly when it differs from its original in amount, name, order or involved ids; unchanged expenses get no request |
| SavePlan.DeletedExpensesIff | frontend/src/pages/ProjectPage.tsx:161-166 | an original expense is deleted exactly when a member of that id no longer has its id |
| SavePlan.ReorderedInvolvementIsAChange | frontend/src/pages/ProjectPage.tsx:153-154 | the involved ids are compared as an ordered list: the same two members swapped count as a change |
| SavePlan.StillDirtyAfterCreation | frontend/src/pages/ProjectPage.tsx:172-173 | the state a save with creations leaves, before any refetch, has unsaved changes exactly when some store id differs from its placeholder |
| SavePlan.SaveIsFinalWithoutCreations | frontend/src/pages/ProjectPage.tsx:80-174 | a save that creates no member is never rejected, and the state the save handler itself leaves, before any refetch, has nothing to save again |

## Left out

- HTTP, axios, FastAPI and the ORM are not modelled: the store is a list of requests, and a member's and an expense's rows are records. The `"Z"` timestamp parsing is not modelled. The CRUD handlers of `routers/*.py`, the other routes of `routes.py`, the `get_*_or_404` queries and the database, migration, limiter and `main.py` wiring are not part of this model.
- Rendering, hooks wiring, toasts, tooltips, i18n lookups and modals are not modelled. An error message is its i18n key.
- Authentication (`authenticated_or_401`) is not modelled. It depends on bcrypt and on the process environment.
- Floating point is not modelled. Amounts are exact reals, so drift, `-0` and NaN do not arise. `Math.round` and `toFixed` are specified roundings. `parseInt` is modelled on strings after section 19.2.5 of ECMA-262; its float result is taken to be the exact integer, so digit runs beyond 2^53 are not rounded.
- Concurrency is not modelled. The save runs sequentially in the order the page issues its requests. Only the awaited member creations are ordered in the source, and `SavePlan.SavedOps` puts them before everything that follows. A creation's failure is a `None` answer. Its effect, that no later step runs, is modelled; the partial success of other creations is not.
- The store answers the id of each new member. `SavePlan.DeletesAreRemovedMembers`, `SavePlan.UpdatesAreChangedSurvivors` and `SavePlan.NewMemberExpensesCreated` assume these ids are fresh, as the store's UUIDs are. The id a created expense returns is not used further by the page, so it is not modelled.
- The involved-member lookup of `create_expense` and `remodel_involved_members` queries every stored member, of any project. The model takes that set of ids as a parameter and does not restrict it to the project.
- The backend models assume the ORM's one-object-per-row identity. A member reached through an expense and the same member in the project's list share one balance, so members are matched by id.
- `project.members || []` assumes the members are present; a project without a member list is not modelled.
- The random suffix of placeholder ids and the `DEMO_PROJECT_ID` environment variable are parameters.

- `SavePlan.SaveChanges`: `updateMember` sets `member.name = null` in place (frontend/src/api/index.ts:64), on an object both snapshots share, so after the save the original snapshot holds null where the edited one showed ""; the model sends a normalised copy and leaves both snapshots as they were.
- `CalculatePayments.CalculatePayments`: the source writes `balance` in place onto the member objects (frontend/src/utils/calculatePayments.ts:7, 19, 22, 36-37), which both snapshots share, and the serialised comparison of the dirty check then sees that field; the model returns the balances and leaves the members untouched. The backend's public member has no `balance` field at all.
- `Routes.Calculate`: routes.py names `models.Calculate` (backend/app/routes.py:157, 191), which models.py does not define, so importing the module fails and the route never answers; `main.py` includes only the routers (backend/app/main.py:37-39). The same holds for `Routes.CreateExpense`, which sits in the same file; the route that answers is backend/app/routers/expenses.py:34-48, which takes the same schema and goes through `Helper.RemodelInvolvedMembers`. The model gives the route's evident logic. It also returns the public payments with the balances, where the source returns full `models.Payment` rows and the project.
- `SavePlan.StillDirtyAfterCreation`: the query invalidation after every successful request (frontend/src/hooks/useMemberActions.ts:21, 35, 49, 64, 79, 93) and the refetch it triggers are not modelled, because they depend on the network and the query cache; the lemma describes the state the save handler itself leaves, which lasts until the refetched project arrives and `ProjectState.SyncOnLoad` runs again.
- `SavePlan.SaveIsFinalWithoutCreations`: like `SavePlan.StillDirtyAfterCreation`, it describes the state the save handler leaves; the refetch that follows reloads expenses without an `order`, and their rows' reports make the page dirty again (`ProjectPage.ReloadedExpenseMarksDirty`), so with at least one expense the save is final only until that refetch arrives.
- `Routes.RaisesIffAmountMissing`: a stored expense without an amount cannot come from `Routes.CreateExpense`, whose schema defaults the amount to 0 and refuses null (backend/app/models.py:75-77, 92-93); the stored amount stays optional because the helper guards it with `expense.amount or 0`, and the lemma covers rows written some other way.

Three behaviours of the code are easy to miss:

- The scan emits a zero-amount payment for every creditor still owed once a debtor is paid off (frontend/src/utils/calculatePayments.ts:28-35; `Settlement.ZeroTransferExample`, `Settlement.PaidOffDebtorEmitsZeroTransfers`).
- After a save, the original snapshot is the edited list from before the id rewrite (frontend/src/pages/ProjectPage.tsx:112, 172-173). When members were created, the edited list carries the store's ids, so unsaved changes remain (`SavePlan.StillDirtyAfterCreation`) until the refetch that each successful `addMember` asks for (frontend/src/hooks/useMemberActions.ts:21) reloads the project and resets both snapshots (frontend/src/hooks/useProjectState.ts:13-21). The reload does not leave the page clean either when the project has an expense (next point).
- Right after a load the page is already dirty. Each member row reports its member once when it mounts (frontend/src/components/MemberItem.tsx:40-42). Each expense row reports its expense whenever the expense it is given changes: on mount and again after every reload (frontend/src/components/ExpenseItem.tsx:19-25). The page's handlers then number the items by position, and the store keeps no `order` (backend/app/models.py:75-90). Every successful request invalidates the project query (frontend/src/hooks/useMemberActions.ts:21, 35, 49, 64, 79, 93). So after the first load, and again after the refetch that follows every save, a project with at least one expense has unsaved changes. Each save therefore sends an update for every expense (`ProjectPage.MountedMemberMarksUnnumberedDirty`, `ProjectPage.MountedExpenseMarksUnnumberedDirty`, `ProjectPage.ReloadedExpenseMarksDirty`).

=== FILE: api.dfy ===
/** `frontend/src/api/index.ts`: the error-message choice and the request
    bodies the store calls send. The HTTP calls themselves are not modelled. */
module Api {
  import opened Basics
  import opened Domain
  import opened ProjectState

  /** The parts of an `AxiosError` that are read: `code`, `status`, `message`. */
  datatype AxiosError = AxiosError(code: Option<string>, status: Option<int>, message: string)

  /** A message: an i18n key to translate, or the error's own text. */
  datatype ErrorText = Translated(key: string) | Untranslated(text: string)

  /** The i18n key of a transport-level error code, if it has one. */
  function CodeKey(code: Option<string>): (key: Option<string>)
    ensures key.Some? <==> code in {Some("ERR_NETWORK"), Some("ECONNABORTED"), Some("ETIMEDOUT")}
    ensures code == Some("ERR_NETWORK") ==> key == Some("common:error.networkError")
    ensures code == Some("ECONNABORTED") ==> key == Some("common:error.requesetAborted")
    ensures code == Some("ETIMEDOUT") ==> key == Some("common:error.requestTimeout")
  {
    match code
    case Some("ERR_NETWORK") => Some("common:error.networkError")
    case Some("ECONNABORTED") => Some("common:error.requesetAborted")
    case Some("ETIMEDOUT") => Some("common:error.requestTimeout")
    case _ => None
  }

  /** `getErrorMessage`: a known code decides first; only then is status 429
      reported as too many requests; any other error shows its message. */
  function ErrorMessage(err: AxiosError): (t: ErrorText)
    ensures t.Translated? <==> CodeKey(err.code).Some? || err.status == Some(429)
    ensures CodeKey(err.code).Some? ==> t == Translated(CodeKey(err.code).value)
    ensures CodeKey(err.code).None? && err.status == Some(429) ==> t == Translated("common:error.tooManyRequests")
    ensures t.Untranslated? ==> t.text == err.message
  {
    if CodeKey(err.code).Some? then Translated(CodeKey(err.code).value)
    else if err.status == Some(429) then Translated("common:error.tooManyRequests")
    else Untranslated(err.message)
  }

  /** The code check comes before the status check: with a known code the
      status plays no part, and without one the code plays no part. */
  lemma CodeBeforeStatus(err: AxiosError, status: Option<int>, code: Option<string>)
    ensures CodeKey(err.code).Some? ==> ErrorMessage(err.(status := status)) == ErrorMessage(err)
    ensures CodeKey(err.code).None? && CodeKey(code).None? ==>
      ErrorMessage(err.(code := code)) == ErrorMessage(err)
  {
  }

  /** A rate-limited request with a network code reports the network error. */
  lemma NetworkErrorWinsOverRateLimit(message: string)
    ensures ErrorMessage(AxiosError(Some("ERR_NETWORK"), Some(429), message))
         == Translated("common:error.networkError")
  {
  }

  /** `if (x.name === "") x.name = null`. */
  function NormalizeName(name: Option<string>): (r: Option<string>)
    ensures r.None? <==> name.None? || name == Some("")
    ensures r.Some? ==> r == name
  {
    if name == Some("") then None else name
  }

  /** Normalising a normalised name changes nothing. */
  lemma NormalizeNameIdempotent(name: Option<string>)
    ensures NormalizeName(NormalizeName(name)) == NormalizeName(name)
  {
  }

  /** The body `addProject` and `updateProject` send: only the name normalised. */
  function ProjectPayload(p: Project): (r: Project)
    ensures r.(name := p.name) == p
    ensures r.name.None? <==> p.name.None? || p.name == Some("")
    ensures r.name.Some? ==> r.name == p.name
  {
    p.(name := NormalizeName(p.name))
  }

  /** The body `updateMember` sends: only the name normalised. */
  function UpdateMemberPayload(m: Member): (r: Member)
    ensures r.(name := m.name) == m
    ensures r.name.None? <==> m.name.None? || m.name == Some("")
    ensures r.name.Some? ==> r.name == m.name
  {
    m.(name := NormalizeName(m.name))
  }

  /** `addMember` sends the member as it is, so a member named `""` is
      created with that empty name but updated to a null one; any other member
      is sent identically by both calls. */
  lemma EmptyNameOnlyNormalizedOnUpdate(m: Member)
    ensures m.name == Some("") ==> UpdateMemberPayload(m) != m && UpdateMemberPayload(m).name.None?
    ensures m.name != Some("") ==> UpdateMemberPayload(m) == m
  {
  }

  /** The name field shows a null name as empty, and the store sends an empty
      name as null: showing a name and sending it back stores what was
      loaded, and showing a normalised name shows the same text. */
  lemma DisplayedNameRoundTrip(name: Option<string>)
    ensures NormalizeName(Some(DisplayName(name))) == NormalizeName(name)
    ensures DisplayName(NormalizeName(name)) == DisplayName(name)
  {
  }

  /** The body `addExpense` and `updateExpense` send: the expense with its
      involved members replaced by their ids. */
  datatype ExpenseBody = ExpenseBody(
    id: string,
    name: Option<string>,
    amount: Option<real>,
    order: Option<int>,
    involvedIds: seq<string>)

  function ExpensePayload(e: Expense): (r: ExpenseBody)
    ensures |r.involvedIds| == |e.involved|
    ensures forall i :: 0 <= i < |e.involved| ==> r.involvedIds[i] == e.involved[i].id
    ensures r.id == e.id && r.name == e.name && r.amount == e.amount && r.order == e.order
  {
    ExpenseBody(e.id, e.name, e.amount, e.order, RefIds(e.involved))
  }

  /** The body forgets exactly the involved members' names: two expenses give
      the same body iff they agree on everything but those names. */
  lemma ExpensePayloadForgetsNames(e1: Expense, e2: Expense)
    ensures ExpensePayload(e1) == ExpensePayload(e2) <==>
      && e1.id == e2.id && e1.name == e2.name && e1.amount == e2.amount && e1.order == e2.order
      && RefIds(e1.involved) == RefIds(e2.involved)
  {
  }

  /** Rebuilding the involved references from the ids and a name lookup gives
      the expense back when the lookup knows each reference's name. */
  lemma ExpensePayloadRoundTrip(e: Expense, nameOf: map<string, Option<string>>)
    requires forall r :: r in e.involved ==> r.id in nameOf && nameOf[r.id] == r.name
    ensures var body := ExpensePayload(e);
      FromBody(body, nameOf) == Some(e)
  {
    var body := ExpensePayload(e);
    var refs := seq(|body.involvedIds|, i requires 0 <= i < |body.involvedIds| =>
                      MemberRef(body.involvedIds[i], nameOf[body.involvedIds[i]]));
    forall id | id in body.involvedIds ensures id in nameOf {
      var i :| 0 <= i < |body.involvedIds| && body.involvedIds[i] == id;
      assert e.involved[i] in e.involved;
    }
    forall i | 0 <= i < |e.involved| ensures refs[i] == e.involved[i] {
      assert e.involved[i] in e.involved;
    }
    assert refs == e.involved;
  }

  /** The expense a body describes, given each involved member's name. */
  function FromBody(body: ExpenseBody, nameOf: map<string, Option<string>>): (r: Option<Expense>)
    ensures r.Some? <==> forall id :: id in body.involvedIds ==> id in nameOf
    ensures r.Some? ==> ExpensePayload(r.value) == body
  {
    if forall id :: id in body.involvedIds ==> id in nameOf then
      var refs := seq(|body.involvedIds|, i requires 0 <= i < |body.involvedIds| =>
                        MemberRef(body.involvedIds[i], nameOf[body.involvedIds[i]]));
      Some(Expense(body.id, body.name, body.amount, body.order, refs))
    else None
  }
}

=== FILE: balances.dfy ===
/** Balance vectors: one `real` per member, in member-list order.
    Every accumulation step of the three settlement twins is a `Shift`:
    add `delta` to the balance of each member picked out by a mask. */
module Balances {

  /** Total of all balances. */
  function Sum(b: seq<real>): real {
    if |b| == 0 then 0.0 else b[0] + Sum(b[1..])
  }

  /** Number of positions the mask selects. */
  function Count(mask: seq<bool>): nat {
    if |mask| == 0 then 0 else (if mask[0] then 1 else 0) + Count(mask[1..])
  }

  /** `n` zero balances: what every member holds after the reset. */
  function Zeros(n: nat): (r: seq<real>)
    ensures |r| == n
    ensures forall k :: 0 <= k < n ==> r[k] == 0.0
  {
    seq(n, k => 0.0)
  }

  /** Adds `delta` to every balance the mask selects; the others are unchanged. */
  function Shift(b: seq<real>, mask: seq<bool>, delta: real): (r: seq<real>)
    requires |mask| == |b|
    ensures |r| == |b|
    ensures forall k :: 0 <= k < |b| ==> r[k] == if mask[k] then b[k] + delta else b[k]
  {
    if |b| == 0 then []
    else [if mask[0] then b[0] + delta else b[0]] + Shift(b[1..], mask[1..], delta)
  }

  /** A shift changes the total by `delta` once per selected member. */
  lemma {:induction false} SumShift(b: seq<real>, mask: seq<bool>, delta: real)
    requires |mask| == |b|
    ensures Sum(Shift(b, mask, delta)) == Sum(b) + Times(Count(mask), delta)
  {
    if |b| > 0 {
      SumShift(b[1..], mask[1..], delta);
      var r := Shift(b, mask, delta);
      assert r[1..] == Shift(b[1..], mask[1..], delta);
    }
  }

  /** `n` copies of `x` added up: `n * x`, kept apart from multiplication so
      that sums of balances stay linear. */
  function Times(n: nat, x: real): real {
    if n == 0 then 0.0 else x + Times(n - 1, x)
  }

  lemma {:induction false} TimesIsProduct(n: nat, x: real)
    ensures Times(n, x) == n as real * x
  {
    if n > 0 {
      TimesIsProduct(n - 1, x);
    }
  }

  lemma {:induction false} TimesNegate(n: nat, x: real)
    ensures Times(n, -x) == -Times(n, x)
  {
    if n > 0 {
      TimesNegate(n - 1, x);
    }
  }

  /** `n` shares of `amount / n` make up `amount`. */
  lemma TimesShare(n: nat, amount: real)
    requires n > 0
    ensures Times(n, amount / n as real) == amount
  {
    TimesIsProduct(n, amount / n as real);
  }

  /** One expense split: `share` debited at every position of `debit`, then
      `amount` credited at every position of `credit`. */
  function Split(b: seq<real>, debit: seq<bool>, credit: seq<bool>, share: real, amount: real): (r: seq<real>)
    requires |debit| == |b| && |credit| == |b|
    ensures |r| == |b|
  {
    Shift(Shift(b, debit, -share), credit, amount)
  }

  /** A split moves the total by what it credits minus what it debits. */
  lemma SumSplit(b: seq<real>, debit: seq<bool>, credit: seq<bool>, share: real, amount: real)
    requires |debit| == |b| && |credit| == |b|
    ensures Sum(Split(b, debit, credit, share, amount))
         == Sum(b) - Times(Count(debit), share) + Times(Count(credit), amount)
  {
    SumShift(b, debit, -share);
    SumShift(Shift(b, debit, -share), credit, amount);
    TimesNegate(Count(debit), share);
  }

  function Only(n: nat, p: nat): (mask: seq<bool>)
    ensures |mask| == n
    ensures forall k :: 0 <= k < n ==> (mask[k] <==> k == p)
  {
    seq(n, k => k == p)
  }

  /** The mask selecting every position. */
  function All(n: nat): (mask: seq<bool>)
    ensures |mask| == n
    ensures forall k :: 0 <= k < n ==> mask[k]
  {
    seq(n, k => true)
  }

  lemma {:induction false} CountOnly(n: nat, p: nat)
    ensures Count(Only(n, p)) == if p < n then 1 else 0
  {
    if n > 0 {
      var m := Only(n, p);
      if p == 0 {
        CountNone(m[1..]);
      } else {
        assert m[1..] == Only(n - 1, p - 1);
        CountOnly(n - 1, p - 1);
      }
    }
  }

  lemma {:induction false} CountNone(mask: seq<bool>)
    requires forall k :: 0 <= k < |mask| ==> !mask[k]
    ensures Count(mask) == 0
  {
    if |mask| > 0 {
      CountNone(mask[1..]);
    }
  }

  lemma {:induction false} CountAll(n: nat)
    ensures Count(All(n)) == n
  {
    if n > 0 {
      assert All(n)[1..] == All(n - 1);
      CountAll(n - 1);
    }
  }

  /** Overwriting one balance changes the total by the difference. */
  lemma {:induction false} SumUpdate(b: seq<real>, k: nat, x: real)
    requires k < |b|
    ensures Sum(b[k := x]) == Sum(b) - b[k] + x
  {
    if k > 0 {
      SumUpdate(b[1..], k - 1, x);
      assert b[k := x][1..] == b[1..][k - 1 := x];
    } else {
      assert b[k := x][1..] == b[1..];
    }
  }

  /** Balances that are all non-negative and total zero are all zero. */
  lemma {:induction false} NonNegativeZeroSum(b: seq<real>)
    requires forall k :: 0 <= k < |b| ==> b[k] >= 0.0
    requires Sum(b) == 0.0
    ensures forall k :: 0 <= k < |b| ==> b[k] == 0.0
  {
    if |b| > 0 {
      NonNegativeSum(b[1..]);
      NonNegativeZeroSum(b[1..]);
      forall k | 0 <= k < |b| ensures b[k] == 0.0 {
        if k > 0 {
          assert b[k] == b[1..][k - 1];
        }
      }
    }
  }

  /** Balances that are all non-positive and total zero are all zero. */
  lemma {:induction false} NonPositiveZeroSum(b: seq<real>)
    requires forall k :: 0 <= k < |b| ==> b[k] <= 0.0
    requires Sum(b) == 0.0
    ensures forall k :: 0 <= k < |b| ==> b[k] == 0.0
  {
    var n := Negate(b);
    NonNegativeZeroSum(n);
  }

  lemma {:induction false} NonNegativeSum(b: seq<real>)
    requires forall k :: 0 <= k < |b| ==> b[k] >= 0.0
    ensures Sum(b) >= 0.0
  {
    if |b| > 0 {
      NonNegativeSum(b[1..]);
    }
  }

  /** The balances with every sign flipped; the total flips too. */
  function Negate(b: seq<real>): (r: seq<real>)
    ensures |r| == |b|
    ensures forall k :: 0 <= k < |b| ==> r[k] == -b[k]
    ensures Sum(r) == -Sum(b)
  {
    if |b| == 0 then [] else [-b[0]] + Negate(b[1..])
  }
}

=== FILE: basics.dfy ===
/** Small value types shared by every module: optional values, results
    with an error side, and a few facts about sequences of strings. */
module Basics {

  /** A value that may be absent: JavaScript `null`/`undefined`, Python `None`. */
  datatype Option<+T> = None | Some(value: T) {
    function GetOr(default: T): T {
      match this
      case Some(v) => v
      case None => default
    }
  }

  /** The outcome of an operation that can fail with an error value. */
  datatype Result<+R, +E> = Ok(value: R) | Err(error: E)

  /** `s` begins with `prefix`. */
  predicate StartsWith(s: string, prefix: string) {
    |prefix| <= |s| && s[..|prefix|] == prefix
  }

  /** No element occurs twice in `s`. */
  predicate Distinct<T(==)>(s: seq<T>) {
    forall i, j :: 0 <= i < j < |s| ==> s[i] != s[j]
  }

  /** The elements of `s` as a set. */
  function Elements<T>(s: seq<T>): set<T> {
    set x | x in s
  }

  /** A duplicate-free sequence has as many elements as the set of its elements. */
  lemma {:induction false} DistinctCardinality<T>(s: seq<T>)
    requires Distinct(s)
    ensures |Elements(s)| == |s|
  {
    if |s| > 0 {
      var t := s[1..];
      assert Distinct(t) by {
        forall i, j | 0 <= i < j < |t| ensures t[i] != t[j] {
          assert t[i] == s[i + 1] && t[j] == s[j + 1];
        }
      }
      DistinctCardinality(t);
      assert Elements(s) == Elements(t) + {s[0]} by {
        forall x ensures x in Elements(s) <==> x in Elements(t) + {s[0]} {
          if x in s && x != s[0] {
            var k :| 0 <= k < |s| && s[k] == x;
            assert t[k - 1] == x;
          }
        }
      }
      assert s[0] !in Elements(t);
    }
  }

  /** A sequence with a repeated element has fewer distinct elements than entries. */
  lemma {:induction false} RepeatShrinksElements<T>(s: seq<T>)
    requires !Distinct(s)
    ensures |Elements(s)| < |s|
  {
    var i, j :| 0 <= i < j < |s| && s[i] == s[j];
    var t := s[..j] + s[j + 1..];
    assert Elements(s) <= Elements(t) by {
      forall x | x in Elements(s) ensures x in Elements(t) {
        var k :| 0 <= k < |s| && s[k] == x;
        if k < j {
          assert t[k] == x;
        } else if k == j {
          assert t[i] == x;
        } else {
          assert t[k - 1] == x;
        }
      }
    }
    ElementsBound(t);
    assert |t| == |s| - 1;
    SubsetCardinality(Elements(s), Elements(t));
  }

  /** A sequence never has more distinct elements than entries. */
  lemma {:induction false} ElementsBound<T>(s: seq<T>)
    ensures |Elements(s)| <= |s|
  {
    if |s| > 0 {
      ElementsBound(s[1..]);
      assert Elements(s) == Elements(s[1..]) + {s[0]} by {
        forall x ensures x in Elements(s) <==> x in Elements(s[1..]) + {s[0]} {
          if x in s && x != s[0] {
            var k :| 0 <= k < |s| && s[k] == x;
            assert s[1..][k - 1] == x;
          }
        }
      }
    }
  }

  /** A subset is no larger than its superset. */
  lemma SubsetCardinality<T>(a: set<T>, b: set<T>)
    requires a <= b
    ensures |a| <= |b|
  {
    assert b == a + (b - a);
  }

  /** The elements of a non-empty sequence: its head and those of its tail. */
  lemma ElementsCons<T>(s: seq<T>)
    requires |s| > 0
    ensures Elements(s) == {s[0]} + Elements(s[1..])
  {
    forall x | x in Elements(s) ensures x in {s[0]} + Elements(s[1..]) {
      var k :| 0 <= k < |s| && s[k] == x;
      if k > 0 {
        assert s[1..][k - 1] == x;
      }
    }
  }

  /** The tail of a duplicate-free sequence is duplicate-free and lacks the head. */
  lemma DistinctTail<T>(s: seq<T>)
    requires |s| > 0 && Distinct(s)
    ensures Distinct(s[1..]) && s[0] !in s[1..]
  {
    var t := s[1..];
    forall i, j | 0 <= i < j < |t| ensures t[i] != t[j] {
      assert t[i] == s[i + 1] && t[j] == s[j + 1];
    }
  }

  /** A non-empty sequence holds its head and the elements of its tail, and nothing else. */
  lemma HeadOrTail<T>(s: seq<T>)
    requires |s| > 0
    ensures forall x :: x in s <==> x == s[0] || x in s[1..]
  {
    assert s == [s[0]] + s[1..];
  }

  /** The elements of `s` that satisfy `keep`, in their order. */
  function Filter<T>(s: seq<T>, keep: T -> bool): seq<T> {
    if |s| == 0 then [] else (if keep(s[0]) then [s[0]] else []) + Filter(s[1..], keep)
  }

  /** Filtering works element by element: it distributes over concatenation. */
  lemma {:induction false} FilterConcat<T>(a: seq<T>, b: seq<T>, keep: T -> bool)
    ensures Filter(a + b, keep) == Filter(a, keep) + Filter(b, keep)
    decreases |a|
  {
    if |a| == 0 {
      assert a + b == b;
    } else {
      assert (a + b)[0] == a[0] && (a + b)[1..] == a[1..] + b;
      FilterConcat(a[1..], b, keep);
    }
  }
}

=== FILE: calculate_payments.dfy ===
/** The frontend `calculatePayments`: reset every balance, accumulate the
    expenses member by member, then run the debtor x creditor scan and record
    each transfer rounded to cents. Members are referred to by position. */
module CalculatePayments {
  import opened Basics
  import opened Balances
  import opened Settlement
  import opened Rounding
  import opened Domain

  /** `if (!expense.amount) return;`: null and 0 contribute nothing. */
  predicate Contributes(e: Expense) {
    e.amount.Some? && e.amount.value != 0.0
  }

  /** Whether the member at `k` shares expense `e`. */
  predicate Shares(members: seq<Member>, e: Expense, k: nat)
    requires k < |members|
  {
    |e.involved| == 0 || members[k].id in RefIds(e.involved)
  }

  /** The effective involved set as a mask over the member list: everybody when
      `involved_members` is empty, otherwise each current member whose id occurs
      among the involved ids. */
  function SharedBy(members: seq<Member>, e: Expense): (mask: seq<bool>)
    ensures |mask| == |members|
    ensures forall k :: 0 <= k < |members| ==> (mask[k] <==> Shares(members, e, k))
  {
    seq(|members|, k requires 0 <= k < |members| => Shares(members, e, k))
  }

  /** One expense paid by the member at `payer`: every sharing member is debited
      `amount / |set|` and the payer is credited the whole amount. */
  function ApplyExpense(b: seq<real>, members: seq<Member>, payer: nat, e: Expense): (r: seq<real>)
    requires |b| == |members| && payer < |b|
    ensures |r| == |b|
    ensures !Contributes(e) ==> r == b
    ensures Contributes(e) && Count(SharedBy(members, e)) > 0 ==> Sum(r) == Sum(b)
    ensures Contributes(e) && Count(SharedBy(members, e)) == 0 ==> Sum(r) == Sum(b) + e.amount.value
  {
    if !Contributes(e) then b
    else
      var mask := SharedBy(members, e);
      var n := Count(mask);
      var a := e.amount.value;
      // With nobody sharing, the JavaScript share is a division by zero that no member receives.
      var share := if n == 0 then 0.0 else a / n as real;
      SumSplit(b, mask, Only(|b|, payer), share, a);
      CountOnly(|b|, payer);
      assert n > 0 ==> Times(n, share) == a by {
        if n > 0 {
          TimesShare(n, a);
        }
      }
      Split(b, mask, Only(|b|, payer), share, a)
  }

  /** An expense paid by `payer`, visited in the accumulation loop. */
  datatype Charge = Charge(payer: nat, expense: Expense)

  /** Every expense of the members from `p` on, member by member, each in list order. */
  function ChargesFrom(members: seq<Member>, p: nat): (cs: seq<Charge>)
    requires p <= |members|
    ensures forall c :: c in cs ==> p <= c.payer < |members| && c.expense in members[c.payer].expenses
    decreases |members| - p
  {
    if p == |members| then []
    else
      var own := seq(|members[p].expenses|, q requires 0 <= q < |members[p].expenses| =>
                       Charge(p, members[p].expenses[q]));
      own + ChargesFrom(members, p + 1)
  }

  function Charges(members: seq<Member>): (cs: seq<Charge>)
    ensures forall c :: c in cs ==> c.payer < |members| && c.expense in members[c.payer].expenses
  {
    ChargesFrom(members, 0)
  }

  /** Applies the charges in order. */
  function Accumulate(b: seq<real>, members: seq<Member>, cs: seq<Charge>): (r: seq<real>)
    requires |b| == |members|
    requires forall c :: c in cs ==> c.payer < |members|
    ensures |r| == |b|
    decreases |cs|
  {
    if |cs| == 0 then b
    else Accumulate(ApplyExpense(b, members, cs[0].payer, cs[0].expense), members, cs[1..])
  }

  /** The balances after the reset and the accumulation loop. */
  function AccumulatedBalances(members: seq<Member>): (b: seq<real>)
    ensures |b| == |members|
  {
    Accumulate(Zeros(|members|), members, Charges(members))
  }

  /** Total of the contributing charges that nobody shares: what the payer is
      credited without anybody being debited. */
  function Unshared(members: seq<Member>, cs: seq<Charge>): real {
    if |cs| == 0 then 0.0
    else
      var e := cs[0].expense;
      (if Contributes(e) && Count(SharedBy(members, e)) == 0 then e.amount.value else 0.0)
        + Unshared(members, cs[1..])
  }

  /** Every contributing expense is shared by at least one current member. */
  predicate EverySplitHasSharers(members: seq<Member>) {
    forall c :: c in Charges(members) && Contributes(c.expense) ==> Count(SharedBy(members, c.expense)) > 0
  }

  /** A recorded payment: `from_member`, `to_member` (as positions) and the rounded amount. */
  datatype Payment = Payment(fromMember: nat, toMember: nat, amount: real)

  /** The payments and the balance each member is left with. */
  datatype Calculation = Calculation(payments: seq<Payment>, balances: seq<real>)

  /** `Math.round(amount * 100) / 100` of each transfer, in order. */
  function RecordAll(ts: seq<Transfer>): (ps: seq<Payment>)
    ensures |ps| == |ts|
    ensures forall k :: 0 <= k < |ts| ==>
      ps[k] == Payment(ts[k].debtor, ts[k].creditor, RoundCents(ts[k].amount))
  {
    if |ts| == 0 then [] else [Payment(ts[0].debtor, ts[0].creditor, RoundCents(ts[0].amount))] + RecordAll(ts[1..])
  }

  /** `calculatePayments(members)`. Payments go between distinct members, are
      never negative, and come in (debtor, creditor) order; no members yields no
      payments. */
  function CalculatePayments(members: seq<Member>): (r: Calculation)
    ensures |r.balances| == |members|
    ensures |members| == 0 ==> r.payments == []
    ensures forall k :: 0 <= k < |r.payments| ==>
      var p := r.payments[k];
      p.fromMember < |members| && p.toMember < |members| && p.fromMember != p.toMember && p.amount >= 0.0
    ensures forall k, l :: 0 <= k < l < |r.payments| ==>
      var p, q := r.payments[k], r.payments[l];
      p.fromMember < q.fromMember || (p.fromMember == q.fromMember && p.toMember < q.toMember)
  {
    var b := AccumulatedBalances(members);
    var run := Settle(b);
    SettleShape(b);
    Calculation(RecordAll(run.transfers), run.balances)
  }

  // ----- properties -----

  /** The accumulation changes the total only by the amounts nobody shares. */
  lemma {:induction false} AccumulateSum(b: seq<real>, members: seq<Member>, cs: seq<Charge>)
    requires |b| == |members|
    requires forall c :: c in cs ==> c.payer < |members|
    ensures Sum(Accumulate(b, members, cs)) == Sum(b) + Unshared(members, cs)
    decreases |cs|
  {
    if |cs| > 0 {
      assert cs[0] in cs;
      assert forall c :: c in cs[1..] ==> c in cs;
      var b1 := ApplyExpense(b, members, cs[0].payer, cs[0].expense);
      AccumulateSum(b1, members, cs[1..]);
    }
  }

  /** Unshared amounts vanish when every split has a sharer. */
  lemma {:induction false} NoUnshared(members: seq<Member>, cs: seq<Charge>)
    requires forall c :: c in cs && Contributes(c.expense) ==> Count(SharedBy(members, c.expense)) > 0
    ensures Unshared(members, cs) == 0.0
  {
    if |cs| > 0 {
      assert cs[0] in cs;
      assert forall c :: c in cs[1..] ==> c in cs;
      NoUnshared(members, cs[1..]);
    }
  }

  /** After the accumulation the balances total exactly the amounts paid for
      expenses that no current member shares; in particular they total zero
      when every split has a sharer. */
  lemma BalancesTotal(members: seq<Member>)
    ensures Sum(AccumulatedBalances(members)) == Unshared(members, Charges(members))
    ensures EverySplitHasSharers(members) ==> Sum(AccumulatedBalances(members)) == 0.0
  {
    AccumulateSum(Zeros(|members|), members, Charges(members));
    ZerosSum(|members|);
    if EverySplitHasSharers(members) {
      NoUnshared(members, Charges(members));
    }
  }

  lemma {:induction false} ZerosSum(n: nat)
    ensures Sum(Zeros(n)) == 0.0
  {
    if n > 0 {
      assert Zeros(n)[1..] == Zeros(n - 1);
      ZerosSum(n - 1);
    }
  }

  /** When every split has a sharer the scan settles everybody: every member
      ends at balance 0, each debtor's unrounded payments add up to its deficit
      and each creditor's to its surplus. */
  lemma EverybodySettled(members: seq<Member>)
    requires EverySplitHasSharers(members)
    ensures var b := AccumulatedBalances(members);
      var run := Settle(b);
      && CalculatePayments(members).balances == run.balances
      && (forall k :: 0 <= k < |members| ==> run.balances[k] == 0.0)
      && (forall k :: 0 <= k < |members| && b[k] < 0.0 ==> Outgoing(run.transfers, k) == -b[k])
      && (forall k :: 0 <= k < |members| && b[k] > 0.0 ==> Incoming(run.transfers, k) == b[k])
  {
    BalancesTotal(members);
    ZeroSumSettlesEveryone(AccumulatedBalances(members));
  }

  /** Each recorded payment is its unrounded transfer to within half a cent, in
      the same order; the balances were moved by the unrounded amounts. */
  lemma PaymentsRoundTransfers(members: seq<Member>)
    ensures var run := Settle(AccumulatedBalances(members));
      var ps := CalculatePayments(members).payments;
      && |ps| == |run.transfers|
      && forall k :: 0 <= k < |ps| ==>
           && ps[k].fromMember == run.transfers[k].debtor
           && ps[k].toMember == run.transfers[k].creditor
           && run.transfers[k].amount - 0.005 < ps[k].amount <= run.transfers[k].amount + 0.005
  {
  }

  /** Adding, to a non-empty `involved_members`, a reference whose id no current
      member has changes nothing about who shares the expense. */
  lemma UnknownIdsIgnored(members: seq<Member>, e: Expense, extra: MemberRef)
    requires |e.involved| > 0
    requires !HasMember(members, extra.id)
    ensures SharedBy(members, e.(involved := e.involved + [extra])) == SharedBy(members, e)
  {
    var e' := e.(involved := e.involved + [extra]);
    assert RefIds(e'.involved) == RefIds(e.involved) + [extra.id];
    forall k | 0 <= k < |members| ensures Shares(members, e', k) == Shares(members, e, k) {
      assert members[k].id == MemberIds(members)[k];
    }
  }

  /** A member who neither shares nor paid an expense keeps its balance. */
  lemma BystanderUnaffected(b: seq<real>, members: seq<Member>, payer: nat, e: Expense, k: nat)
    requires |b| == |members| && payer < |b| && k < |b| && k != payer
    requires !Shares(members, e, k)
    ensures ApplyExpense(b, members, payer, e)[k] == b[k]
  {
  }

  /** The stored `balance` fields play no part: they are reset first. */
  lemma ResetIgnoresStoredBalances(ms: seq<Member>, ms': seq<Member>)
    requires |ms| == |ms'|
    requires forall k :: 0 <= k < |ms| ==> ms'[k] == ms[k].(balance := ms'[k].balance)
    ensures CalculatePayments(ms) == CalculatePayments(ms')
  {
    forall e: Expense ensures SharedBy(ms, e) == SharedBy(ms', e) {
      assert MemberIds(ms) == MemberIds(ms');
    }
    ChargesAgree(ms, ms', 0);
    AccumulateAgrees(Zeros(|ms|), ms, ms', Charges(ms));
  }

  lemma {:induction false} ChargesAgree(ms: seq<Member>, ms': seq<Member>, p: nat)
    requires |ms| == |ms'| && p <= |ms|
    requires forall k :: 0 <= k < |ms| ==> ms'[k].expenses == ms[k].expenses
    ensures ChargesFrom(ms, p) == ChargesFrom(ms', p)
    decreases |ms| - p
  {
    if p < |ms| {
      ChargesAgree(ms, ms', p + 1);
    }
  }

  lemma {:induction false} AccumulateAgrees(b: seq<real>, ms: seq<Member>, ms': seq<Member>, cs: seq<Charge>)
    requires |b| == |ms| == |ms'|
    requires forall c :: c in cs ==> c.payer < |ms|
    requires forall e: Expense :: SharedBy(ms, e) == SharedBy(ms', e)
    ensures Accumulate(b, ms, cs) == Accumulate(b, ms', cs)
    decreases |cs|
  {
    if |cs| > 0 {
      assert cs[0] in cs;
      assert forall c :: c in cs[1..] ==> c in cs;
      assert ApplyExpense(b, ms, cs[0].payer, cs[0].expense) == ApplyExpense(b, ms', cs[0].payer, cs[0].expense);
      AccumulateAgrees(ApplyExpense(b, ms, cs[0].payer, cs[0].expense), ms, ms', cs[1..]);
    }
  }
}

=== FILE: domain.dfy ===
/** The frontend's records: a project's members, each owning its expenses.
    `order` is carried on both records because the edit handlers and the save
    diff read and write it; it is `None` where the field is absent, as on every
    record the backend sends (its public member and expense records have no
    `order`). An expense's `involved_members` holds member references (id and
    name); an empty list means "every member". */
module Domain {
  import opened Basics

  /** An entry of `involved_members`: a member's id and display name. */
  datatype MemberRef = MemberRef(id: string, name: Option<string>)

  datatype Expense = Expense(
    id: string,
    name: Option<string>,
    amount: Option<real>,
    order: Option<int>,
    involved: seq<MemberRef>)

  /** `balance` is the scratch field the settlement overwrites. */
  datatype Member = Member(
    id: string,
    name: Option<string>,
    order: Option<int>,
    expenses: seq<Expense>,
    balance: real)

  /** The part of a loaded project the core reads. */
  datatype Project = Project(id: string, name: Option<string>, members: seq<Member>)

  /** `refs.map(m => m.id)`. */
  function RefIds(refs: seq<MemberRef>): (ids: seq<string>)
    ensures |ids| == |refs|
    ensures forall i :: 0 <= i < |refs| ==> ids[i] == refs[i].id
  {
    seq(|refs|, i requires 0 <= i < |refs| => refs[i].id)
  }

  /** `members.map(m => m.id)`. */
  function MemberIds(ms: seq<Member>): (ids: seq<string>)
    ensures |ids| == |ms|
    ensures forall k :: 0 <= k < |ms| ==> ids[k] == ms[k].id
  {
    seq(|ms|, k requires 0 <= k < |ms| => ms[k].id)
  }

  /** `expenses.map(e => e.id)`. */
  function ExpenseIds(es: seq<Expense>): (ids: seq<string>)
    ensures |ids| == |es|
    ensures forall k :: 0 <= k < |es| ==> ids[k] == es[k].id
  {
    seq(|es|, k requires 0 <= k < |es| => es[k].id)
  }

  /** `members.some(m => m.id === id)`. */
  predicate HasMember(ms: seq<Member>, id: string) {
    id in MemberIds(ms)
  }

  /** `expenses.some(e => e.id === id)`. */
  predicate HasExpense(es: seq<Expense>, id: string) {
    id in ExpenseIds(es)
  }

  /** `members.find(m => m.id === id)`: the first member with that id. */
  function FindMember(ms: seq<Member>, id: string): (r: Option<Member>)
    ensures r.Some? <==> HasMember(ms, id)
    ensures r.Some? ==> exists k :: 0 <= k < |ms| && ms[k] == r.value && r.value.id == id
                          && forall k' :: 0 <= k' < k ==> ms[k'].id != id
  {
    if |ms| == 0 then None
    else if ms[0].id == id then Some(ms[0])
    else
      var r := FindMember(ms[1..], id);
      assert r.Some? ==> exists k :: 1 <= k < |ms| && ms[k] == r.value && r.value.id == id
                           && forall k' :: 0 <= k' < k ==> ms[k'].id != id by {
        if r.Some? {
          var k :| 0 <= k < |ms| - 1 && ms[1..][k] == r.value && r.value.id == id
                   && forall k' :: 0 <= k' < k ==> ms[1..][k'].id != id;
          assert ms[k + 1] == r.value;
          forall k' | 0 <= k' < k + 1 ensures ms[k'].id != id {
            if k' > 0 {
              assert ms[k'] == ms[1..][k' - 1];
            }
          }
        }
      }
      assert HasMember(ms, id) <==> HasMember(ms[1..], id) by {
        assert MemberIds(ms) == [ms[0].id] + MemberIds(ms[1..]);
      }
      r
  }

  /** `expenses.find(e => e.id === id)`: the first expense with that id. */
  function FindExpense(es: seq<Expense>, id: string): (r: Option<Expense>)
    ensures r.Some? <==> HasExpense(es, id)
    ensures r.Some? ==> exists k :: 0 <= k < |es| && es[k] == r.value && r.value.id == id
                          && forall k' :: 0 <= k' < k ==> es[k'].id != id
  {
    if |es| == 0 then None
    else if es[0].id == id then Some(es[0])
    else
      var r := FindExpense(es[1..], id);
      assert r.Some? ==> exists k :: 1 <= k < |es| && es[k] == r.value && r.value.id == id
                           && forall k' :: 0 <= k' < k ==> es[k'].id != id by {
        if r.Some? {
          var k :| 0 <= k < |es| - 1 && es[1..][k] == r.value && r.value.id == id
                   && forall k' :: 0 <= k' < k ==> es[1..][k'].id != id;
          assert es[k + 1] == r.value;
          forall k' | 0 <= k' < k + 1 ensures es[k'].id != id {
            if k' > 0 {
              assert es[k'] == es[1..][k' - 1];
            }
          }
        }
      }
      assert HasExpense(es, id) <==> HasExpense(es[1..], id) by {
        assert ExpenseIds(es) == [es[0].id] + ExpenseIds(es[1..]);
      }
      r
  }

  /** No two members share an id (the store's primary key). */
  predicate UniqueMemberIds(ms: seq<Member>) {
    Distinct(MemberIds(ms))
  }
}

=== FILE: expense_item.dfy ===
/** `frontend/src/components/ExpenseItem.tsx`: the involvement toggle, the
    effective member list, the "subset" highlight and the amount field. An
    empty `involved_members` list means every member. */
module ExpenseItem {
  import opened Basics
  import opened Domain
  import opened Balances
  import opened CalculatePayments
  import Twins

  /** The reference the toggle builds for a member: its id and name. */
  function RefOf(m: Member): MemberRef {
    MemberRef(m.id, m.name)
  }

  /** `refs.filter(r => r.id !== id)`. */
  function WithoutId(refs: seq<MemberRef>, id: string): (r: seq<MemberRef>)
    ensures |r| <= |refs|
    ensures forall x :: x in r <==> x in refs && x.id != id
    ensures id !in RefIds(refs) ==> r == refs
    ensures id in RefIds(refs) ==> |r| < |refs|
  {
    if |refs| == 0 then []
    else
      assert RefIds(refs) == [refs[0].id] + RefIds(refs[1..]);
      var rest := WithoutId(refs[1..], id);
      HeadOrTail(refs);
      if refs[0].id == id then rest else [refs[0]] + rest
  }

  /** The "everybody" state expanded without `id`: for every member id other
      than `id`, in member order, a reference built from the first member with
      that id (`allMembers.find`). */
  function AllExcept(all: seq<Member>, ids: seq<string>, id: string): (r: seq<MemberRef>)
    requires forall x :: x in ids ==> HasMember(all, x)
    ensures forall x :: x in RefIds(r) <==> x in ids && x != id
    ensures |r| <= |ids|
    ensures id in ids ==> |r| < |ids|
  {
    if |ids| == 0 then []
    else
      HeadOrTail(ids);
      var rest := AllExcept(all, ids[1..], id);
      if ids[0] == id then rest
      else
        var m := FindMember(all, ids[0]).value;
        assert RefIds([RefOf(m)] + rest) == [m.id] + RefIds(rest);
        [RefOf(m)] + rest
  }

  /** `toggleMemberSelection(member)` on the current `involved_members`. From
      the empty ("everybody") list it yields everybody but `member` and returns
      at once; otherwise `member` is removed if present and appended if not, and
      a list as long as the member list collapses back to empty. */
  function ToggleMember(all: seq<Member>, involved: seq<MemberRef>, member: Member): (r: seq<MemberRef>)
    ensures |involved| == 0 ==> forall x :: x in RefIds(r) <==> HasMember(all, x) && x != member.id
    ensures |involved| > 0 && member.id in RefIds(involved) ==>
      r == (if |WithoutId(involved, member.id)| == |all| then [] else WithoutId(involved, member.id))
    ensures |involved| > 0 && member.id !in RefIds(involved) ==>
      r == (if |involved| + 1 == |all| then [] else involved + [RefOf(member)])
  {
    if |involved| == 0 then
      var ids := MemberIds(all);
      AllExcept(all, ids, member.id)
    else
      var updated := if member.id in RefIds(involved) then WithoutId(involved, member.id)
                     else involved + [RefOf(member)];
      if |updated| == |all| then [] else updated
  }

  /** `getEffectiveMembers`: the ids of the members an expense is split among. */
  function EffectiveIds(all: seq<Member>, involved: seq<MemberRef>): (ids: seq<string>)
    ensures |involved| == 0 ==> ids == MemberIds(all)
    ensures |involved| > 0 ==> ids == RefIds(involved)
  {
    if |involved| == 0 then MemberIds(all) else RefIds(involved)
  }

  /** `isInvolvedSubset`: the highlight shows for a non-empty list shorter than the member list. */
  predicate IsInvolvedSubset(all: seq<Member>, involved: seq<MemberRef>) {
    0 < |involved| < |all|
  }

  /** The involvement lists the toggle produces over a member list with
      unique ids: empty, or distinct members of the list, fewer than all. */
  predicate ValidInvolvement(all: seq<Member>, involved: seq<MemberRef>) {
    || |involved| == 0
    || (&& Distinct(RefIds(involved))
        && (forall x :: x in RefIds(involved) ==> HasMember(all, x))
        && |involved| < |all|)
  }

  // ----- properties -----

  /** Over unique member ids a toggle of one of the members keeps an
      involvement list valid. */
  lemma ToggleKeepsValid(all: seq<Member>, involved: seq<MemberRef>, member: Member)
    requires UniqueMemberIds(all) && HasMember(all, member.id)
    requires ValidInvolvement(all, involved)
    ensures ValidInvolvement(all, ToggleMember(all, involved, member))
  {
    var r := ToggleMember(all, involved, member);
    if |involved| == 0 {
      ExpandedIdsDistinct(all, MemberIds(all), member.id);
      assert member.id in MemberIds(all);
      DistinctCardinality(MemberIds(all));
      assert |r| < |all|;
    } else if member.id in RefIds(involved) {
      var w := WithoutId(involved, member.id);
      WithoutIdIds(involved, member.id);
      if |w| != |all| {
        assert forall x :: x in RefIds(w) ==> x in RefIds(involved);
      }
    } else if |involved| + 1 != |all| {
      var w := involved + [RefOf(member)];
      assert RefIds(w) == RefIds(involved) + [member.id];
      AppendDistinct(RefIds(involved), member.id);
    }
  }

  /** The ids of the expansion are distinct when the member ids are. */
  lemma {:induction false} ExpandedIdsDistinct(all: seq<Member>, ids: seq<string>, id: string)
    requires forall x :: x in ids ==> HasMember(all, x)
    requires Distinct(ids)
    ensures Distinct(RefIds(AllExcept(all, ids, id)))
  {
    if |ids| > 0 {
      HeadOrTail(ids);
      DistinctTail(ids);
      ExpandedIdsDistinct(all, ids[1..], id);
      var rest := AllExcept(all, ids[1..], id);
      if ids[0] != id {
        var m := FindMember(all, ids[0]).value;
        assert RefIds([RefOf(m)] + rest) == [m.id] + RefIds(rest);
        ConsDistinct(m.id, RefIds(rest));
      }
    }
  }

  /** Removing by id keeps the remaining ids distinct and drops that id. */
  lemma WithoutIdIds(refs: seq<MemberRef>, id: string)
    requires Distinct(RefIds(refs))
    ensures Distinct(RefIds(WithoutId(refs, id)))
    ensures forall x :: x in RefIds(WithoutId(refs, id)) <==> x in RefIds(refs) && x != id
  {
    WithoutIdDistinct(refs, id);
    var w := WithoutId(refs, id);
    forall x ensures x in RefIds(w) <==> x in RefIds(refs) && x != id {
      RefIdsMembership(w, x);
      RefIdsMembership(refs, x);
    }
  }

  lemma RefIdsMembership(refs: seq<MemberRef>, x: string)
    ensures x in RefIds(refs) <==> exists r :: r in refs && r.id == x
  {
    if x in RefIds(refs) {
      var i :| 0 <= i < |refs| && RefIds(refs)[i] == x;
      assert refs[i] in refs;
    }
  }

  lemma {:induction false} WithoutIdDistinct(refs: seq<MemberRef>, id: string)
    requires Distinct(RefIds(refs))
    ensures Distinct(RefIds(WithoutId(refs, id)))
  {
    if |refs| > 0 {
      var ids := RefIds(refs);
      assert ids == [refs[0].id] + RefIds(refs[1..]);
      DistinctTail(ids);
      assert ids[1..] == RefIds(refs[1..]);
      WithoutIdDistinct(refs[1..], id);
      var rest := WithoutId(refs[1..], id);
      if refs[0].id != id {
        assert WithoutId(refs, id) == [refs[0]] + rest;
        ConsKeepsDistinctIds(refs[0], refs[1..], rest);
      } else {
        assert WithoutId(refs, id) == rest;
      }
    }
  }

  /** Putting a reference in front of references drawn from a list that lacks
      its id keeps the ids distinct. */
  lemma ConsKeepsDistinctIds(head: MemberRef, tail: seq<MemberRef>, sub: seq<MemberRef>)
    requires head.id !in RefIds(tail) && Distinct(RefIds(sub))
    requires forall x :: x in sub ==> x in tail
    ensures Distinct(RefIds([head] + sub))
  {
    RefIdsMembership(sub, head.id);
    RefIdsMembership(tail, head.id);
    assert RefIds([head] + sub) == [head.id] + RefIds(sub);
    ConsDistinct(head.id, RefIds(sub));
  }

  lemma ConsDistinct(x: string, s: seq<string>)
    requires Distinct(s) && x !in s
    ensures Distinct([x] + s)
  {
    var t := [x] + s;
    forall i, j | 0 <= i < j < |t| ensures t[i] != t[j] {
      assert t[j] == s[j - 1];
      if i > 0 {
        assert t[i] == s[i - 1];
      }
    }
  }

  lemma AppendDistinct(s: seq<string>, x: string)
    requires Distinct(s) && x !in s
    ensures Distinct(s + [x])
  {
  }

  /** From "everybody", deselecting a member and selecting it again gives
      "everybody" back, in a project with unique member ids. */
  lemma DeselectThenSelectRestoresEverybody(all: seq<Member>, member: Member)
    requires UniqueMemberIds(all) && member in all
    ensures var once := ToggleMember(all, [], member);
      ToggleMember(all, once, member) == []
  {
    var once := ToggleMember(all, [], member);
    assert member.id in MemberIds(all) by {
      var k :| 0 <= k < |all| && all[k] == member;
      assert MemberIds(all)[k] == member.id;
    }
    if |once| > 0 {
      ExpandedIdsDistinct(all, MemberIds(all), member.id);
      ExpandedLength(all, MemberIds(all), member.id);
      assert member.id !in RefIds(once);
    }
  }

  /** Over distinct ids, the expansion without a present id has one entry fewer. */
  lemma {:induction false} ExpandedLength(all: seq<Member>, ids: seq<string>, id: string)
    requires forall x :: x in ids ==> HasMember(all, x)
    requires Distinct(ids) && id in ids
    ensures |AllExcept(all, ids, id)| == |ids| - 1
  {
    HeadOrTail(ids);
    DistinctTail(ids);
    if ids[0] != id {
      ExpandedLength(all, ids[1..], id);
    } else {
      ExpandedMissing(all, ids[1..], id);
    }
  }

  lemma {:induction false} ExpandedMissing(all: seq<Member>, ids: seq<string>, id: string)
    requires forall x :: x in ids ==> HasMember(all, x)
    requires id !in ids
    ensures |AllExcept(all, ids, id)| == |ids|
  {
    if |ids| > 0 {
      HeadOrTail(ids);
      ExpandedMissing(all, ids[1..], id);
    }
  }

  /** In a project with a single member, deselecting it from "everybody" gives
      "everybody" again: the first branch returns before the collapse check
      but has nobody left to list. */
  lemma SoleMemberCannotBeDeselected(m: Member)
    ensures ToggleMember([m], [], m) == []
  {
    assert MemberIds([m]) == [m.id];
  }

  /** Deselecting the only selected member leaves the empty list, which means
      every member. */
  lemma DeselectLastMeansEverybody(all: seq<Member>, r: MemberRef, member: Member)
    requires r.id == member.id && |all| > 0
    ensures ToggleMember(all, [r], member) == []
  {
    assert RefIds([r]) == [r.id];
  }

  /** Selecting a member not yet involved and deselecting it again gives the
      list back, unless the selection completed the list. */
  lemma SelectThenDeselect(all: seq<Member>, involved: seq<MemberRef>, member: Member)
    requires |involved| > 0 && member.id !in RefIds(involved)
    requires |involved| + 1 != |all| && |involved| != |all|
    ensures ToggleMember(all, ToggleMember(all, involved, member), member) == involved
  {
    var once := involved + [RefOf(member)];
    assert RefIds(once) == RefIds(involved) + [member.id];
    WithoutIdAppend(involved, RefOf(member));
  }

  lemma {:induction false} WithoutIdAppend(refs: seq<MemberRef>, r: MemberRef)
    requires r.id !in RefIds(refs)
    ensures WithoutId(refs + [r], r.id) == refs
  {
    var t := refs + [r];
    if |refs| > 0 {
      assert t[0] == refs[0] && t[1..] == refs[1..] + [r];
      assert RefIds(refs) == [refs[0].id] + RefIds(refs[1..]);
      assert refs[0].id != r.id;
      WithoutIdAppend(refs[1..], r);
      assert WithoutId(t, r.id) == [refs[0]] + WithoutId(t[1..], r.id);
    } else {
      assert t[1..] == [];
    }
  }

  /** Over a valid involvement list and unique member ids, the highlight shows
      exactly when the effective members are a proper subset of all members. */
  lemma SubsetHighlightIff(all: seq<Member>, involved: seq<MemberRef>)
    requires UniqueMemberIds(all) && ValidInvolvement(all, involved)
    ensures IsInvolvedSubset(all, involved)
        <==> Elements(EffectiveIds(all, involved)) < Elements(MemberIds(all))
  {
    DistinctCardinality(MemberIds(all));
    if |involved| > 0 {
      var e := Elements(RefIds(involved));
      var everyone := Elements(MemberIds(all));
      DistinctCardinality(RefIds(involved));
      forall x | x in e ensures x in everyone {
        assert HasMember(all, x);
      }
      assert |e| < |everyone|;
      assert e != everyone;
    }
  }

  /** `refs.filter(...)` keeps the survivors in their order: the filter
      distributes over concatenation, and one reference is kept exactly when
      its id differs. */
  lemma WithoutIdConcat(a: seq<MemberRef>, b: seq<MemberRef>, id: string)
    ensures WithoutId(a + b, id) == WithoutId(a, id) + WithoutId(b, id)
    ensures |a| == 1 ==> WithoutId(a, id) == if a[0].id == id then [] else a
  {
    WithoutIdIsFilter(a, id);
    WithoutIdIsFilter(b, id);
    WithoutIdIsFilter(a + b, id);
    FilterConcat(a, b, OtherRef(id));
    if |a| == 1 {
      assert a[1..] == [];
    }
  }

  /** The test `refs.filter` applies. */
  function OtherRef(id: string): MemberRef -> bool {
    (r: MemberRef) => r.id != id
  }

  /** `WithoutId` is the generic filter, whose shape proofs do not drag the
      membership facts along. */
  lemma {:induction false} WithoutIdIsFilter(refs: seq<MemberRef>, id: string)
    ensures WithoutId(refs, id) == Filter(refs, OtherRef(id))
    decreases |refs|
  {
    if |refs| > 0 {
      WithoutIdIsFilter(refs[1..], id);
    }
  }

  /** The expansion of "everybody" distributes over concatenation of the id
      list, and a single id expands to nothing when it is the deselected one
      and otherwise to the reference of the first member with that id:
      together these fix the result, order included. */
  lemma {:induction false} AllExceptConcat(all: seq<Member>, a: seq<string>, b: seq<string>, id: string)
    requires forall x :: x in a + b ==> HasMember(all, x)
    ensures forall x :: x in a ==> HasMember(all, x)
    ensures forall x :: x in b ==> HasMember(all, x)
    ensures AllExcept(all, a + b, id) == AllExcept(all, a, id) + AllExcept(all, b, id)
    ensures |a| == 1 ==> AllExcept(all, a, id) == if a[0] == id then [] else [RefOf(FindMember(all, a[0]).value)]
    decreases |a|
  {
    assert forall x :: x in a ==> x in a + b;
    assert forall x :: x in b ==> x in a + b;
    ExpandIsAllExcept(all, a, id);
    ExpandIsAllExcept(all, b, id);
    ExpandIsAllExcept(all, a + b, id);
    ExpandConcat(all, a, b, id);
    if |a| == 1 {
      assert a[1..] == [];
    }
  }

  /** The expansion with no contract of its own, and total: an unknown id
      expands to nothing. Proofs about its shape then need no membership
      facts. */
  function Expand(all: seq<Member>, ids: seq<string>, id: string): seq<MemberRef> {
    if |ids| == 0 then []
    else ExpandOne(all, ids[0], id) + Expand(all, ids[1..], id)
  }

  function ExpandOne(all: seq<Member>, x: string, id: string): seq<MemberRef> {
    if x == id then [] else match FindMember(all, x) case Some(m) => [RefOf(m)] case None => []
  }

  lemma {:induction false} ExpandIsAllExcept(all: seq<Member>, ids: seq<string>, id: string)
    requires forall x :: x in ids ==> HasMember(all, x)
    ensures AllExcept(all, ids, id) == Expand(all, ids, id)
    decreases |ids|
  {
    if |ids| > 0 {
      assert ids[0] in ids;
      ExpandIsAllExcept(all, ids[1..], id);
    }
  }

  lemma {:induction false} ExpandConcat(all: seq<Member>, a: seq<string>, b: seq<string>, id: string)
    ensures Expand(all, a + b, id) == Expand(all, a, id) + Expand(all, b, id)
    decreases |a|
  {
    if |a| == 0 {
      assert a + b == b;
    } else {
      assert (a + b)[0] == a[0] && (a + b)[1..] == a[1..] + b;
      ExpandConcat(all, a[1..], b, id);
    }
  }

  /** The references of the members whose id is not `id`, in member order. */
  function OthersRefs(ms: seq<Member>, id: string): seq<MemberRef> {
    if |ms| == 0 then []
    else (if ms[0].id == id then [] else [RefOf(ms[0])]) + OthersRefs(ms[1..], id)
  }

  /** Over unique member ids, deselecting a member from "everybody" lists the
      references of all the other members, in member order. */
  lemma DeselectFromEverybodyKeepsOrder(all: seq<Member>, member: Member)
    requires UniqueMemberIds(all)
    ensures ToggleMember(all, [], member) == OthersRefs(all, member.id)
  {
    ExpandSuffix(all, 0, member.id);
    assert MemberIds(all)[0..] == MemberIds(all) && all[0..] == all;
  }

  lemma {:induction false} ExpandSuffix(all: seq<Member>, i: nat, id: string)
    requires UniqueMemberIds(all) && i <= |all|
    ensures forall x :: x in MemberIds(all)[i..] ==> HasMember(all, x)
    ensures AllExcept(all, MemberIds(all)[i..], id) == OthersRefs(all[i..], id)
    decreases |all| - i
  {
    assert forall x :: x in MemberIds(all)[i..] ==> x in MemberIds(all);
    if i < |all| {
      var ids := MemberIds(all)[i..];
      assert ids[0] == all[i].id && ids[1..] == MemberIds(all)[i + 1..];
      assert all[i..][0] == all[i] && all[i..][1..] == all[i + 1..];
      ExpandSuffix(all, i + 1, id);
      if all[i].id != id {
        assert HasMember(all, all[i].id) by {
          assert MemberIds(all)[i] == all[i].id;
        }
        var f := FindMember(all, all[i].id);
        var k :| 0 <= k < |all| && all[k] == f.value && f.value.id == all[i].id;
        assert MemberIds(all)[k] == MemberIds(all)[i];
        assert f.value == all[i];
      }
    } else {
      assert MemberIds(all)[i..] == [] && all[i..] == [];
    }
  }

  /** The members the expense shows as selected are exactly the members the
      settlement splits it among; over unique member ids and a list the toggle
      can produce, their number is the divisor of the split. */
  lemma EffectiveIdsAreSharers(all: seq<Member>, e: Expense)
    ensures forall k :: 0 <= k < |all| ==>
      (all[k].id in EffectiveIds(all, e.involved) <==> SharedBy(all, e)[k])
    ensures UniqueMemberIds(all) && ValidInvolvement(all, e.involved) ==>
      Count(SharedBy(all, e)) == |EffectiveIds(all, e.involved)|
  {
    forall k | 0 <= k < |all|
      ensures all[k].id in EffectiveIds(all, e.involved) <==> SharedBy(all, e)[k]
    {
      assert MemberIds(all)[k] == all[k].id;
    }
    if UniqueMemberIds(all) && ValidInvolvement(all, e.involved) {
      if |all| > 0 {
        Twins.MasksAgree(all, Charge(0, e));
      } else {
        assert SharedBy(all, e) == [];
      }
    }
  }

  // ----- the amount field -----

  /** ECMAScript's StrWhiteSpaceChar: the white space and line terminators
      `parseInt` skips before the number. */
  predicate IsSpace(c: char) {
    || c in {'\t', '\n', '\U{000B}', '\U{000C}', '\r', ' ', '\U{00A0}', '\U{1680}',
             '\U{2028}', '\U{2029}', '\U{202F}', '\U{205F}', '\U{3000}', '\U{FEFF}'}
    || '\U{2000}' <= c <= '\U{200A}'
  }

  /** The value of `c` as a digit of base `radix`, letters of either case
      standing for 10 and up. */
  function DigitValue(c: char, radix: nat): Option<nat> {
    if '0' <= c <= '9' && c as int - '0' as int < radix then Some(c as int - '0' as int)
    else if 'a' <= c <= 'z' && c as int - 'a' as int + 10 < radix then Some(c as int - 'a' as int + 10)
    else if 'A' <= c <= 'Z' && c as int - 'A' as int + 10 < radix then Some(c as int - 'A' as int + 10)
    else None
  }

  /** The length of the longest prefix of `s` made of digits of base `radix`. */
  function DigitRun(s: string, radix: nat): (n: nat)
    ensures n <= |s|
    ensures forall i :: 0 <= i < n ==> DigitValue(s[i], radix).Some?
    ensures n < |s| ==> DigitValue(s[n], radix).None?
  {
    if |s| == 0 || DigitValue(s[0], radix).None? then 0
    else
      var n := 1 + DigitRun(s[1..], radix);
      assert forall i :: 1 <= i < n ==> s[i] == s[1..][i - 1];
      n
  }

  /** The number the digits of `s` spell in base `radix`, most significant first. */
  function DigitsValue(s: string, radix: nat): nat
    requires forall i :: 0 <= i < |s| ==> DigitValue(s[i], radix).Some?
  {
    if |s| == 0 then 0
    else
      var front := s[..|s| - 1];
      assert forall i :: 0 <= i < |front| ==> front[i] == s[i];
      var high: nat := DigitsValue(front, radix);
      assert radix * high >= 0;
      radix * high + DigitValue(s[|s| - 1], radix).value
  }

  /** `s` without its leading white space. */
  function SkipSpace(s: string): (r: string)
    ensures |r| <= |s| && r == s[|s| - |r|..]
    ensures forall i :: 0 <= i < |s| - |r| ==> IsSpace(s[i])
    ensures |r| > 0 ==> !IsSpace(r[0])
  {
    if |s| > 0 && IsSpace(s[0]) then
      var r := SkipSpace(s[1..]);
      assert forall i :: 1 <= i < |s| - |r| ==> s[i] == s[1..][i - 1];
      r
    else s
  }

  /** `t` starts with `0x` or `0X`. */
  predicate HexPrefix(t: string) {
    |t| >= 2 && t[0] == '0' && (t[1] == 'x' || t[1] == 'X')
  }

  /** The digits after the sign: a `0x` or `0X` prefix switches to base 16,
      then the longest run of digits is read; no digit means NaN (`None`). */
  function Unsigned(t: string): (r: Option<int>)
    ensures r.Some? ==> r.value >= 0
    ensures |t| == 0 || DigitValue(t[0], 10).None? ==> r.None?
    ensures HexPrefix(t) ==> (r.Some? <==> |t| > 2 && DigitValue(t[2], 16).Some?)
    ensures !HexPrefix(t) && |t| > 0 && DigitValue(t[0], 10).Some? ==> r.Some?
  {
    var hex := HexPrefix(t);
    var radix := if hex then 16 else 10;
    var u := if hex then t[2..] else t;
    var n := DigitRun(u, radix);
    if n == 0 then None else Some(DigitsValue(u[..n], radix))
  }

  /** `parseInt(text)` without a radix, after section 19.2.5 of ECMA-262:
      leading white space is skipped, then one optional sign, then the digits.
      A zero, signed or not, is 0. */
  function ParseInt(text: string): (r: Option<int>)
    ensures SkipSpace(text) == "" ==> r.None?
    ensures var s := SkipSpace(text);
      |s| > 0 && (s[0] == '-' || s[0] == '+') ==>
        (r.Some? <==> Unsigned(s[1..]).Some?) &&
        (r.Some? ==> r.value == (if s[0] == '-' then -1 else 1) * Unsigned(s[1..]).value)
    ensures var s := SkipSpace(text);
      |s| > 0 && s[0] != '-' && s[0] != '+' ==> r == Unsigned(s)
    ensures r.Some? && r.value < 0 ==> SkipSpace(text)[0] == '-'
  {
    var s := SkipSpace(text);
    if |s| > 0 && s[0] == '-' then
      var u := Unsigned(s[1..]);
      if u.None? then None else Some(-u.value)
    else if |s| > 0 && s[0] == '+' then Unsigned(s[1..])
    else Unsigned(s)
  }

  /** Skipping white space after white space skips both. */
  lemma {:induction false} SkipSpaceAfterSpace(w: string, text: string)
    requires forall i :: 0 <= i < |w| ==> IsSpace(w[i])
    ensures SkipSpace(w + text) == SkipSpace(text)
    decreases |w|
  {
    if |w| > 0 {
      var x := w + text;
      assert x[0] == w[0] && IsSpace(x[0]);
      assert x[1..] == w[1..] + text;
      assert SkipSpace(x) == SkipSpace(x[1..]);
      SkipSpaceAfterSpace(w[1..], text);
    } else {
      assert w + text == text;
    }
  }

  /** White space typed before the number changes nothing: `parseInt`
      skips it. */
  lemma SpaceBeforeIgnored(w: string, text: string)
    requires forall i :: 0 <= i < |w| ==> IsSpace(w[i])
    ensures ParseInt(w + text) == ParseInt(text)
  {
    SkipSpaceAfterSpace(w, text);
  }

  /** The amount field's change handler, `parseInt(input) || amount` unless
      the input is empty: empty text clears the amount, and text that parses to
      NaN or 0 keeps the previous one. The result is therefore the previous
      amount, null, or a non-zero whole number, and it is null only for empty
      text or when there was no amount before. */
  function AmountInput(text: string, prev: Option<real>): (r: Option<real>)
    ensures text == "" ==> r.None?
    ensures r == prev || r.None? || (r.value.Floor as real == r.value && r.value != 0.0)
    ensures r.None? ==> text == "" || prev.None?
  {
    if text == "" then None
    else
      var parsed := ParseInt(text);
      if parsed.Some? && parsed.value != 0 then Some(parsed.value as real) else prev
  }

  /** The digit that stands for `d` in base `radix`, upper-case letters from 10. */
  function DigitChar(d: nat, radix: nat): (c: char)
    requires d < radix <= 36
    ensures DigitValue(c, radix) == Some(d)
    ensures c == '0' <==> d == 0
  {
    if d < 10 then (('0' as int) + d) as char else (('A' as int) + d - 10) as char
  }

  /** Splitting off the last digit of `n` in base `radix`. */
  lemma DivStep(n: nat, radix: nat)
    requires 2 <= radix && n >= radix
    ensures 0 < n / radix < n
    ensures n == radix * (n / radix) + n % radix
  {
  }

  /** The numeral of `n` in base `radix`, without leading zeros. */
  function Numeral(n: nat, radix: nat): (s: string)
    requires 2 <= radix <= 36
    ensures |s| > 0
    ensures forall i :: 0 <= i < |s| ==> DigitValue(s[i], radix).Some?
    ensures n > 0 ==> s[0] != '0'
    decreases n
  {
    var last := DigitChar(n % radix, radix);
    if n < radix then [last]
    else
      DivStep(n, radix);
      var high := Numeral(n / radix, radix);
      assert forall i :: 0 <= i < |high| ==> (high + [last])[i] == high[i];
      high + [last]
  }

  /** The decimal numeral of `n`, without leading zeros. */
  function Decimal(n: nat): (s: string)
    ensures |s| > 0
    ensures forall i :: 0 <= i < |s| ==> '0' <= s[i] <= '9'
    ensures n > 0 ==> s[0] != '0'
  {
    Numeral(n, 10)
  }

  /** A numeral is read back as the number it writes, in every base. */
  lemma {:induction false} NumeralValue(n: nat, radix: nat)
    requires 2 <= radix <= 36
    ensures DigitsValue(Numeral(n, radix), radix) == n
    decreases n
  {
    var d := n % radix;
    var last := DigitChar(d, radix);
    if n >= radix {
      DivStep(n, radix);
      var q := n / radix;
      var high := Numeral(q, radix);
      assert Numeral(n, radix) == high + [last];
      NumeralValue(q, radix);
      LastDigit(Numeral(n, radix), high, last, radix);
      assert DigitsValue(Numeral(n, radix), radix) == radix * q + d;
      assert n == radix * q + d;
    } else {
      assert d == n;
      assert Numeral(n, radix) == [] + [last];
      LastDigit(Numeral(n, radix), [], last, radix);
      assert DigitsValue([], radix) == 0;
      assert radix * 0 == 0;
    }
  }

  /** Appending a digit multiplies the value by the base and adds the digit. */
  lemma LastDigit(s: string, high: string, last: char, radix: nat)
    requires s == high + [last] && DigitValue(last, radix).Some?
    requires forall i :: 0 <= i < |high| ==> DigitValue(high[i], radix).Some?
    ensures forall i :: 0 <= i < |s| ==> DigitValue(s[i], radix).Some?
    ensures DigitsValue(s, radix) == radix * DigitsValue(high, radix) + DigitValue(last, radix).value
  {
    assert forall i :: 0 <= i < |high| ==> s[i] == high[i];
    assert s[..|s| - 1] == high;
  }

  /** Text starting with a non-zero digit is read in base 10 from its first
      character. */
  lemma PlainNumeral(s: string)
    requires |s| > 0 && '1' <= s[0] <= '9'
    ensures Unsigned(s) == Some(DigitsValue(s[..DigitRun(s, 10)], 10))
    ensures ParseInt(s) == Unsigned(s)
  {
    assert !IsSpace(s[0]);
    assert SkipSpace(s) == s;
  }

  /** A numeral followed by anything that is not a digit of its base is a
      digit run of exactly its own length. */
  lemma NumeralRun(n: nat, radix: nat, rest: string)
    requires 2 <= radix <= 36
    requires |rest| == 0 || DigitValue(rest[0], radix).None?
    ensures DigitRun(Numeral(n, radix) + rest, radix) == |Numeral(n, radix)|
  {
    var d := Numeral(n, radix);
    var s := d + rest;
    forall i | 0 <= i < |d|
      ensures DigitValue(s[i], radix).Some?
    {
      assert s[i] == d[i];
    }
    if |rest| > 0 {
      assert s[|d|] == rest[0];
    }
  }

  /** The number at the front of the text is what `parseInt` reads: the
      longest digit run of a numeral followed by anything that is not a digit. */
  lemma LeadingNumeral(n: nat, rest: string)
    requires n > 0
    requires |rest| == 0 || DigitValue(rest[0], 10).None?
    ensures Unsigned(Decimal(n) + rest) == Some(n)
    ensures ParseInt(Decimal(n) + rest) == Some(n)
  {
    var d := Decimal(n);
    var s := d + rest;
    assert s[0] == d[0];
    PlainNumeral(s);
    NumeralRun(n, 10, rest);
    assert s[..|d|] == d;
    NumeralValue(n, 10);
  }

  /** Typing a positive whole number stores exactly that amount, and text after
      the digits is ignored: `12.50` stores 12. */
  lemma TypedNumberIsStored(n: nat, rest: string, prev: Option<real>)
    requires n > 0
    requires |rest| == 0 || DigitValue(rest[0], 10).None?
    ensures AmountInput(Decimal(n) + rest, prev) == Some(n as real)
  {
    LeadingNumeral(n, rest);
  }

  /** A minus sign is accepted, so a negative amount can be entered. */
  lemma NegativeNumberIsStored(n: nat, prev: Option<real>)
    requires n > 0
    ensures AmountInput("-" + Decimal(n), prev) == Some(-(n as real))
  {
    var d := Decimal(n);
    LeadingNumeral(n, "");
    assert d + "" == d;
    MinusNumber(d, n, prev);
  }

  lemma MinusNumber(d: string, n: nat, prev: Option<real>)
    requires n > 0 && Unsigned(d) == Some(n)
    ensures AmountInput("-" + d, prev) == Some(-(n as real))
  {
    MinusSign(d);
  }

  /** A leading minus sign negates what the digits after it spell. */
  lemma MinusSign(d: string)
    ensures ParseInt("-" + d) == match Unsigned(d) case None => None case Some(v) => Some(-v)
  {
    var s := "-" + d;
    assert !IsSpace(s[0]);
    assert SkipSpace(s) == s;
    assert s[1..] == d;
  }

  /** After `0x` or `0X`, the base-16 numeral of any n is read as n. */
  lemma HexPrefixed(x: char, n: nat, rest: string)
    requires x == 'x' || x == 'X'
    requires |rest| == 0 || DigitValue(rest[0], 16).None?
    ensures Unsigned(['0', x] + Numeral(n, 16) + rest) == Some(n)
  {
    NumeralRun(n, 16, rest);
    NumeralValue(n, 16);
    HexRun(x, Numeral(n, 16), rest, n);
  }

  lemma HexRun(x: char, h: string, rest: string, n: nat)
    requires x == 'x' || x == 'X'
    requires |h| > 0 && DigitRun(h + rest, 16) == |h|
    requires forall i :: 0 <= i < |h| ==> DigitValue(h[i], 16).Some?
    requires DigitsValue(h, 16) == n
    ensures Unsigned(['0', x] + h + rest) == Some(n)
  {
    var u := h + rest;
    var t := ['0', x] + h + rest;
    assert t[0] == '0' && t[1] == x;
    assert t[2..] == u;
    assert u[..|h|] == h;
    UnsignedHex(t, u);
  }

  lemma UnsignedHex(t: string, u: string)
    requires HexPrefix(t) && t[2..] == u && DigitRun(u, 16) > 0
    ensures Unsigned(t) == Some(DigitsValue(u[..DigitRun(u, 16)], 16))
  {
  }

  /** Typing a hexadecimal numeral of a positive n after `0x` or `0X` stores
      exactly n, and text after its digits is ignored. */
  lemma HexNumberIsStored(x: char, n: nat, rest: string, prev: Option<real>)
    requires x == 'x' || x == 'X'
    requires n > 0
    requires |rest| == 0 || DigitValue(rest[0], 16).None?
    ensures AmountInput(['0', x] + Numeral(n, 16) + rest, prev) == Some(n as real)
  {
    var t := ['0', x] + Numeral(n, 16) + rest;
    assert t[0] == '0' && !IsSpace(t[0]);
    assert SkipSpace(t) == t;
    HexPrefixed(x, n, rest);
  }

  /** A hexadecimal numeral is read in base 16: `0x1A` stores 26. */
  lemma HexNumeralIsStored(prev: Option<real>)
    ensures AmountInput("0x1A", prev) == Some(26.0)
  {
    var s := "0x1A";
    assert !IsSpace(s[0]);
    assert SkipSpace(s) == s;
    assert s[2..] == "1A" && s[2..][..2] == "1A";
    HexDigits();
    assert Unsigned(s) == Some(26);
  }

  lemma HexDigits()
    ensures DigitRun("1A", 16) == 2
    ensures DigitsValue("1A", 16) == 26
  {
    var u := "1A";
    assert DigitValue('1', 16) == Some(1) && DigitValue('A', 16) == Some(10);
    assert u[1..] == "A" && u[1..][1..] == "";
    assert u[..1] == "1";
    assert DigitsValue("1", 16) == 1 by {
      assert "1"[..0] == "";
    }
  }

  lemma AmountInputNeverZero(text: string, prev: Option<real>)
    requires prev != Some(0.0)
    ensures AmountInput(text, prev) != Some(0.0)
  {
  }
}

=== FILE: helper.dfy ===
/** `backend/app/helper.py`: `calculate_project_payments` and
    `remodel_involved_members`. */
module Helper {
  import opened Basics
  import opened Balances
  import opened Settlement
  import opened Stored

  /** How an expense without an amount is treated: `expense.amount or 0` in the
      helper, a `TypeError` from `None / n` in the older route. */
  datatype MissingAmount = CountsAsZero | Raises

  /** `expense.involved_members or members`: the members debited for `e`. */
  function InvolvedMask(members: seq<StoredMember>, e: StoredExpense): (mask: seq<bool>)
    ensures |mask| == |members|
    ensures forall k :: 0 <= k < |members| ==> (mask[k] <==> |e.involved| == 0 || members[k].id in e.involved)
  {
    if |e.involved| == 0 then All(|members|) else MaskIn(StoredIds(members), Elements(e.involved))
  }

  /** `expense.member`: the member credited for `e`. */
  function PayerMask(members: seq<StoredMember>, e: StoredExpense): (mask: seq<bool>)
    ensures |mask| == |members|
    ensures forall k :: 0 <= k < |members| ==> (mask[k] <==> members[k].id == e.payer)
  {
    MaskIn(StoredIds(members), {e.payer})
  }

  /** `len(involved_members)`. */
  function Divisor(members: seq<StoredMember>, e: StoredExpense): (n: nat)
    ensures n == 0 <==> |members| == 0 && |e.involved| == 0
  {
    if |e.involved| == 0 then |members| else |e.involved|
  }

  /** The distribution loop over the expenses, starting from balances `b`. */
  function Distribute(b: seq<real>, members: seq<StoredMember>, es: seq<StoredExpense>, missing: MissingAmount)
    : (r: Result<seq<real>, Fault>)
    requires |b| == |members|
    ensures r.Ok? ==> |r.value| == |b|
    ensures r.Err? ==> r.error == ZeroDivisionError || (missing == Raises && r.error == TypeError)
    decreases |es|
  {
    if |es| == 0 then Ok(b)
    else
      var e := es[0];
      var n := Divisor(members, e);
      if e.amount.None? && missing == Raises then Err(TypeError)
      else if n == 0 then Err(ZeroDivisionError)
      else
        var a := e.amount.GetOr(0.0);
        Distribute(Split(b, InvolvedMask(members, e), PayerMask(members, e), a / n as real, a), members, es[1..], missing)
  }

  /** The stored-member view of a payment (`MemberPublic`). */
  datatype MemberPublic = MemberPublic(id: string, name: Option<string>)

  datatype PaymentPublic = PaymentPublic(fromMember: MemberPublic, toMember: MemberPublic, amount: real)

  function Public(m: StoredMember): MemberPublic {
    MemberPublic(m.id, m.name)
  }

  /** The conversion to the public format maps transfers one to one, in order,
      keeping each amount unrounded. */
  function ToPublic(members: seq<StoredMember>, ts: seq<Transfer>): (ps: seq<PaymentPublic>)
    requires forall t :: t in ts ==> t.debtor < |members| && t.creditor < |members|
    ensures |ps| == |ts|
    ensures forall k :: 0 <= k < |ts| ==>
      && ps[k].fromMember == Public(members[ts[k].debtor])
      && ps[k].toMember == Public(members[ts[k].creditor])
      && ps[k].amount == ts[k].amount
  {
    if |ts| == 0 then []
    else
      assert ts[0] in ts;
      assert forall t :: t in ts[1..] ==> t in ts;
      [PaymentPublic(Public(members[ts[0].debtor]), Public(members[ts[0].creditor]), ts[0].amount)]
        + ToPublic(members, ts[1..])
  }

  /** The payments and the balances the members are left with. */
  datatype Settled = Settled(payments: seq<PaymentPublic>, balances: seq<real>)

  /** `calculate_project_payments(project)`: balances reset to 0, expenses
      distributed with a missing amount counted as 0, then the unrounded scan.
      It fails only with a division by zero, which needs an expense in a
      project without members. */
  function CalculateProjectPayments(p: StoredProject): (r: Result<Settled, Fault>)
    ensures r.Err? ==> r.error == ZeroDivisionError && |p.members| == 0 && |p.expenses| > 0
    ensures |p.members| > 0 ==> r.Ok?
    ensures r.Ok? ==> |r.value.balances| == |p.members|
  {
    var d := Distribute(Zeros(|p.members|), p.members, p.expenses, CountsAsZero);
    DistributeFailsOnlyWithoutMembers(Zeros(|p.members|), p.members, p.expenses);
    if d.Err? then Err(d.error)
    else
      var run := Settle(d.value);
      SettleShape(d.value);
      Ok(Settled(ToPublic(p.members, run.transfers), run.balances))
  }

  // ----- properties -----

  /** With members present, the helper's distribution never fails; without
      them it fails exactly when there is an expense to distribute. */
  lemma {:induction false} DistributeFailsOnlyWithoutMembers(
    b: seq<real>, members: seq<StoredMember>, es: seq<StoredExpense>)
    requires |b| == |members|
    ensures var r := Distribute(b, members, es, CountsAsZero);
      r.Err? <==> |members| == 0 && exists e :: e in es && |e.involved| == 0
    decreases |es|
  {
    if |es| > 0 {
      var e := es[0];
      if Divisor(members, e) != 0 {
        var a := e.amount.GetOr(0.0);
        var next := Split(b, InvolvedMask(members, e), PayerMask(members, e), a / Divisor(members, e) as real, a);
        DistributeFailsOnlyWithoutMembers(next, members, es[1..]);
        assert forall x :: x in es[1..] ==> x in es;
        if |members| == 0 {
          assert |e.involved| > 0;
          assert forall x :: x in es && x != es[0] ==> x in es[1..] by {
            forall x | x in es && x != es[0] ensures x in es[1..] {
              var k :| 0 <= k < |es| && es[k] == x;
              assert es[1..][k - 1] == x;
            }
          }
        }
      } else {
        assert e in es;
      }
    }
  }

  /** Over duplicate-free member ids and an involved list of distinct member
      ids, the involved mask selects exactly `Divisor` members. */
  lemma CountInvolved(members: seq<StoredMember>, e: StoredExpense)
    requires Distinct(StoredIds(members))
    requires Distinct(e.involved) && forall id :: id in e.involved ==> id in StoredIds(members)
    ensures Count(InvolvedMask(members, e)) == Divisor(members, e)
  {
    if |e.involved| == 0 {
      CountAll(|members|);
    } else {
      var ids := StoredIds(members);
      CountMaskIn(ids, Elements(e.involved));
      assert Elements(e.involved) * Elements(ids) == Elements(e.involved);
      DistinctCardinality(e.involved);
    }
  }

  /** A payer who is a member is credited at exactly one position. */
  lemma CountPayer(members: seq<StoredMember>, e: StoredExpense)
    requires Distinct(StoredIds(members)) && e.payer in StoredIds(members)
    ensures Count(PayerMask(members, e)) == 1
  {
    var ids := StoredIds(members);
    CountMaskIn(ids, {e.payer});
    assert {e.payer} * Elements(ids) == {e.payer};
  }

  /** Under well-formed data a single distribution step keeps the total:
      exactly `n` members are debited `amount / n` and exactly one is credited
      `amount`. */
  lemma StepKeepsTotal(b: seq<real>, members: seq<StoredMember>, e: StoredExpense, a: real)
    requires |b| == |members| && Divisor(members, e) > 0
    requires Distinct(StoredIds(members)) && e.payer in StoredIds(members)
    requires Distinct(e.involved) && forall id :: id in e.involved ==> id in StoredIds(members)
    ensures Sum(Split(b, InvolvedMask(members, e), PayerMask(members, e), a / Divisor(members, e) as real, a)) == Sum(b)
  {
    CountInvolved(members, e);
    CountPayer(members, e);
    SplitKeepsTotal(b, InvolvedMask(members, e), PayerMask(members, e), a, Divisor(members, e));
  }

  /** Debiting `a / n` at `n` positions and crediting `a` at one keeps the total. */
  lemma SplitKeepsTotal(b: seq<real>, debit: seq<bool>, credit: seq<bool>, a: real, n: nat)
    requires |debit| == |b| && |credit| == |b|
    requires n > 0 && Count(debit) == n && Count(credit) == 1
    ensures Sum(Split(b, debit, credit, a / n as real, a)) == Sum(b)
  {
    SumSplit(b, debit, credit, a / n as real, a);
    TimesShare(n, a);
  }

  /** Under well-formed data the distribution keeps the total of the balances it
      starts from. */
  lemma {:induction false} DistributeKeepsTotal(
    b: seq<real>, members: seq<StoredMember>, es: seq<StoredExpense>, missing: MissingAmount)
    requires |b| == |members|
    requires WellFormed(members, es)
    ensures var r := Distribute(b, members, es, missing);
      r.Ok? ==> Sum(r.value) == Sum(b)
    decreases |es|
  {
    if |es| > 0 {
      var e := es[0];
      assert e in es;
      var n := Divisor(members, e);
      if !(e.amount.None? && missing == Raises) && n != 0 {
        var a := e.amount.GetOr(0.0);
        var next := Split(b, InvolvedMask(members, e), PayerMask(members, e), a / n as real, a);
        assert Distribute(b, members, es, missing) == Distribute(next, members, es[1..], missing);
        StepKeepsTotal(b, members, e, a);
        assert WellFormed(members, es[1..]) by {
          assert forall x :: x in es[1..] ==> x in es;
        }
        DistributeKeepsTotal(next, members, es[1..], missing);
      }
    }
  }

  /** With well-formed data the helper's balances total zero before the scan,
      so the scan settles everybody: every balance ends at 0. */
  lemma HelperSettlesEveryone(p: StoredProject)
    requires WellFormed(p.members, p.expenses)
    requires |p.members| > 0
    ensures var d := Distribute(Zeros(|p.members|), p.members, p.expenses, CountsAsZero);
      && d.Ok?
      && Sum(d.value) == 0.0
      && forall k :: 0 <= k < |p.members| ==> CalculateProjectPayments(p).value.balances[k] == 0.0
  {
    var z := Zeros(|p.members|);
    DistributeFailsOnlyWithoutMembers(z, p.members, p.expenses);
    DistributeKeepsTotal(z, p.members, p.expenses, CountsAsZero);
    assert Sum(z) == 0.0 by {
      NonNegativeSum(z);
      var n := Negate(z);
      NonNegativeSum(n);
    }
    ZeroSumSettlesEveryone(Distribute(z, p.members, p.expenses, CountsAsZero).value);
  }

  // ----- remodel_involved_members -----

  /** `remodel_involved_members`: a missing or empty id list becomes `[]`;
      otherwise the members with those ids are looked up among `existing`, and
      a count different from the number of requested ids raises 404. */
  function RemodelInvolvedMembers(ids: Option<seq<string>>, existing: set<string>): (r: Result<set<string>, Fault>)
    ensures r.Err? ==> r.error == HttpError(404, "One or more involved members not found")
  {
    var requested := ids.GetOr([]);
    if |requested| == 0 then Ok({})
    else
      var found := Elements(requested) * existing;
      if |found| != |requested| then Err(HttpError(404, "One or more involved members not found"))
      else Ok(found)
  }

  /** The lookup succeeds exactly when no id is requested, or when the ids are
      duplicate-free and all exist; it then yields exactly the requested ids. */
  lemma RemodelSucceedsIff(ids: Option<seq<string>>, existing: set<string>)
    ensures var requested := ids.GetOr([]);
      var r := RemodelInvolvedMembers(ids, existing);
      && (r.Ok? <==>
            (|requested| == 0 || (Distinct(requested) && forall id :: id in requested ==> id in existing)))
      && (r.Ok? ==> r.value == Elements(requested))
  {
    var requested := ids.GetOr([]);
    if |requested| > 0 {
      var found := Elements(requested) * existing;
      ElementsBound(requested);
      SubsetCardinality(found, Elements(requested));
      if Distinct(requested) && forall id :: id in requested ==> id in existing {
        assert found == Elements(requested);
        DistinctCardinality(requested);
      } else if !Distinct(requested) {
        RepeatShrinksElements(requested);
      } else {
        var id :| id in requested && id !in existing;
        ProperSubsetCardinality(found, Elements(requested), id);
      }
    }
  }

  lemma ProperSubsetCardinality(a: set<string>, b: set<string>, x: string)
    requires a <= b && x in b && x !in a
    ensures |a| < |b|
  {
    assert b == a + (b - a);
    assert x in b - a;
  }
}

=== FILE: member_item.dfy ===
/** `frontend/src/components/MemberItem.tsx`: adding an expense, editing the
    member's name, and the total shown next to the name. The random part of a
    new id is a parameter. */
module MemberItem {
  import opened Basics
  import opened Rounding
  import opened Domain

  /** `addNewExpense`: the member with one blank expense appended, numbered
      after the existing ones. */
  function AddNewExpense(m: Member, suffix: string): (r: Member)
    ensures r.(expenses := m.expenses) == m
    ensures |r.expenses| == |m.expenses| + 1 && r.expenses[..|m.expenses|] == m.expenses
    ensures var e := r.expenses[|m.expenses|];
      && StartsWith(e.id, "new-")
      && e.order == Some(|m.expenses|)
      && e.name.None? && e.amount.None? && e.involved == []
  {
    var e := Expense("new-" + suffix, None, None, Some(|m.expenses|), []);
    assert StartsWith(e.id, "new-") by {
      assert e.id[..|"new-"|] == "new-";
    }
    m.(expenses := m.expenses + [e])
  }

  /** Dropping the new expense by its id gives the member back, when no existing
      expense shares that id. */
  lemma AddNewExpenseUndone(m: Member, suffix: string)
    requires !HasExpense(m.expenses, "new-" + suffix)
    ensures var r := AddNewExpense(m, suffix);
      m.(expenses := DropExpense(r.expenses, "new-" + suffix)) == m
  {
    var id := "new-" + suffix;
    var r := AddNewExpense(m, suffix);
    assert r.expenses == m.expenses + [r.expenses[|m.expenses|]];
    DropAppended(m.expenses, r.expenses[|m.expenses|]);
  }

  /** `expenses.filter(e => e.id !== id)`. */
  function DropExpense(es: seq<Expense>, id: string): (r: seq<Expense>)
    ensures |r| <= |es|
    ensures forall e :: e in r <==> e in es && e.id != id
    ensures !HasExpense(es, id) ==> r == es
  {
    if |es| == 0 then []
    else
      HeadOrTail(es);
      assert ExpenseIds(es) == [es[0].id] + ExpenseIds(es[1..]);
      var rest := DropExpense(es[1..], id);
      if es[0].id == id then rest else [es[0]] + rest
  }

  /** The filter keeps the survivors in their order: it distributes over
      concatenation, and one expense is kept exactly when its id differs. */
  lemma DropExpenseConcat(a: seq<Expense>, b: seq<Expense>, id: string)
    ensures DropExpense(a + b, id) == DropExpense(a, id) + DropExpense(b, id)
    ensures |a| == 1 ==> DropExpense(a, id) == if a[0].id == id then [] else a
  {
    DropExpenseIsFilter(a, id);
    DropExpenseIsFilter(b, id);
    DropExpenseIsFilter(a + b, id);
    FilterConcat(a, b, OtherExpense(id));
    if |a| == 1 {
      assert a[1..] == [];
    }
  }

  /** The test `expenses.filter` applies. */
  function OtherExpense(id: string): Expense -> bool {
    (e: Expense) => e.id != id
  }

  /** `DropExpense` is the generic filter, whose shape proofs do not drag the
      membership facts along. */
  lemma {:induction false} DropExpenseIsFilter(es: seq<Expense>, id: string)
    ensures DropExpense(es, id) == Filter(es, OtherExpense(id))
    decreases |es|
  {
    if |es| > 0 {
      DropExpenseIsFilter(es[1..], id);
    }
  }

  /** No expense with the dropped id is left. */
  lemma DropExpenseRemovesId(es: seq<Expense>, id: string)
    ensures !HasExpense(DropExpense(es, id), id)
  {
    var r := DropExpense(es, id);
    forall k | 0 <= k < |r| ensures ExpenseIds(r)[k] != id {
      assert r[k] in r;
    }
  }

  lemma {:induction false} DropAppended(es: seq<Expense>, e: Expense)
    requires !HasExpense(es, e.id)
    ensures DropExpense(es + [e], e.id) == es
  {
    var t := es + [e];
    if |es| > 0 {
      assert t[0] == es[0] && t[1..] == es[1..] + [e];
      assert ExpenseIds(es) == [es[0].id] + ExpenseIds(es[1..]);
      assert es[0].id != e.id;
      DropAppended(es[1..], e);
      assert DropExpense(t, e.id) == [es[0]] + DropExpense(t[1..], e.id);
    } else {
      assert t[1..] == [];
    }
  }

  /** The name field's effect: the member passed up differs only in its name. */
  function NameEdit(m: Member, name: Option<string>): (r: Member)
    ensures r.name == name && r.(name := m.name) == m
  {
    m.(name := name)
  }

  /** Editing the name back restores the member. */
  lemma NameEditUndone(m: Member, name: Option<string>)
    ensures NameEdit(NameEdit(m, name), m.name) == m
  {
  }

  /** `expenses.reduce((acc, e) => acc + (e.amount || 0), 0)`, folded from the left. */
  function ExpenseTotal(es: seq<Expense>): real {
    if |es| == 0 then 0.0 else ExpenseTotal(es[..|es| - 1]) + es[|es| - 1].amount.GetOr(0.0)
  }

  /** The total of two lists is the sum of their totals. */
  lemma {:induction false} ExpenseTotalAppend(a: seq<Expense>, b: seq<Expense>)
    ensures ExpenseTotal(a + b) == ExpenseTotal(a) + ExpenseTotal(b)
    decreases |b|
  {
    if |b| > 0 {
      var b' := b[..|b| - 1];
      assert (a + b)[..|a + b| - 1] == a + b';
      ExpenseTotalAppend(a, b');
    } else {
      assert a + b == a;
    }
  }

  /** A new blank expense leaves the total alone, and every amount counts once. */
  lemma AddNewExpenseKeepsTotal(m: Member, suffix: string)
    ensures ExpenseTotal(AddNewExpense(m, suffix).expenses) == ExpenseTotal(m.expenses)
  {
    var r := AddNewExpense(m, suffix);
    assert r.expenses[..|r.expenses| - 1] == m.expenses;
  }

  /** With no negative amounts the total is not negative. */
  lemma {:induction false} ExpenseTotalNonNegative(es: seq<Expense>)
    requires forall e :: e in es && e.amount.Some? ==> e.amount.value >= 0.0
    ensures ExpenseTotal(es) >= 0.0
    decreases |es|
  {
    if |es| > 0 {
      var init := es[..|es| - 1];
      assert es[|es| - 1] in es;
      assert forall e :: e in init ==> e in es;
      ExpenseTotalNonNegative(init);
    }
  }

  /** `parseFloat(total.toFixed(10))`: the total shown is the value with ten
      decimals nearest to the exact total, a tie going away from zero, and it
      has the total's sign. */
  function DisplayedTotal(es: seq<Expense>): (r: real)
    ensures OnGrid(r, Pow10(10) as real)
    ensures var x, h := ExpenseTotal(es), 0.5 / Pow10(10) as real;
      && (x >= 0.0 ==> x - h < r <= x + h)
      && (x < 0.0 ==> x - h <= r < x + h)
    ensures ExpenseTotal(es) >= 0.0 ==> r >= 0.0
    ensures ExpenseTotal(es) <= 0.0 ==> r <= 0.0
  {
    ToFixed(ExpenseTotal(es), 10)
  }
}

=== FILE: member_list.dfy ===
/** `frontend/src/components/MemberList.tsx`: the member the add button hands
    to the page, which appends it (`handleMemberAdd`). The random part of the
    new id is a parameter. */
module MemberList {
  import opened Basics
  import opened Domain

  /** `addNewMember`: a blank member numbered after the current ones. */
  function NewMember(members: seq<Member>, suffix: string): (m: Member)
    ensures StartsWith(m.id, "new-")
    ensures m.order == Some(|members|)
    ensures m.name == Some("") && m.expenses == [] && m.balance == 0.0
  {
    var id := "new-" + suffix;
    assert id[..|"new-"|] == "new-";
    Member(id, Some(""), Some(|members|), [], 0.0)
  }

  /** `handleMemberAdd`: the member appended. */
  function MemberAdd(members: seq<Member>, m: Member): (r: seq<Member>)
    ensures |r| == |members| + 1 && r[..|members|] == members && r[|members|] == m
  {
    members + [m]
  }

  /** Members numbered by position. */
  predicate OrderedByIndex(members: seq<Member>) {
    forall k :: 0 <= k < |members| ==> members[k].order == Some(k)
  }

  /** Adding a member adds exactly that one member at the end, and keeps a
      list numbered by position numbered by position. */
  lemma AddNewMemberKeepsNumbering(members: seq<Member>, suffix: string)
    requires OrderedByIndex(members)
    ensures var r := MemberAdd(members, NewMember(members, suffix));
      && OrderedByIndex(r)
      && multiset(r) == multiset(members) + multiset{NewMember(members, suffix)}
  {
  }
}

=== FILE: middlewares.dfy ===
/** `backend/app/middlewares.py`: the decision `reject_demo_requests` takes
    before handing a request on. The demo project id comes from the process
    environment and is a parameter here; an unset or empty variable is `None`
    or `Some("")`. */
module Middlewares {
  import opened Basics

  datatype Decision = PassOn | Forbidden

  /** `path.replace("-", "")`. */
  function StripDashes(s: string): (r: string)
    ensures |r| <= |s|
    ensures forall c :: c in r <==> c in s && c != '-'
  {
    if |s| == 0 then ""
    else if s[0] == '-' then StripDashes(s[1..])
    else [s[0]] + StripDashes(s[1..])
  }

  /** Python's `needle in hay` on strings. */
  predicate ContainsSubstring(hay: string, needle: string) {
    exists i :: 0 <= i <= |hay| && needle <= hay[i..]
  }

  /** `GET` and `OPTIONS` are let through on every path. */
  predicate ReadOnly(verb: string) {
    verb == "GET" || verb == "OPTIONS"
  }

  /** The middleware answers 403 to a request for a non-read verb whose
      dash-free path contains the configured, non-empty demo id. */
  function RejectDemoRequests(path: string, verb: string, demoId: Option<string>): (d: Decision)
    ensures d == Forbidden <==>
      && demoId.Some? && |demoId.value| > 0
      && ContainsSubstring(StripDashes(path), demoId.value)
      && verb != "GET" && verb != "OPTIONS"
  {
    var normalized := StripDashes(path);
    if demoId.Some? && demoId.value != "" && ContainsSubstring(normalized, demoId.value) then
      if !ReadOnly(verb) then Forbidden else PassOn
    else PassOn
  }

  // ----- properties -----

  /** Some stretch of `path`, dashes and all, spells `id` once its dashes
      are dropped. */
  predicate SpelledWithDashes(path: string, id: string) {
    exists i, j :: 0 <= i <= j <= |path| && StripDashes(path[i..j]) == id
  }

  /** Exactly the writes are refused whose path has a stretch that is the
      non-empty demo id with dashes inserted anywhere. */
  lemma ForbiddenIff(path: string, verb: string, demoId: Option<string>)
    ensures RejectDemoRequests(path, verb, demoId) == Forbidden <==>
      && demoId.Some? && |demoId.value| > 0
      && SpelledWithDashes(path, demoId.value)
      && verb != "GET" && verb != "OPTIONS"
  {
    if demoId.Some? {
      if ContainsSubstring(StripDashes(path), demoId.value) {
        ContainedIsSpelled(path, demoId.value);
      }
      if SpelledWithDashes(path, demoId.value) {
        SpelledIsContained(path, demoId.value);
      }
    }
  }

  lemma ContainedIsSpelled(path: string, id: string)
    requires ContainsSubstring(StripDashes(path), id)
    ensures SpelledWithDashes(path, id)
  {
    var hay := StripDashes(path);
    var i0 :| 0 <= i0 <= |hay| && id <= hay[i0..];
    SuffixOfStripped(path, i0);
    var k :| 0 <= k <= |path| && StripDashes(path[k..]) == hay[i0..];
    PrefixOfStripped(path[k..], id);
    var j :| 0 <= j <= |path[k..]| && StripDashes(path[k..][..j]) == id;
    assert path[k..][..j] == path[k..k + j];
  }

  lemma SpelledIsContained(path: string, id: string)
    requires SpelledWithDashes(path, id)
    ensures ContainsSubstring(StripDashes(path), id)
  {
    var i, j :| 0 <= i <= j <= |path| && StripDashes(path[i..j]) == id;
    assert path == path[..i] + path[i..j] + path[j..];
    StripAppend(path[..i] + path[i..j], path[j..]);
    StripAppend(path[..i], path[i..j]);
    var hay := StripDashes(path[..i]) + id + StripDashes(path[j..]);
    assert StripDashes(path) == hay;
    var n := |StripDashes(path[..i])|;
    assert id <= hay[n..];
  }

  /** A prefix of the stripped text is the stripped form of a prefix of the text. */
  lemma {:induction false} PrefixOfStripped(s: string, needle: string)
    requires needle <= StripDashes(s)
    ensures exists j :: 0 <= j <= |s| && StripDashes(s[..j]) == needle
    decreases |s|
  {
    if |needle| == 0 {
      assert StripDashes(s[..0]) == needle;
    } else {
      var t := s[1..];
      PrefixOfStripped(t, if s[0] == '-' then needle else needle[1..]);
      var j :| 0 <= j <= |t| && StripDashes(t[..j]) == (if s[0] == '-' then needle else needle[1..]);
      assert s[..j + 1][0] == s[0] && s[..j + 1][1..] == t[..j];
    }
  }

  /** A suffix of the stripped text is the stripped form of a suffix of the text. */
  lemma {:induction false} SuffixOfStripped(s: string, i: nat)
    requires i <= |StripDashes(s)|
    ensures exists k :: 0 <= k <= |s| && StripDashes(s[k..]) == StripDashes(s)[i..]
    decreases |s|
  {
    if i == 0 {
      assert s[0..] == s;
    } else {
      var t := s[1..];
      var i' := if s[0] == '-' then i else i - 1;
      SuffixOfStripped(t, i');
      var k :| 0 <= k <= |t| && StripDashes(t[k..]) == StripDashes(t)[i'..];
      assert s[k + 1..] == t[k..];
    }
  }

  /** Without a demo id every request passes, and so does every read. */
  lemma PassesWithoutDemoIdOrForReads(path: string, verb: string, demoId: Option<string>)
    ensures demoId.None? || demoId == Some("") ==> RejectDemoRequests(path, verb, demoId) == PassOn
    ensures ReadOnly(verb) ==> RejectDemoRequests(path, verb, demoId) == PassOn
  {
  }

  /** Dashes in the path do not hide the demo id: a write to a path holding
      the id with dashes inserted anywhere is refused, whatever surrounds it. */
  lemma DashesInPathIgnored(prefix: string, demoId: string, dashed: string, suffix: string, verb: string)
    requires |demoId| > 0 && !ReadOnly(verb)
    requires StripDashes(dashed) == demoId
    ensures RejectDemoRequests(prefix + dashed + suffix, verb, Some(demoId)) == Forbidden
  {
    StripAppend(prefix + dashed, suffix);
    StripAppend(prefix, dashed);
    var hay := StripDashes(prefix) + demoId + StripDashes(suffix);
    var i := |StripDashes(prefix)|;
    assert demoId <= hay[i..];
  }

  /** Because the path is stripped and the configured id is not, an id written
      with a dash never matches, so it blocks nothing. */
  lemma DashedDemoIdNeverBlocks(path: string, verb: string, demoId: string)
    requires '-' in demoId
    ensures RejectDemoRequests(path, verb, Some(demoId)) == PassOn
  {
    var hay := StripDashes(path);
    var j :| 0 <= j < |demoId| && demoId[j] == '-';
    forall i | 0 <= i <= |hay| ensures !(demoId <= hay[i..]) {
      if j < |hay| - i {
        assert hay[i + j] in hay;
        assert hay[i..][j] != demoId[j];
      }
    }
  }

  /** Stripping works character by character: it distributes over
      concatenation, and one character is dropped exactly when it is a dash. */
  lemma {:induction false} StripAppend(a: string, b: string)
    ensures StripDashes(a + b) == StripDashes(a) + StripDashes(b)
    ensures |a| == 1 ==> StripDashes(a) == if a[0] == '-' then [] else a
  {
    if |a| > 0 {
      assert (a + b)[0] == a[0] && (a + b)[1..] == a[1..] + b;
      StripAppend(a[1..], b);
      if |a| == 1 {
        assert a[1..] == "" && a == [a[0]];
      }
    } else {
      assert a + b == b;
    }
  }

  /** Stripping twice is stripping once. */
  lemma {:induction false} StripIdempotent(s: string)
    ensures StripDashes(StripDashes(s)) == StripDashes(s)
  {
    if |s| > 0 {
      StripIdempotent(s[1..]);
      if s[0] != '-' {
        assert ([s[0]] + StripDashes(s[1..]))[1..] == StripDashes(s[1..]);
      }
    }
  }
}

=== FILE: project_page.dfy ===
/** The local edit handlers of `frontend/src/pages/ProjectPage.tsx`: each maps
    the edited member list to the next one. Matching is by id; member and
    expense `order` fields are renumbered to list positions where the code
    does so. */
module ProjectPage {
  import opened Basics
  import opened Domain
  import opened MemberList
  import opened MemberItem
  import opened ProjectState

  /** `handleMemberUpdate`: every member with the id of `u` replaced by `u`,
      and every member's `order` set to its position. */
  function MemberUpdate(ms: seq<Member>, u: Member): (r: seq<Member>)
    ensures |r| == |ms| && OrderedByIndex(r)
    ensures MemberIds(r) == MemberIds(ms)
    ensures forall k :: 0 <= k < |ms| && ms[k].id == u.id ==> r[k] == u.(order := Some(k))
    ensures forall k :: 0 <= k < |ms| && ms[k].id != u.id ==> r[k] == ms[k].(order := Some(k))
  {
    seq(|ms|, k requires 0 <= k < |ms| => (if ms[k].id == u.id then u else ms[k]).(order := Some(k)))
  }

  /** Applying the same update twice is applying it once. */
  lemma MemberUpdateIdempotent(ms: seq<Member>, u: Member)
    ensures MemberUpdate(MemberUpdate(ms, u), u) == MemberUpdate(ms, u)
  {
    var once := MemberUpdate(ms, u);
    forall k | 0 <= k < |ms| ensures once[k].id == ms[k].id {
      assert MemberIds(once)[k] == MemberIds(ms)[k];
    }
  }

  /** Updating a list already numbered by position with one of its own
      members changes nothing. */
  lemma MemberUpdateWithCurrentIsNoOp(ms: seq<Member>, k: nat)
    requires k < |ms| && OrderedByIndex(ms) && UniqueMemberIds(ms)
    ensures MemberUpdate(ms, ms[k]) == ms
  {
    forall j | 0 <= j < |ms| ensures MemberUpdate(ms, ms[k])[j] == ms[j] {
      if ms[j].id == ms[k].id {
        assert MemberIds(ms)[j] == MemberIds(ms)[k];
      }
    }
  }

  /** `handleMemberDelete`: the members without the id of `u`. */
  function MemberDelete(ms: seq<Member>, u: Member): (r: seq<Member>)
    ensures |r| <= |ms|
    ensures forall m :: m in r <==> m in ms && m.id != u.id
    ensures !HasMember(r, u.id)
  {
    if |ms| == 0 then []
    else
      HeadOrTail(ms);
      var rest := MemberDelete(ms[1..], u);
      var r := if ms[0].id == u.id then rest else [ms[0]] + rest;
      assert !HasMember(r, u.id) by {
        if ms[0].id != u.id {
          assert MemberIds(r) == [ms[0].id] + MemberIds(rest);
        }
      }
      r
  }

  /** The filter keeps the survivors in their order: it distributes over
      concatenation, and one member is kept exactly when its id differs. */
  lemma MemberDeleteConcat(a: seq<Member>, b: seq<Member>, u: Member)
    ensures MemberDelete(a + b, u) == MemberDelete(a, u) + MemberDelete(b, u)
    ensures |a| == 1 ==> MemberDelete(a, u) == if a[0].id == u.id then [] else a
  {
    MemberDeleteIsFilter(a, u);
    MemberDeleteIsFilter(b, u);
    MemberDeleteIsFilter(a + b, u);
    FilterConcat(a, b, OtherMember(u.id));
    if |a| == 1 {
      assert a[1..] == [];
    }
  }

  /** The test `members.filter` applies. */
  function OtherMember(id: string): Member -> bool {
    (m: Member) => m.id != id
  }

  /** `MemberDelete` is the generic filter, whose shape proofs do not drag the
      membership facts along. */
  lemma {:induction false} MemberDeleteIsFilter(ms: seq<Member>, u: Member)
    ensures MemberDelete(ms, u) == Filter(ms, OtherMember(u.id))
    decreases |ms|
  {
    if |ms| > 0 {
      MemberDeleteIsFilter(ms[1..], u);
    }
  }

  /** Adding a member with a fresh id and deleting it again gives the list back. */
  lemma {:induction false} DeleteUndoesAdd(ms: seq<Member>, m: Member)
    requires !HasMember(ms, m.id)
    ensures MemberDelete(MemberAdd(ms, m), m) == ms
  {
    if |ms| > 0 {
      assert MemberIds(ms) == [ms[0].id] + MemberIds(ms[1..]);
      assert MemberAdd(ms, m)[1..] == MemberAdd(ms[1..], m);
      DeleteUndoesAdd(ms[1..], m);
    }
  }

  /** The expenses of a member after `handleExpenseUpdate`: the expense with
      the id of `u` replaced by `u`, and every `order` set to its position. */
  function RenumberedWith(es: seq<Expense>, u: Expense): (r: seq<Expense>)
    ensures |r| == |es| && ExpenseIds(r) == ExpenseIds(es)
    ensures forall i :: 0 <= i < |es| ==> r[i].order == Some(i)
    ensures forall i :: 0 <= i < |es| && es[i].id == u.id ==> r[i] == u.(order := Some(i))
    ensures forall i :: 0 <= i < |es| && es[i].id != u.id ==> r[i] == es[i].(order := Some(i))
  {
    seq(|es|, i requires 0 <= i < |es| => (if es[i].id == u.id then u else es[i]).(order := Some(i)))
  }

  /** `handleExpenseUpdate`: only members with id `memberId` change, and in
      them only the expense list; when the result equals the current list
      (compared as serialised values), the current list is kept. */
  function ExpenseUpdate(ms: seq<Member>, memberId: string, u: Expense): (r: seq<Member>)
    ensures |r| == |ms| && MemberIds(r) == MemberIds(ms)
    ensures forall k :: 0 <= k < |ms| && ms[k].id != memberId ==> r[k] == ms[k]
    ensures forall k :: 0 <= k < |ms| && ms[k].id == memberId ==>
      r[k] == ms[k].(expenses := RenumberedWith(ms[k].expenses, u))
  {
    var updated := seq(|ms|, k requires 0 <= k < |ms| =>
      if ms[k].id == memberId then ms[k].(expenses := RenumberedWith(ms[k].expenses, u)) else ms[k]);
    if updated == ms then ms else updated
  }

  /** Expenses numbered by position. */
  predicate ExpensesOrdered(es: seq<Expense>) {
    forall i :: 0 <= i < |es| ==> es[i].order == Some(i)
  }

  /** Re-sending an expense unchanged, in a list numbered by position with
      unique expense ids, leaves the members as they are. */
  lemma ExpenseUpdateUnchangedIsNoOp(ms: seq<Member>, memberId: string, u: Expense)
    requires forall k :: 0 <= k < |ms| && ms[k].id == memberId ==>
      ExpensesOrdered(ms[k].expenses) && Distinct(ExpenseIds(ms[k].expenses)) && u in ms[k].expenses
    ensures ExpenseUpdate(ms, memberId, u) == ms
  {
    forall k | 0 <= k < |ms| && ms[k].id == memberId
      ensures RenumberedWith(ms[k].expenses, u) == ms[k].expenses
    {
      var es := ms[k].expenses;
      var j :| 0 <= j < |es| && es[j] == u;
      forall i | 0 <= i < |es| ensures RenumberedWith(es, u)[i] == es[i] {
        if es[i].id == u.id {
          assert ExpenseIds(es)[i] == ExpenseIds(es)[j];
        }
      }
    }
  }

  /** `handleExpenseDelete`: the expenses with the id of `e` removed from the
      members with id `memberId`; everything else stays. */
  function ExpenseDelete(ms: seq<Member>, memberId: string, e: Expense): (r: seq<Member>)
    ensures |r| == |ms| && MemberIds(r) == MemberIds(ms)
    ensures forall k :: 0 <= k < |ms| && ms[k].id != memberId ==> r[k] == ms[k]
    ensures forall k :: 0 <= k < |ms| && ms[k].id == memberId ==>
      && r[k].(expenses := ms[k].expenses) == ms[k]
      && r[k].expenses == DropExpense(ms[k].expenses, e.id)
      && !HasExpense(r[k].expenses, e.id)
      && forall x :: x in r[k].expenses <==> x in ms[k].expenses && x.id != e.id
  {
    var r := seq(|ms|, k requires 0 <= k < |ms| =>
      if ms[k].id == memberId then ms[k].(expenses := DropExpense(ms[k].expenses, e.id)) else ms[k]);
    assert forall k :: 0 <= k < |ms| && ms[k].id == memberId ==> !HasExpense(r[k].expenses, e.id) by {
      forall k | 0 <= k < |ms| && ms[k].id == memberId ensures !HasExpense(r[k].expenses, e.id) {
        DropExpenseRemovesId(ms[k].expenses, e.id);
      }
    }
    r
  }

  /** Each member row reports its member once when it mounts, unchanged
      (`MemberItem.tsx`, the effect on the edited name). Right after a load
      that report leaves the page clean exactly when the loaded members were
      already numbered by position; members loaded without an `order` make it
      dirty at once. */
  lemma MountedMemberMarksUnnumberedDirty(p: Project, k: nat)
    requires k < |p.members| && UniqueMemberIds(p.members)
    ensures var s := SyncOnLoad(p);
      HasUnsavedChanges(s.(edited := MemberUpdate(s.edited, s.edited[k]))) <==> !OrderedByIndex(p.members)
  {
    var ms := p.members;
    var r := MemberUpdate(ms, ms[k]);
    if OrderedByIndex(ms) {
      MemberUpdateWithCurrentIsNoOp(ms, k);
    } else {
      assert r != ms;
    }
  }

  /** Each expense row reports its expense, unchanged, whenever the expense it
      is given changes: when it mounts and again after every reload
      (`ExpenseItem.tsx`, the effect that copies the expense and the effect on
      the edited copy). Over unique member ids and unique expense ids, that
      report changes the members exactly when the member's expenses were not
      numbered by position. */
  lemma MountedExpenseMarksUnnumberedDirty(ms: seq<Member>, k: nat, i: nat)
    requires k < |ms| && i < |ms[k].expenses|
    requires UniqueMemberIds(ms) && Distinct(ExpenseIds(ms[k].expenses))
    ensures ExpenseUpdate(ms, ms[k].id, ms[k].expenses[i]) == ms <==> ExpensesOrdered(ms[k].expenses)
  {
    var id := ms[k].id;
    var u := ms[k].expenses[i];
    forall j | 0 <= j < |ms| && ms[j].id == id ensures j == k {
      assert MemberIds(ms)[j] == MemberIds(ms)[k];
    }
    if ExpensesOrdered(ms[k].expenses) {
      assert u in ms[k].expenses;
      ExpenseUpdateUnchangedIsNoOp(ms, id, u);
    }
  }

  /** The store keeps no `order`, so every load, including the refetch after
      each save, brings expenses without one. The first report of such an
      expense's row leaves the page with unsaved changes. */
  lemma ReloadedExpenseMarksDirty(p: Project, k: nat, i: nat)
    requires k < |p.members| && i < |p.members[k].expenses|
    requires UniqueMemberIds(p.members) && Distinct(ExpenseIds(p.members[k].expenses))
    requires p.members[k].expenses[i].order.None?
    ensures var s := SyncOnLoad(p);
      HasUnsavedChanges(s.(edited := ExpenseUpdate(s.edited, s.edited[k].id, s.edited[k].expenses[i])))
  {
    var ms := p.members;
    assert !ExpensesOrdered(ms[k].expenses);
    MountedExpenseMarksUnnumberedDirty(ms, k, i);
  }
}

=== FILE: project_state.dfy ===
/** `frontend/src/hooks/useProjectState.ts`: the two snapshots a project page
    keeps, one as loaded or last saved ("original") and one as edited, and the
    check that tells them apart. */
module ProjectState {
  import opened Basics
  import opened Domain

  datatype EditState = EditState(
    originalName: string,
    editedName: string,
    original: seq<Member>,
    edited: seq<Member>)

  /** The state before any project has loaded. */
  function Initial(): (s: EditState)
    ensures s.originalName == s.editedName == "" && s.original == s.edited == []
  {
    EditState("", "", [], [])
  }

  /** `project.name || ''`: a null or empty name shows as the empty string. */
  function DisplayName(name: Option<string>): (r: string)
    ensures name.Some? ==> r == name.value
    ensures name.None? ==> r == ""
  {
    name.GetOr("")
  }

  /** The effect that runs when a project loads: both snapshots take its name and members. */
  function SyncOnLoad(p: Project): (s: EditState)
    ensures s.originalName == s.editedName == DisplayName(p.name)
    ensures s.original == s.edited == p.members
  {
    EditState(DisplayName(p.name), DisplayName(p.name), p.members, p.members)
  }

  datatype Changes = Changes(projectNameChanged: bool, membersChanged: bool)

  /** `detectChanges`: the name differs, the members (compared as serialised
      values, here structurally) differ. */
  function DetectChanges(s: EditState): (c: Changes)
    ensures c.projectNameChanged <==> s.originalName != s.editedName
    ensures c.membersChanged <==> s.original != s.edited
  {
    Changes(s.originalName != s.editedName, s.original != s.edited)
  }

  predicate HasUnsavedChanges(s: EditState) {
    DetectChanges(s).projectNameChanged || DetectChanges(s).membersChanged
  }

  /** A project loads into the state before any load exactly when it has no
      members and a null or empty name; that state is clean. */
  lemma InitialIsEmptyLoad(p: Project)
    ensures SyncOnLoad(p) == Initial() <==> p.members == [] && (p.name.None? || p.name == Some(""))
    ensures !HasUnsavedChanges(Initial())
  {
  }

  /** Right after a load nothing is unsaved, whatever the state was before. */
  lemma LoadedIsClean(p: Project)
    ensures !HasUnsavedChanges(SyncOnLoad(p))
  {
  }

  /** A state is clean exactly when both snapshots agree. */
  lemma CleanIff(s: EditState)
    ensures !HasUnsavedChanges(s) <==> s.originalName == s.editedName && s.original == s.edited
  {
  }

  /** Editing only the name marks exactly the name as changed. */
  lemma RenameDetected(p: Project, name: string)
    requires name != DisplayName(p.name)
    ensures DetectChanges(SyncOnLoad(p).(editedName := name)) == Changes(true, false)
  {
  }
}

=== FILE: rounding.dfy ===
/** The two display roundings the frontend applies to amounts, stated over
    exact reals: `Math.round(x * 100) / 100` for a recorded payment and
    `parseFloat(x.toFixed(10))` for a member's expense total. */
module Rounding {

  function Pow10(d: nat): (r: nat)
    ensures r >= 1
  {
    if d == 0 then 1 else 10 * Pow10(d - 1)
  }

  /** `Math.round`: the nearest integer, halves rounded toward +infinity. */
  function MathRound(y: real): (n: int)
    ensures y - 0.5 < n as real <= y + 0.5
  {
    (y + 0.5).Floor
  }

  /** `r` is a whole number of steps of `1 / p`. */
  predicate OnGrid(r: real, p: real) {
    (r * p).Floor as real == r * p
  }

  /** `Math.round(x * 100) / 100`: `x` to the nearest cent, half-cents up.
      Exactly one whole number of cents lies in the half-open interval the
      contract gives, so the contract pins the result down. */
  function RoundCents(x: real): (r: real)
    ensures OnGrid(r, 100.0)
    ensures x - 0.005 < r <= x + 0.005
    ensures x >= 0.0 ==> r >= 0.0
  {
    var n := MathRound(x * 100.0);
    assert (n as real / 100.0) * 100.0 == n as real;
    n as real / 100.0
  }

  /** Rounding a whole number of cents leaves it alone. */
  lemma ExactCentsUnchanged(n: int)
    ensures RoundCents(n as real / 100.0) == n as real / 100.0
  {
    var c := n as real / 100.0;
    assert c * 100.0 == n as real;
    var m := MathRound(c * 100.0);
    assert n as real - 0.5 < m as real <= n as real + 0.5;
    assert m == n;
  }

  /** A recorded amount is already a whole number of cents, so rounding again changes nothing. */
  lemma RoundCentsIdempotent(x: real)
    ensures RoundCents(RoundCents(x)) == RoundCents(x)
  {
    ExactCentsUnchanged(MathRound(x * 100.0));
  }

  /** `Number.prototype.toFixed(d)` read back by `parseFloat`: the magnitude is
      rounded to `d` decimals with halves away from zero, the sign kept. The
      result is a whole number of steps of `10^-d` within half a step of `x`,
      a tie going away from zero; exactly one value meets that. */
  function ToFixed(x: real, d: nat): (r: real)
    ensures OnGrid(r, Pow10(d) as real)
    ensures x >= 0.0 ==> x - 0.5 / Pow10(d) as real < r <= x + 0.5 / Pow10(d) as real
    ensures x < 0.0 ==> x - 0.5 / Pow10(d) as real <= r < x + 0.5 / Pow10(d) as real
    ensures (x >= 0.0 ==> r >= 0.0) && (x <= 0.0 ==> r <= 0.0)
  {
    var p := Pow10(d) as real;
    if x < 0.0 then
      var q := RoundScaled(-x, p);
      OnGridNeg(q, p);
      -q
    else RoundScaled(x, p)
  }

  /** The grid is symmetric about zero. */
  lemma OnGridNeg(r: real, p: real)
    requires OnGrid(r, p)
    ensures OnGrid(-r, p)
  {
    var k := (r * p).Floor;
    assert (-r) * p == -(k as real);
    assert (-(k as real)).Floor == -k;
  }

  /** A non-negative `y` rounded to the nearest multiple of `1 / p`, halves
      up: a whole number of steps, above `y` minus half a step and at most `y`
      plus half a step. */
  function RoundScaled(y: real, p: real): (q: real)
    requires y >= 0.0 && p >= 1.0
    ensures OnGrid(q, p)
    ensures y - 0.5 / p < q <= y + 0.5 / p && q >= 0.0
  {
    var k := (y * p + 0.5).Floor;
    var n := k as real;
    assert y * p - 0.5 < n <= y * p + 0.5;
    var q := n / p;
    var h := 0.5 / p;
    assert q * p == n && h * p == 0.5;
    assert n.Floor == k;
    assert (q * p).Floor == k;
    assert OnGrid(q, p);
    assert (y + h) * p == y * p + 0.5;
    assert (y - h) * p == y * p - 0.5;
    ScaleBack(q, y + h, p);
    ScaleBack(q, y - h, p);
    ScaleBack(0.0, y, p);
    ScaleBack(0.0, q, p);
    q
  }

  /** Multiplying by a positive factor keeps the order, both ways. */
  lemma ScaleBack(a: real, b: real, p: real)
    requires p > 0.0
    ensures a <= b <==> a * p <= b * p
  {
  }

  /** `toFixed` treats a value and its negation symmetrically. */
  lemma ToFixedOdd(x: real, d: nat)
    ensures ToFixed(-x, d) == -ToFixed(x, d)
  {
  }
}

=== FILE: routes.dfy ===
/** `backend/app/routes.py`: the older `calculate` route, which the application
    no longer mounts, and the involved-member lookup `create_expense` does
    inline before storing an expense. */
module Routes {
  import opened Basics
  import opened Balances
  import opened Settlement
  import opened Stored
  import opened Helper

  /** `calculate(id)`: 404 without members; otherwise the expenses are
      distributed onto the balances as loaded (not reset), where a missing
      amount makes the division raise, and the same unrounded scan follows. */
  function Calculate(p: StoredProject): (r: Result<Settled, Fault>)
    ensures r.Err? ==> r.error == HttpError(404, "No members found in this project") || r.error == TypeError
    ensures r.Err? && r.error.HttpError? <==> |p.members| == 0
    ensures r.Ok? ==> |r.value.balances| == |p.members|
  {
    if |p.members| == 0 then Err(HttpError(404, "No members found in this project"))
    else
      var d := Distribute(StoredBalances(p.members), p.members, p.expenses, Raises);
      DistributeNeverDividesByZero(StoredBalances(p.members), p.members, p.expenses, Raises);
      if d.Err? then Err(d.error)
      else
        var run := Settle(d.value);
        SettleShape(d.value);
        Ok(Settled(ToPublic(p.members, run.transfers), run.balances))
  }

  /** With members present no divisor is 0, whichever way a missing amount is treated. */
  lemma {:induction false} DistributeNeverDividesByZero(
    b: seq<real>, members: seq<StoredMember>, es: seq<StoredExpense>, missing: MissingAmount)
    requires |b| == |members| && |members| > 0
    ensures var r := Distribute(b, members, es, missing);
      r.Err? ==> r.error == TypeError
    decreases |es|
  {
    if |es| > 0 {
      var e := es[0];
      if !(e.amount.None? && missing == Raises) {
        var n := Divisor(members, e);
        var a := e.amount.GetOr(0.0);
        var next := Split(b, InvolvedMask(members, e), PayerMask(members, e), a / n as real, a);
        DistributeNeverDividesByZero(next, members, es[1..], missing);
      }
    }
  }

  /** The older route fails with a `TypeError` exactly when the project has
      members and some expense has no amount. */
  lemma {:induction false} RaisesIffAmountMissing(
    b: seq<real>, members: seq<StoredMember>, es: seq<StoredExpense>)
    requires |b| == |members| && |members| > 0
    ensures Distribute(b, members, es, Raises).Err? <==> exists e :: e in es && e.amount.None?
    decreases |es|
  {
    if |es| > 0 {
      var e := es[0];
      assert e in es;
      if e.amount.Some? {
        var n := Divisor(members, e);
        var a := e.amount.value;
        var next := Split(b, InvolvedMask(members, e), PayerMask(members, e), a / n as real, a);
        assert Distribute(b, members, es, Raises) == Distribute(next, members, es[1..], Raises);
        RaisesIffAmountMissing(next, members, es[1..]);
        HeadOrTail(es);
      }
    }
  }

  /** When no amount is missing the two treatments of a missing amount agree. */
  lemma {:induction false} MissingTreatmentIrrelevant(
    b: seq<real>, members: seq<StoredMember>, es: seq<StoredExpense>)
    requires |b| == |members|
    requires forall e :: e in es ==> e.amount.Some?
    ensures Distribute(b, members, es, Raises) == Distribute(b, members, es, CountsAsZero)
    decreases |es|
  {
    if |es| > 0 {
      var e := es[0];
      assert e in es;
      var n := Divisor(members, e);
      if n != 0 {
        var a := e.amount.value;
        var next := Split(b, InvolvedMask(members, e), PayerMask(members, e), a / n as real, a);
        assert forall x :: x in es[1..] ==> x in es;
        MissingTreatmentIrrelevant(next, members, es[1..]);
      }
    }
  }

  /** The older route keeps the total of the loaded balances under
      well-formed data, so a zero-sum starting point settles everybody. */
  lemma CalculateKeepsStoredTotal(p: StoredProject)
    requires WellFormed(p.members, p.expenses)
    ensures var r := Calculate(p);
      r.Ok? ==> Sum(Distribute(StoredBalances(p.members), p.members, p.expenses, Raises).value)
                == Sum(StoredBalances(p.members))
  {
    if |p.members| > 0 {
      DistributeKeepsTotal(StoredBalances(p.members), p.members, p.expenses, Raises);
    }
  }

  /** With every loaded balance at its default 0 and every amount present, the
      older route computes exactly what `calculate_project_payments` does. */
  lemma CalculateAgreesWithHelper(p: StoredProject)
    requires |p.members| > 0
    requires forall k :: 0 <= k < |p.members| ==> p.members[k].balance == 0.0
    requires forall e :: e in p.expenses ==> e.amount.Some?
    ensures Calculate(p) == CalculateProjectPayments(p)
  {
    assert StoredBalances(p.members) == Zeros(|p.members|);
    MissingTreatmentIrrelevant(Zeros(|p.members|), p.members, p.expenses);
  }

  /** The lookup `create_expense` performs before storing an expense for
      `payer`: the involved ids are looked up among all stored members, and the
      stored expense links exactly the requested members. `amount` is `None`
      when the body leaves it out; the schema's default then stores 0 (an
      explicit null fails validation before the route runs). */
  function CreateExpense(payer: string, amount: Option<real>, ids: Option<seq<string>>, existing: set<string>)
    : (r: Result<StoredExpense, Fault>)
    ensures r.Err? <==> RemodelInvolvedMembers(ids, existing).Err?
    ensures r.Err? ==> r.error == HttpError(404, "One or more involved members not found")
    ensures r.Ok? ==>
      && r.value.payer == payer
      && r.value.amount == Some(if amount.Some? then amount.value else 0.0)
      && Elements(r.value.involved) == RemodelInvolvedMembers(ids, existing).value
  {
    RemodelSucceedsIff(ids, existing);
    var found := RemodelInvolvedMembers(ids, existing);
    if found.Err? then Err(found.error)
    else Ok(StoredExpense(payer, Some(amount.GetOr(0.0)), ids.GetOr([])))
  }

  /** A stored expense's involved list is duplicate-free and made of existing
      members: the involvement half of well-formedness, when the members of the
      project are the ones looked up. */
  lemma CreatedExpenseLinksExistingMembers(
    payer: string, amount: Option<real>, ids: Option<seq<string>>, existing: set<string>)
    ensures var r := CreateExpense(payer, amount, ids, existing);
      r.Ok? ==> Distinct(r.value.involved) && forall id :: id in r.value.involved ==> id in existing
  {
    RemodelSucceedsIff(ids, existing);
  }

  /** Expenses this route stores always carry an amount, so over members and
      such expenses the older route's division never raises. */
  lemma CreatedExpensesNeverRaise(
    b: seq<real>, members: seq<StoredMember>, es: seq<StoredExpense>,
    payer: string, amount: Option<real>, ids: Option<seq<string>>, existing: set<string>)
    requires |b| == |members| && |members| > 0
    requires forall e :: e in es ==> e.amount.Some?
    ensures CreateExpense(payer, amount, ids, existing).Ok? ==>
      Distribute(b, members, es + [CreateExpense(payer, amount, ids, existing).value], Raises).Ok?
  {
    var r := CreateExpense(payer, amount, ids, existing);
    if r.Ok? {
      var x := r.value;
      assert x.amount.Some?;
      assert forall e :: e in es + [x] ==> e in es || e == x;
      AmountsPresentNeverRaise(b, members, es + [x]);
    }
  }

  lemma AmountsPresentNeverRaise(b: seq<real>, members: seq<StoredMember>, es: seq<StoredExpense>)
    requires |b| == |members| && |members| > 0
    requires forall e :: e in es ==> e.amount.Some?
    ensures Distribute(b, members, es, Raises).Ok?
  {
    RaisesIffAmountMissing(b, members, es);
  }
}

=== FILE: save_plan.dfy ===
/** `handleSaveChanges` of `frontend/src/pages/ProjectPage.tsx`: the requests
    the page sends to turn the loaded snapshot into the edited one, and the
    state it is left in. The requests are fire-and-forget calls into the store;
    here they are the list of operations in the order the page issues them.
    The one awaited step, creating the members that are new, is modelled by
    `replies`: entry k is the id the store answered for the k-th edited member,
    or None when that creation failed. */
module SavePlan {
  import opened Basics
  import opened Domain
  import opened ProjectState

  datatype StoreOp =
    | UpdateProject(project: Project)
    | CreateMember(member: Member)
    | UpdateMember(member: Member)
    | DeleteMember(member: Member)
    | CreateExpense(memberId: string, expense: Expense)
    | UpdateExpense(memberId: string, expense: Expense)
    | DeleteExpense(memberId: string, expense: Expense)

  predicate IsExpenseOp(op: StoreOp) {
    op.CreateExpense? || op.UpdateExpense? || op.DeleteExpense?
  }

  /** Skipped: nothing to save. DemoDiscarded: the demo project, whose edits are
      dropped with a notice. Rejected: a member creation failed, so the awaited
      step throws and nothing after it runs. */
  datatype Outcome = Skipped | DemoDiscarded | Saved | Rejected

  datatype Save = Save(ops: seq<StoreOp>, state: EditState, outcome: Outcome)

  /** The position of an operation's kind in the page's sequence of steps. */
  function Phase(op: StoreOp): nat {
    match op
    case UpdateProject(_) => 0
    case CreateMember(_) => 1
    case UpdateMember(_) => 2
    case DeleteMember(_) => 3
    case _ => 4
  }

  predicate InPhaseOrder(ops: seq<StoreOp>) {
    forall i, j :: 0 <= i < j < |ops| ==> Phase(ops[i]) <= Phase(ops[j])
  }

  /** An ordered list followed by a block of one later phase is ordered. */
  lemma AppendInPhaseOrder(a: seq<StoreOp>, b: seq<StoreOp>, p: nat)
    requires InPhaseOrder(a) && forall op :: op in a ==> Phase(op) <= p
    requires forall op :: op in b ==> Phase(op) == p
    ensures InPhaseOrder(a + b) && forall op :: op in a + b ==> Phase(op) <= p
  {
    forall i, j | 0 <= i < j < |a + b| ensures Phase((a + b)[i]) <= Phase((a + b)[j]) {
      if j < |a| {
        assert (a + b)[i] == a[i] && (a + b)[j] == a[j];
      } else {
        assert (a + b)[j] == b[j - |a|];
        if i < |a| {
          assert (a + b)[i] == a[i];
        } else {
          assert (a + b)[i] == b[i - |a|];
        }
      }
    }
  }

  /** Step one: a creation for every edited member whose id the original
      snapshot does not know (a placeholder id). */
  function Creations(original: seq<Member>, edited: seq<Member>): (ops: seq<StoreOp>)
    ensures |ops| <= |edited|
    ensures forall op :: op in ops <==>
      op.CreateMember? && op.member in edited && !HasMember(original, op.member.id)
  {
    if |edited| == 0 then []
    else
      HeadOrTail(edited);
      var rest := Creations(original, edited[1..]);
      if HasMember(original, edited[0].id) then rest else [CreateMember(edited[0])] + rest
  }

  /** Every new member got an id back. */
  predicate AllCreated(original: seq<Member>, edited: seq<Member>, replies: seq<Option<string>>) {
    forall k :: 0 <= k < |edited| && !HasMember(original, edited[k].id) ==>
      k < |replies| && replies[k].Some?
  }

  /** The store hands out ids the snapshot does not already use. */
  predicate FreshReplies(original: seq<Member>, replies: seq<Option<string>>) {
    forall k :: 0 <= k < |replies| && replies[k].Some? ==> !HasMember(original, replies[k].value)
  }

  /** The edited members with each new member's placeholder id replaced by
      the id the store answered. */
  function Rewrite(original: seq<Member>, edited: seq<Member>, replies: seq<Option<string>>): (r: seq<Member>)
    ensures |r| == |edited|
    ensures forall k :: 0 <= k < |edited| ==> r[k].(id := edited[k].id) == edited[k]
    ensures forall k :: 0 <= k < |edited| && HasMember(original, edited[k].id) ==> r[k] == edited[k]
    ensures forall k :: 0 <= k < |replies| && k < |edited| && replies[k].Some? && !HasMember(original, edited[k].id) ==>
      r[k].id == replies[k].value
  {
    seq(|edited|, k requires 0 <= k < |edited| =>
      if !HasMember(original, edited[k].id) && k < |replies| && replies[k].Some?
      then edited[k].(id := replies[k].value) else edited[k])
  }

  /** A member whose name or order differs from its original. */
  predicate MemberChanged(m: Member, o: Member) {
    m.name != o.name || m.order != o.order
  }

  /** Step two: an update for every member the original snapshot knows by id
      whose name or order changed. */
  function MemberUpdates(original: seq<Member>, members: seq<Member>): (ops: seq<StoreOp>)
    ensures forall op :: op in ops <==>
      && op.UpdateMember? && op.member in members
      && FindMember(original, op.member.id).Some?
      && MemberChanged(op.member, FindMember(original, op.member.id).value)
  {
    if |members| == 0 then []
    else
      HeadOrTail(members);
      var rest := MemberUpdates(original, members[1..]);
      var m := members[0];
      var o := FindMember(original, m.id);
      if o.Some? && MemberChanged(m, o.value) then [UpdateMember(m)] + rest else rest
  }

  /** Step three: a deletion for every original member whose id is gone. */
  function MemberDeletes(original: seq<Member>, members: seq<Member>): (ops: seq<StoreOp>)
    ensures |ops| <= |original|
    ensures forall op :: op in ops <==>
      op.DeleteMember? && op.member in original && !HasMember(members, op.member.id)
  {
    if |original| == 0 then []
    else
      HeadOrTail(original);
      var rest := MemberDeletes(original[1..], members);
      if HasMember(members, original[0].id) then rest else [DeleteMember(original[0])] + rest
  }

  /** An expense whose amount, name, order or involved member ids changed. */
  predicate ExpenseChanged(e: Expense, o: Expense) {
    e.amount != o.amount || e.name != o.name || e.order != o.order || RefIds(e.involved) != RefIds(o.involved)
  }

  /** `originalMembers.find(...)?.expenses.find(...)`. */
  function OriginalExpense(orig: Option<Member>, id: string): (r: Option<Expense>)
    ensures r.Some? <==> orig.Some? && HasExpense(orig.value.expenses, id)
    ensures r.Some? ==> r.value in orig.value.expenses && r.value.id == id
  {
    if orig.None? then None else FindExpense(orig.value.expenses, id)
  }

  /** A member's expenses: created when the original member has no expense
      with that id, updated when it has one that differs. */
  function ExpenseWrites(orig: Option<Member>, memberId: string, es: seq<Expense>): (ops: seq<StoreOp>)
    ensures forall op :: op in ops ==> IsExpenseOp(op) && op.memberId == memberId && !op.DeleteExpense?
    ensures forall e :: CreateExpense(memberId, e) in ops <==> e in es && OriginalExpense(orig, e.id).None?
    ensures forall e :: UpdateExpense(memberId, e) in ops <==>
      e in es && OriginalExpense(orig, e.id).Some? && ExpenseChanged(e, OriginalExpense(orig, e.id).value)
  {
    if |es| == 0 then []
    else
      HeadOrTail(es);
      var rest := ExpenseWrites(orig, memberId, es[1..]);
      var o := OriginalExpense(orig, es[0].id);
      if o.None? then [CreateExpense(memberId, es[0])] + rest
      else if ExpenseChanged(es[0], o.value) then [UpdateExpense(memberId, es[0])] + rest
      else rest
  }

  /** The original member's expenses whose id the member no longer has. */
  function ExpenseDeletes(orig: Option<Member>, memberId: string, es: seq<Expense>): (ops: seq<StoreOp>)
    ensures forall op :: op in ops ==> op.DeleteExpense? && op.memberId == memberId
    ensures forall e :: DeleteExpense(memberId, e) in ops <==>
      orig.Some? && e in orig.value.expenses && !HasExpense(es, e.id)
  {
    if orig.None? then [] else DeletesFrom(orig.value.expenses, memberId, es)
  }

  function DeletesFrom(originals: seq<Expense>, memberId: string, es: seq<Expense>): (ops: seq<StoreOp>)
    ensures forall op :: op in ops ==> op.DeleteExpense? && op.memberId == memberId
    ensures forall e :: DeleteExpense(memberId, e) in ops <==> e in originals && !HasExpense(es, e.id)
  {
    if |originals| == 0 then []
    else
      HeadOrTail(originals);
      var rest := DeletesFrom(originals[1..], memberId, es);
      if HasExpense(es, originals[0].id) then rest else [DeleteExpense(memberId, originals[0])] + rest
  }

  /** One member's expense requests: writes, then deletions. */
  function MemberExpenseOps(original: seq<Member>, m: Member): (ops: seq<StoreOp>)
    ensures forall op :: op in ops ==> IsExpenseOp(op) && op.memberId == m.id
  {
    var orig := FindMember(original, m.id);
    ExpenseWrites(orig, m.id, m.expenses) + ExpenseDeletes(orig, m.id, m.expenses)
  }

  /** Step four: the expense requests of every member, member by member. */
  function ExpenseOps(original: seq<Member>, members: seq<Member>): (ops: seq<StoreOp>)
    ensures forall op :: op in ops <==> exists m :: m in members && op in MemberExpenseOps(original, m)
    ensures forall op :: op in ops ==> IsExpenseOp(op) && HasMember(members, op.memberId)
  {
    if |members| == 0 then []
    else
      HeadOrTail(members);
      var rest := ExpenseOps(original, members[1..]);
      assert MemberIds(members) == [members[0].id] + MemberIds(members[1..]);
      MemberExpenseOps(original, members[0]) + rest
  }

  /** The request to rename the project, when its name changed. */
  function NameOps(project: Project, s: EditState): (ops: seq<StoreOp>)
    ensures forall op :: op in ops <==>
      op == UpdateProject(project.(name := Some(s.editedName))) && s.originalName != s.editedName
  {
    if DetectChanges(s).projectNameChanged then [UpdateProject(project.(name := Some(s.editedName)))] else []
  }

  /** All requests of a save whose member creations all succeeded. */
  function SavedOps(project: Project, s: EditState, rewritten: seq<Member>): (ops: seq<StoreOp>)
    ensures InPhaseOrder(ops)
    ensures forall op: StoreOp :: op.UpdateProject? ==> (op in ops <==> op in NameOps(project, s))
    ensures forall op: StoreOp :: op.CreateMember? ==> (op in ops <==> op in Creations(s.original, s.edited))
    ensures forall op: StoreOp :: op.UpdateMember? ==> (op in ops <==> op in MemberUpdates(s.original, rewritten))
    ensures forall op: StoreOp :: op.DeleteMember? ==> (op in ops <==> op in MemberDeletes(s.original, rewritten))
    ensures forall op: StoreOp :: IsExpenseOp(op) ==> (op in ops <==> op in ExpenseOps(s.original, rewritten))
  {
    var a := NameOps(project, s);
    var b := Creations(s.original, s.edited);
    var c := MemberUpdates(s.original, rewritten);
    var d := MemberDeletes(s.original, rewritten);
    var e := ExpenseOps(s.original, rewritten);
    KindsSeparate(a, b, c, d, e);
    a + b + c + d + e
  }

  /** Five blocks, one kind of request each, concatenated in phase order: each
      kind is found in its own block only. */
  lemma KindsSeparate(a: seq<StoreOp>, b: seq<StoreOp>, c: seq<StoreOp>, d: seq<StoreOp>, e: seq<StoreOp>)
    requires forall op :: op in a ==> op.UpdateProject?
    requires forall op :: op in b ==> op.CreateMember?
    requires forall op :: op in c ==> op.UpdateMember?
    requires forall op :: op in d ==> op.DeleteMember?
    requires forall op :: op in e ==> IsExpenseOp(op)
    ensures InPhaseOrder(a + b + c + d + e)
    ensures forall op: StoreOp :: op.UpdateProject? ==> (op in a + b + c + d + e <==> op in a)
    ensures forall op: StoreOp :: op.CreateMember? ==> (op in a + b + c + d + e <==> op in b)
    ensures forall op: StoreOp :: op.UpdateMember? ==> (op in a + b + c + d + e <==> op in c)
    ensures forall op: StoreOp :: op.DeleteMember? ==> (op in a + b + c + d + e <==> op in d)
    ensures forall op: StoreOp :: IsExpenseOp(op) ==> (op in a + b + c + d + e <==> op in e)
  {
    AppendInPhaseOrder([], a, 0);
    assert [] + a == a;
    AppendInPhaseOrder(a, b, 1);
    AppendInPhaseOrder(a + b, c, 2);
    AppendInPhaseOrder(a + b + c, d, 3);
    AppendInPhaseOrder(a + b + c + d, e, 4);
  }

  /** `handleSaveChanges`. Without a project or without unsaved changes it does
      nothing. For the demo project it sends nothing and marks the edits as
      saved. Otherwise it renames the project if needed, creates the new
      members and, once every creation answered, sends the member updates,
      member deletions and expense requests, then takes the edited list it
      started from as the new original while the edited list keeps the store's
      ids. */
  function SaveChanges(project: Option<Project>, s: EditState, demo: bool, replies: seq<Option<string>>): (r: Save)
    ensures project.None? || !HasUnsavedChanges(s) <==> r.outcome == Skipped
    ensures r.outcome == Skipped ==> r.ops == [] && r.state == s
    ensures r.outcome == DemoDiscarded <==> project.Some? && HasUnsavedChanges(s) && demo
    ensures r.outcome == DemoDiscarded ==>
      r.ops == [] && !HasUnsavedChanges(r.state) && r.state.edited == s.edited && r.state.editedName == s.editedName
    ensures r.outcome == Rejected <==>
      project.Some? && !demo && s.original != s.edited && !AllCreated(s.original, s.edited, replies)
    ensures r.outcome == Rejected ==> r.state == s && forall op :: op in r.ops ==> Phase(op) <= 1
    ensures r.outcome == Saved ==>
      r.state.originalName == r.state.editedName == s.editedName && r.state.original == s.edited
    ensures InPhaseOrder(r.ops)
  {
    if project.None? || !HasUnsavedChanges(s) then Save([], s, Skipped)
    else if demo then Save([], s.(originalName := s.editedName, original := s.edited), DemoDiscarded)
    else
      var nameOps := NameOps(project.value, s);
      AppendInPhaseOrder([], nameOps, 0);
      if !DetectChanges(s).membersChanged then
        Save(nameOps, s.(originalName := s.editedName, original := s.edited), Saved)
      else
        var creates := Creations(s.original, s.edited);
        if !AllCreated(s.original, s.edited, replies) then
          AppendInPhaseOrder(nameOps, creates, 1);
          Save(nameOps + creates, s, Rejected)
        else
          var rewritten := Rewrite(s.original, s.edited, replies);
          Save(SavedOps(project.value, s, rewritten), EditState(s.editedName, s.editedName, s.edited, rewritten), Saved)
  }

  /** A save past the guards, with members changed and every creation answered. */
  predicate SavesMembers(project: Option<Project>, s: EditState, demo: bool, replies: seq<Option<string>>) {
    project.Some? && !demo && s.original != s.edited && AllCreated(s.original, s.edited, replies)
  }

  /** The project is renamed exactly when its name changed, and with the edited name. */
  lemma RenameIff(project: Project, s: EditState, demo: bool, replies: seq<Option<string>>)
    requires !demo && HasUnsavedChanges(s)
    ensures var r := SaveChanges(Some(project), s, demo, replies);
      && (UpdateProject(project.(name := Some(s.editedName))) in r.ops <==> s.originalName != s.editedName)
      && forall op :: op in r.ops && op.UpdateProject? ==> op.project == project.(name := Some(s.editedName))
  {
    var r := SaveChanges(Some(project), s, demo, replies);
    var nameOps := NameOps(project, s);
    if !DetectChanges(s).membersChanged {
      assert r.ops == nameOps;
    } else if !AllCreated(s.original, s.edited, replies) {
      assert r.ops == nameOps + Creations(s.original, s.edited);
    } else {
      var rewritten := Rewrite(s.original, s.edited, replies);
      assert r.ops == SavedOps(project, s, rewritten);
    }
  }

  /** A member is created exactly when the members changed and the original
      snapshot does not know its id. */
  lemma CreatesIff(project: Project, s: EditState, demo: bool, replies: seq<Option<string>>, m: Member)
    requires !demo && HasUnsavedChanges(s)
    ensures CreateMember(m) in SaveChanges(Some(project), s, demo, replies).ops <==>
      s.original != s.edited && m in s.edited && !HasMember(s.original, m.id)
  {
    var r := SaveChanges(Some(project), s, demo, replies);
    if s.original != s.edited && !AllCreated(s.original, s.edited, replies) {
      assert r.ops == NameOps(project, s) + Creations(s.original, s.edited);
    }
  }

  /** Members that kept their id are the only ones whose rewritten id the
      original snapshot knows, and for them nothing was rewritten. */
  lemma SurvivorsKeepIds(original: seq<Member>, edited: seq<Member>, replies: seq<Option<string>>)
    requires AllCreated(original, edited, replies) && FreshReplies(original, replies)
    ensures var rewritten := Rewrite(original, edited, replies);
      && (forall id :: HasMember(original, id) ==> (HasMember(rewritten, id) <==> HasMember(edited, id)))
      && (forall m: Member :: HasMember(original, m.id) ==> (m in rewritten <==> m in edited))
  {
    var rewritten := Rewrite(original, edited, replies);
    forall k | 0 <= k < |edited| ensures HasMember(original, rewritten[k].id) ==> rewritten[k] == edited[k] {
      if !HasMember(original, edited[k].id) {
        assert rewritten[k].id == replies[k].value;
      }
    }
    forall id | HasMember(original, id) ensures HasMember(rewritten, id) <==> HasMember(edited, id) {
      if HasMember(edited, id) {
        var k :| 0 <= k < |edited| && MemberIds(edited)[k] == id;
        assert MemberIds(rewritten)[k] == id;
      }
      if HasMember(rewritten, id) {
        var k :| 0 <= k < |edited| && MemberIds(rewritten)[k] == id;
        assert MemberIds(edited)[k] == id;
      }
    }
  }

  /** With fresh store ids, an original member is deleted exactly when the
      edited list no longer has its id. */
  lemma DeletesAreRemovedMembers(project: Option<Project>, s: EditState, demo: bool, replies: seq<Option<string>>, m: Member)
    requires SavesMembers(project, s, demo, replies) && FreshReplies(s.original, replies)
    ensures DeleteMember(m) in SaveChanges(project, s, demo, replies).ops <==>
      m in s.original && !HasMember(s.edited, m.id)
  {
    var rewritten := Rewrite(s.original, s.edited, replies);
    assert SaveChanges(project, s, demo, replies).ops == SavedOps(project.value, s, rewritten);
    SurvivorsKeepIds(s.original, s.edited, replies);
    if m in s.original {
      assert MemberIds(s.original)[IndexOf(s.original, m)] == m.id;
    }
  }

  /** With fresh store ids, a member is updated exactly when it was edited in
      place (its id is an original one) and its name or order changed. */
  lemma UpdatesAreChangedSurvivors(project: Option<Project>, s: EditState, demo: bool, replies: seq<Option<string>>, m: Member)
    requires SavesMembers(project, s, demo, replies) && FreshReplies(s.original, replies)
    ensures UpdateMember(m) in SaveChanges(project, s, demo, replies).ops <==>
      && m in s.edited && HasMember(s.original, m.id)
      && MemberChanged(m, FindMember(s.original, m.id).value)
  {
    var rewritten := Rewrite(s.original, s.edited, replies);
    assert SaveChanges(project, s, demo, replies).ops == SavedOps(project.value, s, rewritten);
    SurvivorsKeepIds(s.original, s.edited, replies);
  }

  function IndexOf<T(==)>(s: seq<T>, x: T): (k: nat)
    requires x in s
    ensures k < |s| && s[k] == x
  {
    if s[0] == x then 0 else 1 + IndexOf(s[1..], x)
  }

  /** No expense request names a member that the same save deletes. */
  lemma NoExpenseOpsForDeletedMembers(project: Option<Project>, s: EditState, demo: bool, replies: seq<Option<string>>)
    ensures var ops := SaveChanges(project, s, demo, replies).ops;
      forall op, d :: op in ops && d in ops && IsExpenseOp(op) && d.DeleteMember? ==> op.memberId != d.member.id
  {
    var r := SaveChanges(project, s, demo, replies);
    if project.None? || !HasUnsavedChanges(s) || demo {
      assert r.ops == [];
    } else if !DetectChanges(s).membersChanged {
      assert r.ops == NameOps(project.value, s);
    } else if !AllCreated(s.original, s.edited, replies) {
      assert r.ops == NameOps(project.value, s) + Creations(s.original, s.edited);
      assert forall op :: op in r.ops ==> !IsExpenseOp(op);
    } else {
      var rewritten := Rewrite(s.original, s.edited, replies);
      assert r.ops == SavedOps(project.value, s, rewritten);
    }
  }

  /** The expenses of a member created in this save are all created, under the
      id the store answered, and nothing else is sent for that id. */
  lemma NewMemberExpensesCreated(project: Option<Project>, s: EditState, demo: bool, replies: seq<Option<string>>, k: nat)
    requires SavesMembers(project, s, demo, replies) && FreshReplies(s.original, replies)
    requires k < |s.edited| && k < |replies| && !HasMember(s.original, s.edited[k].id)
    ensures replies[k].Some?
    ensures var ops := SaveChanges(project, s, demo, replies).ops;
      && (forall e :: e in s.edited[k].expenses ==> CreateExpense(replies[k].value, e) in ops)
      && forall op :: op in ops && IsExpenseOp(op) && op.memberId == replies[k].value ==> op.CreateExpense?
  {
    var rewritten := Rewrite(s.original, s.edited, replies);
    var ops := SaveChanges(project, s, demo, replies).ops;
    assert ops == SavedOps(project.value, s, rewritten);
    var id := replies[k].value;
    var m := rewritten[k];
    assert m.id == id && m.expenses == s.edited[k].expenses;
    assert FindMember(s.original, id).None?;
    assert m in rewritten;
    forall e | e in m.expenses ensures CreateExpense(id, e) in ops {
      assert CreateExpense(id, e) in MemberExpenseOps(s.original, m);
    }
    forall op | op in ops && IsExpenseOp(op) && op.memberId == id ensures op.CreateExpense? {
      var n :| n in rewritten && op in MemberExpenseOps(s.original, n);
      assert n.id == id;
      assert op in ExpenseWrites(None, id, n.expenses);
    }
  }

  /** After a save that created members, the page still reports unsaved
      changes exactly when the store's id for some new member differs from its
      placeholder: the new original is the list before the ids were replaced. */
  lemma StillDirtyAfterCreation(project: Option<Project>, s: EditState, demo: bool, replies: seq<Option<string>>)
    requires SavesMembers(project, s, demo, replies)
    ensures HasUnsavedChanges(SaveChanges(project, s, demo, replies).state) <==>
      exists k :: 0 <= k < |s.edited| && k < |replies| && replies[k].Some?
        && !HasMember(s.original, s.edited[k].id) && replies[k].value != s.edited[k].id
  {
    var rewritten := Rewrite(s.original, s.edited, replies);
    assert SaveChanges(project, s, demo, replies).state == EditState(s.editedName, s.editedName, s.edited, rewritten);
    if forall k :: 0 <= k < |s.edited| ==> rewritten[k] == s.edited[k] {
      assert rewritten == s.edited;
    } else {
      var k :| 0 <= k < |s.edited| && rewritten[k] != s.edited[k];
      assert rewritten[k].id != s.edited[k].id;
    }
  }

  /** A save that needs no member creations leaves nothing unsaved, so saving
      again does nothing; the same holds after the demo project's save. */
  lemma SaveIsFinalWithoutCreations(project: Option<Project>, s: EditState, demo: bool, replies: seq<Option<string>>, replies': seq<Option<string>>)
    requires Creations(s.original, s.edited) == []
    ensures var r := SaveChanges(project, s, demo, replies);
      r.outcome != Rejected && SaveChanges(project, r.state, demo, replies').outcome == Skipped
  {
    var r := SaveChanges(project, s, demo, replies);
    forall k | 0 <= k < |s.edited| ensures HasMember(s.original, s.edited[k].id) {
      assert CreateMember(s.edited[k]) !in Creations(s.original, s.edited);
    }
    if SavesMembers(project, s, demo, replies) {
      StillDirtyAfterCreation(project, s, demo, replies);
    }
  }

  /** An expense request belongs to the save's expense block exactly when one
      of the members with its member id produced it. */
  lemma ExpenseOpsMembership(original: seq<Member>, members: seq<Member>, op: StoreOp)
    requires IsExpenseOp(op)
    ensures op in ExpenseOps(original, members) <==>
      exists m :: m in members && m.id == op.memberId && op in MemberExpenseOps(original, m)
  {
    if op in ExpenseOps(original, members) {
      var m :| m in members && op in MemberExpenseOps(original, m);
      assert m.id == op.memberId;
    }
  }

  /** One member's expense requests, kind by kind. */
  lemma MemberExpenseOpsIff(original: seq<Member>, m: Member, e: Expense)
    ensures var orig := FindMember(original, m.id);
      var ops := MemberExpenseOps(original, m);
      && (CreateExpense(m.id, e) in ops <==> e in m.expenses && OriginalExpense(orig, e.id).None?)
      && (UpdateExpense(m.id, e) in ops <==>
            e in m.expenses && OriginalExpense(orig, e.id).Some? && ExpenseChanged(e, OriginalExpense(orig, e.id).value))
      && (DeleteExpense(m.id, e) in ops <==> orig.Some? && e in orig.value.expenses && !HasExpense(m.expenses, e.id))
  {
  }

  /** An expense is created under a member id exactly when a member with that
      id has it and the original member of that id lacks its id; in particular
      every expense of a member the original does not know is created. */
  lemma CreatedExpensesIff(project: Option<Project>, s: EditState, demo: bool, replies: seq<Option<string>>, id: string, e: Expense)
    requires SavesMembers(project, s, demo, replies)
    ensures var members := Rewrite(s.original, s.edited, replies);
      CreateExpense(id, e) in SaveChanges(project, s, demo, replies).ops <==>
        && (exists m :: m in members && m.id == id && e in m.expenses)
        && OriginalExpense(FindMember(s.original, id), e.id).None?
  {
    var members := Rewrite(s.original, s.edited, replies);
    assert SaveChanges(project, s, demo, replies).ops == SavedOps(project.value, s, members);
    ExpenseOpsMembership(s.original, members, CreateExpense(id, e));
    forall m | m in members && m.id == id {
      MemberExpenseOpsIff(s.original, m, e);
    }
  }

  /** An expense is updated exactly when a member with that id has it and it
      differs from the original expense of the same id; unchanged expenses get
      no request. */
  lemma UpdatedExpensesIff(project: Option<Project>, s: EditState, demo: bool, replies: seq<Option<string>>, id: string, e: Expense)
    requires SavesMembers(project, s, demo, replies)
    ensures var members := Rewrite(s.original, s.edited, replies);
      var o := OriginalExpense(FindMember(s.original, id), e.id);
      UpdateExpense(id, e) in SaveChanges(project, s, demo, replies).ops <==>
        (exists m :: m in members && m.id == id && e in m.expenses) && o.Some? && ExpenseChanged(e, o.value)
  {
    var members := Rewrite(s.original, s.edited, replies);
    assert SaveChanges(project, s, demo, replies).ops == SavedOps(project.value, s, members);
    ExpenseOpsMembership(s.original, members, UpdateExpense(id, e));
    forall m | m in members && m.id == id {
      MemberExpenseOpsIff(s.original, m, e);
    }
  }

  /** An original expense is deleted exactly when some member with its
      member's id no longer has an expense of that id. */
  lemma DeletedExpensesIff(project: Option<Project>, s: EditState, demo: bool, replies: seq<Option<string>>, id: string, e: Expense)
    requires SavesMembers(project, s, demo, replies)
    ensures var members := Rewrite(s.original, s.edited, replies);
      var orig := FindMember(s.original, id);
      DeleteExpense(id, e) in SaveChanges(project, s, demo, replies).ops <==>
        && orig.Some? && e in orig.value.expenses
        && exists m :: m in members && m.id == id && !HasExpense(m.expenses, e.id)
  {
    var members := Rewrite(s.original, s.edited, replies);
    assert SaveChanges(project, s, demo, replies).ops == SavedOps(project.value, s, members);
    ExpenseOpsMembership(s.original, members, DeleteExpense(id, e));
    forall m | m in members && m.id == id {
      MemberExpenseOpsIff(s.original, m, e);
    }
  }

  /** The involved members are compared as an ordered id list: the same two
      members listed the other way round count as a change. */
  lemma ReorderedInvolvementIsAChange(e: Expense, a: MemberRef, b: MemberRef)
    requires a.id != b.id
    ensures ExpenseChanged(e.(involved := [a, b]), e.(involved := [b, a]))
  {
    assert RefIds([a, b])[0] == a.id && RefIds([b, a])[0] == b.id;
  }
}

=== FILE: settlement.dfy ===
/** The debtor x creditor settlement scan shared by the frontend
    `calculatePayments` and both backend twins.

    The outer loop visits members in list order; a member whose balance is
    negative when reached is a debtor. For each debtor the inner loop visits
    every member in list order; a member whose balance is positive when
    reached receives `min(-debtor, creditor)`, and both balances move by that
    unrounded amount. Members are positions in the balance vector. */
module Settlement {
  import opened Balances

  /** One discovered transfer from the member at `debtor` to the one at `creditor`. */
  datatype Transfer = Transfer(debtor: nat, creditor: nat, amount: real)

  /** The transfers a scan emits, in order, and the balances it leaves behind. */
  datatype Run = Run(transfers: seq<Transfer>, balances: seq<real>)

  function Min(a: real, b: real): (r: real)
    ensures r <= a && r <= b && (r == a || r == b)
  {
    if a <= b then a else b
  }

  /** Inner loop: debtor `i` meets the members `j`, `j + 1`, ... in turn. */
  function PayCreditors(b: seq<real>, i: nat, j: nat): (r: Run)
    requires i < |b| && j <= |b|
    requires b[i] <= 0.0
    ensures |r.balances| == |b|
    decreases |b| - j
  {
    if j == |b| then Run([], b)
    else if b[j] > 0.0 then
      var t := Min(-b[i], b[j]);
      var rest := PayCreditors(b[i := b[i] + t][j := b[j] - t], i, j + 1);
      Run([Transfer(i, j, t)] + rest.transfers, rest.balances)
    else PayCreditors(b, i, j + 1)
  }

  /** Outer loop from member `i` on. */
  function SettleFrom(b: seq<real>, i: nat): (r: Run)
    requires i <= |b|
    ensures |r.balances| == |b|
    decreases |b| - i
  {
    if i == |b| then Run([], b)
    else if b[i] < 0.0 then
      var inner := PayCreditors(b, i, 0);
      var rest := SettleFrom(inner.balances, i + 1);
      Run(inner.transfers + rest.transfers, rest.balances)
    else SettleFrom(b, i + 1)
  }

  /** The whole scan over the accumulated balances. */
  function Settle(b: seq<real>): (r: Run)
    ensures |r.balances| == |b|
  {
    SettleFrom(b, 0)
  }

  // ----- what the scan promises -----

  /** `c` is `b` with every balance moved toward zero without crossing it. */
  predicate TowardZero(b: seq<real>, c: seq<real>) {
    |b| == |c| &&
    forall k :: 0 <= k < |b| ==>
      (b[k] >= 0.0 ==> 0.0 <= c[k] <= b[k]) && (b[k] <= 0.0 ==> b[k] <= c[k] <= 0.0)
  }

  lemma TowardZeroTransitive(a: seq<real>, b: seq<real>, c: seq<real>)
    requires TowardZero(a, b) && TowardZero(b, c)
    ensures TowardZero(a, c)
  {
  }

  /** `s` is discovered before `t`: smaller debtor, or same debtor and smaller creditor. */
  predicate Before(s: Transfer, t: Transfer) {
    s.debtor < t.debtor || (s.debtor == t.debtor && s.creditor < t.creditor)
  }

  /** Transfers listed in strictly increasing (debtor, creditor) order. */
  predicate InDiscoveryOrder(ts: seq<Transfer>) {
    forall p, q :: 0 <= p < q < |ts| ==> Before(ts[p], ts[q])
  }

  /** Total the member at `k` pays out. */
  function Outgoing(ts: seq<Transfer>, k: nat): real {
    if |ts| == 0 then 0.0
    else (if ts[0].debtor == k then ts[0].amount else 0.0) + Outgoing(ts[1..], k)
  }

  /** Total the member at `k` receives. */
  function Incoming(ts: seq<Transfer>, k: nat): real {
    if |ts| == 0 then 0.0
    else (if ts[0].creditor == k then ts[0].amount else 0.0) + Incoming(ts[1..], k)
  }

  lemma {:induction false} FlowAppend(a: seq<Transfer>, b: seq<Transfer>, k: nat)
    ensures Outgoing(a + b, k) == Outgoing(a, k) + Outgoing(b, k)
    ensures Incoming(a + b, k) == Incoming(a, k) + Incoming(b, k)
  {
    if |a| > 0 {
      assert (a + b)[1..] == a[1..] + b;
      FlowAppend(a[1..], b, k);
    } else {
      assert a + b == b;
    }
  }

  /** A member no transfer pays into receives nothing. */
  lemma {:induction false} NoIncoming(ts: seq<Transfer>, k: nat)
    requires forall t :: t in ts ==> t.creditor != k
    ensures Incoming(ts, k) == 0.0
  {
    if |ts| > 0 {
      assert ts[0] in ts;
      assert forall t :: t in ts[1..] ==> t in ts;
      NoIncoming(ts[1..], k);
    }
  }

  /** A member no transfer pays out of pays nothing. */
  lemma {:induction false} NoOutgoing(ts: seq<Transfer>, k: nat)
    requires forall t :: t in ts ==> t.debtor != k
    ensures Outgoing(ts, k) == 0.0
  {
    if |ts| > 0 {
      assert ts[0] in ts;
      assert forall t :: t in ts[1..] ==> t in ts;
      NoOutgoing(ts[1..], k);
    }
  }

  // ----- the inner loop -----

  /** The inner loop keeps the total, never lets a balance cross zero, leaves the
      members it has already passed alone, and ends with the debtor paid off
      or with no member from `j` on still owed anything. */
  lemma {:induction false} PayCreditorsBalances(b: seq<real>, i: nat, j: nat)
    requires i < |b| && j <= |b| && b[i] <= 0.0
    ensures var r := PayCreditors(b, i, j).balances;
      && Sum(r) == Sum(b)
      && TowardZero(b, r)
      && (forall k :: 0 <= k < j && k != i ==> r[k] == b[k])
      && (r[i] == 0.0 || forall k :: j <= k < |b| ==> r[k] <= 0.0)
    decreases |b| - j
  {
    if j < |b| {
      if b[j] > 0.0 {
        var t := Min(-b[i], b[j]);
        var b1 := b[i := b[i] + t];
        var b2 := b1[j := b[j] - t];
        SumUpdate(b, i, b[i] + t);
        SumUpdate(b1, j, b[j] - t);
        PayCreditorsBalances(b2, i, j + 1);
        var r := PayCreditors(b2, i, j + 1).balances;
        assert TowardZero(b, b2);
        TowardZeroTransitive(b, b2, r);
        if t == -b[i] {
          // the debtor is paid off here and stays at zero
          assert b2[i] == 0.0;
          assert r[i] == 0.0;
        } else {
          assert b2[j] == 0.0;
        }
      } else {
        PayCreditorsBalances(b, i, j + 1);
      }
    }
  }

  /** Every transfer of the inner loop leaves debtor `i` for a member from `j` on
      that is not `i` and whose balance was positive; each amount lies between 0
      and that balance; creditors appear in increasing order. */
  lemma {:induction false} PayCreditorsTransfers(b: seq<real>, i: nat, j: nat)
    requires i < |b| && j <= |b| && b[i] <= 0.0
    ensures var ts := PayCreditors(b, i, j).transfers;
      && (forall t :: t in ts ==>
            && t.debtor == i && j <= t.creditor < |b| && t.creditor != i
            && b[t.creditor] > 0.0 && 0.0 <= t.amount <= b[t.creditor])
      && InDiscoveryOrder(ts)
    decreases |b| - j
  {
    if j < |b| {
      if b[j] > 0.0 {
        var t := Min(-b[i], b[j]);
        var b2 := b[i := b[i] + t][j := b[j] - t];
        PayCreditorsTransfers(b2, i, j + 1);
      } else {
        PayCreditorsTransfers(b, i, j + 1);
      }
    }
  }

  /** Each final balance is the balance the inner loop started from plus what
      the member paid out minus what it received. */
  lemma {:induction false} PayCreditorsFlow(b: seq<real>, i: nat, j: nat, k: nat)
    requires i < |b| && j <= |b| && b[i] <= 0.0 && k < |b|
    ensures var r := PayCreditors(b, i, j);
      r.balances[k] == b[k] + Outgoing(r.transfers, k) - Incoming(r.transfers, k)
    decreases |b| - j
  {
    if j < |b| {
      if b[j] > 0.0 {
        var t := Min(-b[i], b[j]);
        var b2 := b[i := b[i] + t][j := b[j] - t];
        PayCreditorsFlow(b2, i, j + 1, k);
        var rest := PayCreditors(b2, i, j + 1);
        var ts := [Transfer(i, j, t)] + rest.transfers;
        assert ts[1..] == rest.transfers;
      } else {
        PayCreditorsFlow(b, i, j + 1, k);
      }
    }
  }

  /** Once the debtor is at zero it is still matched with every member that is
      owed money: each such meeting yields a transfer of amount 0 and moves no
      balance. */
  lemma {:induction false} PaidOffDebtorEmitsZeroTransfers(b: seq<real>, i: nat, j: nat)
    requires i < |b| && j <= |b| && b[i] == 0.0
    ensures var r := PayCreditors(b, i, j);
      && r.balances == b
      && (forall t :: t in r.transfers ==> t.amount == 0.0)
      && (forall c :: j <= c < |b| && b[c] > 0.0 ==> Transfer(i, c, 0.0) in r.transfers)
    decreases |b| - j
  {
    if j < |b| {
      if b[j] > 0.0 {
        assert Min(-b[i], b[j]) == 0.0;
        assert b[i := b[i] + 0.0][j := b[j] - 0.0] == b;
      }
      PaidOffDebtorEmitsZeroTransfers(b, i, j + 1);
    }
  }

  // ----- the outer loop -----

  /** The outer loop keeps the total and never lets a balance cross zero. */
  lemma {:induction false} SettleFromBalances(b: seq<real>, i: nat)
    requires i <= |b|
    ensures var r := SettleFrom(b, i).balances;
      Sum(r) == Sum(b) && TowardZero(b, r)
    decreases |b| - i
  {
    if i < |b| {
      if b[i] < 0.0 {
        var inner := PayCreditors(b, i, 0);
        PayCreditorsBalances(b, i, 0);
        SettleFromBalances(inner.balances, i + 1);
        TowardZeroTransitive(b, inner.balances, SettleFrom(inner.balances, i + 1).balances);
      } else {
        SettleFromBalances(b, i + 1);
      }
    }
  }

  /** Joining two ordered runs keeps discovery order when every transfer of the
      first comes before every transfer of the second. */
  lemma ConcatInDiscoveryOrder(a: seq<Transfer>, b: seq<Transfer>)
    requires InDiscoveryOrder(a) && InDiscoveryOrder(b)
    requires forall s, t :: s in a && t in b ==> Before(s, t)
    ensures InDiscoveryOrder(a + b)
  {
    var ts := a + b;
    forall p, q | 0 <= p < q < |ts| ensures Before(ts[p], ts[q]) {
      if q < |a| {
        assert ts[p] == a[p] && ts[q] == a[q];
      } else if p < |a| {
        assert ts[p] == a[p] && ts[p] in a;
        assert ts[q] == b[q - |a|] && ts[q] in b;
      } else {
        assert ts[p] == b[p - |a|] && ts[q] == b[q - |a|];
      }
    }
  }

  /** Every transfer goes from a member that started in debt to a different
      member that started in credit, for a non-negative amount. */
  lemma {:induction false} SettleFromEndpoints(b: seq<real>, i: nat)
    requires i <= |b|
    ensures forall t :: t in SettleFrom(b, i).transfers ==>
      && i <= t.debtor < |b| && t.creditor < |b| && t.debtor != t.creditor
      && b[t.debtor] < 0.0 && b[t.creditor] > 0.0 && t.amount >= 0.0
    decreases |b| - i
  {
    if i < |b| {
      if b[i] < 0.0 {
        var inner := PayCreditors(b, i, 0);
        var rest := SettleFrom(inner.balances, i + 1);
        PayCreditorsTransfers(b, i, 0);
        PayCreditorsBalances(b, i, 0);
        SettleFromEndpoints(inner.balances, i + 1);
        forall t | t in inner.transfers + rest.transfers
          ensures i <= t.debtor < |b| && t.creditor < |b| && t.debtor != t.creditor
          ensures b[t.debtor] < 0.0 && b[t.creditor] > 0.0 && t.amount >= 0.0
        {
          if t !in inner.transfers {
            assert t in rest.transfers;
          }
        }
      } else {
        SettleFromEndpoints(b, i + 1);
      }
    }
  }

  /** The outer loop emits its transfers in (debtor, creditor) discovery order. */
  lemma {:induction false} SettleFromOrder(b: seq<real>, i: nat)
    requires i <= |b|
    ensures InDiscoveryOrder(SettleFrom(b, i).transfers)
    decreases |b| - i
  {
    if i < |b| {
      if b[i] < 0.0 {
        var inner := PayCreditors(b, i, 0);
        var rest := SettleFrom(inner.balances, i + 1);
        PayCreditorsTransfers(b, i, 0);
        SettleFromOrder(inner.balances, i + 1);
        SettleFromEndpoints(inner.balances, i + 1);
        ConcatInDiscoveryOrder(inner.transfers, rest.transfers);
      } else {
        SettleFromOrder(b, i + 1);
      }
    }
  }

  /** Each final balance is the starting balance plus outgoing minus incoming. */
  lemma {:induction false} SettleFromFlow(b: seq<real>, i: nat, k: nat)
    requires i <= |b| && k < |b|
    ensures var r := SettleFrom(b, i);
      r.balances[k] == b[k] + Outgoing(r.transfers, k) - Incoming(r.transfers, k)
    decreases |b| - i
  {
    if i < |b| {
      if b[i] < 0.0 {
        var inner := PayCreditors(b, i, 0);
        var rest := SettleFrom(inner.balances, i + 1);
        PayCreditorsFlow(b, i, 0, k);
        SettleFromFlow(inner.balances, i + 1, k);
        FlowAppend(inner.transfers, rest.transfers, k);
      } else {
        SettleFromFlow(b, i + 1, k);
      }
    }
  }

  /** With a zero total, and every member the outer loop has already passed
      not in debt, the scan leaves every balance at exactly zero. */
  lemma {:induction false} SettleFromClears(b: seq<real>, i: nat)
    requires i <= |b|
    requires Sum(b) == 0.0
    requires forall k :: 0 <= k < i ==> b[k] >= 0.0
    ensures forall k :: 0 <= k < |b| ==> SettleFrom(b, i).balances[k] == 0.0
    decreases |b| - i
  {
    if i == |b| {
      NonNegativeZeroSum(b);
    } else if b[i] < 0.0 {
      var inner := PayCreditors(b, i, 0).balances;
      PayCreditorsBalances(b, i, 0);
      if inner[i] != 0.0 {
        NonPositiveZeroSum(inner);
      }
      SettleFromClears(inner, i + 1);
    } else {
      SettleFromClears(b, i + 1);
    }
  }

  // ----- the scan as a whole -----

  /** No members, no transfers. */
  lemma NoMembersNoTransfers()
    ensures Settle([]) == Run([], [])
  {
  }

  /** Transfers run from initial debtors to different initial creditors, for
      non-negative amounts, in (debtor, creditor) discovery order, and no
      balance crosses zero while the scan runs. */
  lemma SettleShape(b: seq<real>)
    ensures var r := Settle(b);
      && Sum(r.balances) == Sum(b)
      && TowardZero(b, r.balances)
      && InDiscoveryOrder(r.transfers)
      && (forall t :: t in r.transfers ==>
            && t.debtor < |b| && t.creditor < |b| && t.debtor != t.creditor
            && b[t.debtor] < 0.0 && b[t.creditor] > 0.0 && t.amount >= 0.0)
  {
    SettleFromBalances(b, 0);
    SettleFromEndpoints(b, 0);
    SettleFromOrder(b, 0);
  }

  /** Balances that are already all zero need no transfers and stay as they are. */
  lemma {:induction false} SettledGroupNeedsNoTransfers(b: seq<real>, i: nat)
    requires i <= |b|
    requires forall k :: 0 <= k < |b| ==> b[k] == 0.0
    ensures SettleFrom(b, i) == Run([], b)
    decreases |b| - i
  {
    if i < |b| {
      SettledGroupNeedsNoTransfers(b, i + 1);
    }
  }

  /** With balances that total zero, the scan settles everybody: every final
      balance is zero, each debtor pays out exactly its deficit and receives
      nothing, and each creditor receives exactly its surplus and pays nothing. */
  lemma ZeroSumSettlesEveryone(b: seq<real>)
    requires Sum(b) == 0.0
    ensures var r := Settle(b);
      && (forall k :: 0 <= k < |b| ==> r.balances[k] == 0.0)
      && (forall k :: 0 <= k < |b| && b[k] < 0.0 ==>
            Outgoing(r.transfers, k) == -b[k] && Incoming(r.transfers, k) == 0.0)
      && (forall k :: 0 <= k < |b| && b[k] > 0.0 ==>
            Incoming(r.transfers, k) == b[k] && Outgoing(r.transfers, k) == 0.0)
  {
    var r := Settle(b);
    SettleFromClears(b, 0);
    SettleShape(b);
    forall k | 0 <= k < |b|
      ensures b[k] < 0.0 ==> Outgoing(r.transfers, k) == -b[k] && Incoming(r.transfers, k) == 0.0
      ensures b[k] > 0.0 ==> Incoming(r.transfers, k) == b[k] && Outgoing(r.transfers, k) == 0.0
    {
      SettleFromFlow(b, 0, k);
      if b[k] < 0.0 {
        NoIncoming(r.transfers, k);
      }
      if b[k] > 0.0 {
        NoOutgoing(r.transfers, k);
      }
    }
  }

  /** A concrete run: after member 0 has paid off its debt to member 1 it still
      meets member 2, who is owed money, and a transfer of 0 is emitted. */
  lemma ZeroTransferExample()
    ensures Settle([-5.0, 5.0, 5.0, -5.0]).transfers
         == [Transfer(0, 1, 5.0), Transfer(0, 2, 0.0), Transfer(3, 2, 5.0)]
  {
    var b := [-5.0, 5.0, 5.0, -5.0];
    var b1 := [0.0, 0.0, 5.0, -5.0];
    assert b[0 := b[0] + 5.0][1 := b[1] - 5.0] == b1;
    assert b1[0 := b1[0] + 0.0][2 := b1[2] - 0.0] == b1;
    assert PayCreditors(b, 0, 0) == Run([Transfer(0, 1, 5.0), Transfer(0, 2, 0.0)], b1);
    var b2 := [0.0, 0.0, 0.0, 0.0];
    assert b1[3 := b1[3] + 5.0][2 := b1[2] - 5.0] == b2;
    assert PayCreditors(b1, 3, 0) == Run([Transfer(3, 2, 5.0)], b2);
    assert SettleFrom(b1, 1) == SettleFrom(b1, 3);
    assert SettleFrom(b1, 3) == Run([Transfer(3, 2, 5.0)], b2);
  }
}

=== FILE: stored.dfy ===
/** The backend's stored records as the settlement code sees them: a
    project's members with their `balance` column (default 0), and the
    project's expenses, each naming its payer and its involved members by id.
    The ORM hands out one object per row, so a member reached through an
    expense is the same object as in the project's member list; the model
    follows that by matching on ids. */
module Stored {
  import opened Basics
  import opened Balances

  datatype StoredMember = StoredMember(id: string, name: Option<string>, balance: real)

  /** `involved` lists the linked members' ids; empty means "all members". */
  datatype StoredExpense = StoredExpense(payer: string, amount: Option<real>, involved: seq<string>)

  datatype StoredProject = StoredProject(id: string, members: seq<StoredMember>, expenses: seq<StoredExpense>)

  /** Why a backend computation stops: an HTTP error it raises on purpose, or
      the Python error a division by zero or arithmetic on `None` would raise. */
  datatype Fault = HttpError(status: int, detail: string) | ZeroDivisionError | TypeError

  function StoredIds(ms: seq<StoredMember>): (ids: seq<string>)
    ensures |ids| == |ms|
    ensures forall k :: 0 <= k < |ms| ==> ids[k] == ms[k].id
  {
    seq(|ms|, k requires 0 <= k < |ms| => ms[k].id)
  }

  function StoredBalances(ms: seq<StoredMember>): (b: seq<real>)
    ensures |b| == |ms|
    ensures forall k :: 0 <= k < |ms| ==> b[k] == ms[k].balance
  {
    seq(|ms|, k requires 0 <= k < |ms| => ms[k].balance)
  }

  /** Positions whose id lies in `s`. */
  function MaskIn(ids: seq<string>, s: set<string>): (mask: seq<bool>)
    ensures |mask| == |ids|
    ensures forall k :: 0 <= k < |ids| ==> (mask[k] <==> ids[k] in s)
  {
    seq(|ids|, k requires 0 <= k < |ids| => ids[k] in s)
  }

  /** Over duplicate-free ids, the mask selects one position per id of `s` present. */
  lemma {:induction false} CountMaskIn(ids: seq<string>, s: set<string>)
    requires Distinct(ids)
    ensures Count(MaskIn(ids, s)) == |s * Elements(ids)|
  {
    if |ids| == 0 {
      assert s * Elements(ids) == {};
    } else {
      var rest := ids[1..];
      DistinctTail(ids);
      assert MaskIn(ids, s)[1..] == MaskIn(rest, s);
      CountMaskIn(rest, s);
      ElementsCons(ids);
      var front := s * {ids[0]};
      var back := s * Elements(rest);
      assert s * Elements(ids) == front + back;
      DisjointUnionCardinality(front, back);
      assert |front| == if ids[0] in s then 1 else 0 by {
        if ids[0] in s {
          assert front == {ids[0]};
        } else {
          assert front == {};
        }
      }
    }
  }

  lemma DisjointUnionCardinality(a: set<string>, b: set<string>)
    requires a !! b
    ensures |a + b| == |a| + |b|
  {
  }

  /** Duplicate-free member ids, every payer a member, and every involved list
      duplicate-free and made of member ids: what the store's keys and the
      expense-member link table guarantee. */
  predicate WellFormed(members: seq<StoredMember>, expenses: seq<StoredExpense>) {
    && Distinct(StoredIds(members))
    && forall e :: e in expenses ==>
         && e.payer in StoredIds(members)
         && Distinct(e.involved)
         && forall id :: id in e.involved ==> id in StoredIds(members)
  }
}

=== FILE: twins.dfy ===
/** The frontend `calculatePayments` and the backend `calculate_project_payments`
    compute the same balances and the same transfers: the backend works on the
    stored rows of the same project, with each expense naming its payer and its
    involved members by id. On the frontend side a null or zero amount is
    skipped; on the backend side it is distributed as 0, which changes nothing. */
module Twins {
  import opened Basics
  import opened Balances
  import opened Settlement
  import opened Rounding
  import opened Domain
  import opened CalculatePayments
  import opened Stored
  import opened Helper

  function StoredMembers(ms: seq<Member>): (sm: seq<StoredMember>)
    ensures |sm| == |ms|
    ensures forall k :: 0 <= k < |ms| ==> sm[k] == StoredMember(ms[k].id, ms[k].name, ms[k].balance)
  {
    seq(|ms|, k requires 0 <= k < |ms| => StoredMember(ms[k].id, ms[k].name, ms[k].balance))
  }

  /** The stored row of one charge: payer id, amount and involved ids. */
  function StoredCharge(ms: seq<Member>, c: Charge): StoredExpense
    requires c.payer < |ms|
  {
    StoredExpense(ms[c.payer].id, c.expense.amount, RefIds(c.expense.involved))
  }

  function StoredCharges(ms: seq<Member>, cs: seq<Charge>): (se: seq<StoredExpense>)
    requires forall c :: c in cs ==> c.payer < |ms|
    ensures |se| == |cs|
    ensures forall k :: 0 <= k < |cs| ==> se[k] == StoredCharge(ms, cs[k])
  {
    seq(|cs|, k requires 0 <= k < |cs| => StoredCharge(ms, cs[k]))
  }

  /** The project as the backend stores it, expenses in the frontend's visiting order. */
  function AsStored(p: Project): (sp: StoredProject)
    ensures sp.id == p.id && |sp.members| == |p.members|
  {
    StoredProject(p.id, StoredMembers(p.members), StoredCharges(p.members, Charges(p.members)))
  }

  /** Every involved list names distinct current members. */
  predicate InvolvesMembers(ms: seq<Member>, e: Expense) {
    Distinct(RefIds(e.involved)) && forall id :: id in RefIds(e.involved) ==> HasMember(ms, id)
  }

  /** Unique member ids, and every expense involving distinct current members. */
  predicate Consistent(ms: seq<Member>) {
    UniqueMemberIds(ms) && forall c :: c in Charges(ms) ==> InvolvesMembers(ms, c.expense)
  }

  lemma StoredIdsAgree(ms: seq<Member>)
    ensures StoredIds(StoredMembers(ms)) == MemberIds(ms)
  {
  }

  /** A consistent frontend project is a well-formed stored one. */
  lemma ConsistentIsWellFormed(p: Project)
    requires Consistent(p.members)
    ensures WellFormed(AsStored(p).members, AsStored(p).expenses)
  {
    var ms := p.members;
    StoredIdsAgree(ms);
    var se := AsStored(p).expenses;
    forall e | e in se
      ensures e.payer in StoredIds(StoredMembers(ms))
      ensures Distinct(e.involved)
      ensures forall id :: id in e.involved ==> id in StoredIds(StoredMembers(ms))
    {
      var k :| 0 <= k < |se| && se[k] == e;
      var c := Charges(ms)[k];
      assert c in Charges(ms);
      assert MemberIds(ms)[c.payer] == ms[c.payer].id;
    }
  }

  /** Shifting by 0 changes nothing. */
  lemma ShiftZero(b: seq<real>, mask: seq<bool>)
    requires |mask| == |b|
    ensures Shift(b, mask, 0.0) == b
  {
  }

  /** The frontend's sharing mask and payer position are the backend's
      involved and payer masks, and the sharers number the backend's divisor. */
  lemma MasksAgree(ms: seq<Member>, c: Charge)
    requires c.payer < |ms|
    requires UniqueMemberIds(ms) && InvolvesMembers(ms, c.expense)
    ensures var se := StoredCharge(ms, c);
      var sm := StoredMembers(ms);
      && SharedBy(ms, c.expense) == InvolvedMask(sm, se)
      && Only(|ms|, c.payer) == PayerMask(sm, se)
      && Count(SharedBy(ms, c.expense)) == Divisor(sm, se) > 0
  {
    var se := StoredCharge(ms, c);
    var sm := StoredMembers(ms);
    StoredIdsAgree(ms);
    assert SharedBy(ms, c.expense) == InvolvedMask(sm, se);
    forall k | 0 <= k < |ms| ensures Only(|ms|, c.payer)[k] == PayerMask(sm, se)[k] {
      assert MemberIds(ms)[k] == ms[k].id && MemberIds(ms)[c.payer] == ms[c.payer].id;
    }
    assert HasMember(ms, ms[c.payer].id) by {
      assert MemberIds(ms)[c.payer] == ms[c.payer].id;
    }
    CountInvolved(sm, se);
  }

  /** One charge: the frontend step and the backend step give the same balances. */
  lemma StepAgrees(b: seq<real>, ms: seq<Member>, c: Charge)
    requires |b| == |ms| && c.payer < |ms|
    requires UniqueMemberIds(ms) && InvolvesMembers(ms, c.expense)
    ensures var se := StoredCharge(ms, c);
      var sm := StoredMembers(ms);
      var a := se.amount.GetOr(0.0);
      && Divisor(sm, se) > 0
      && ApplyExpense(b, ms, c.payer, c.expense)
         == Split(b, InvolvedMask(sm, se), PayerMask(sm, se), a / Divisor(sm, se) as real, a)
  {
    var se := StoredCharge(ms, c);
    var sm := StoredMembers(ms);
    MasksAgree(ms, c);
    if !Contributes(c.expense) {
      var a := se.amount.GetOr(0.0);
      assert a == 0.0;
      assert a / Divisor(sm, se) as real == 0.0;
      ShiftZero(b, InvolvedMask(sm, se));
      ShiftZero(b, PayerMask(sm, se));
    }
  }

  /** Over a consistent project the backend's distribution of the stored rows
      yields exactly the frontend's accumulated balances, from any start. */
  lemma {:induction false} DistributeAgrees(b: seq<real>, ms: seq<Member>, cs: seq<Charge>)
    requires |b| == |ms|
    requires UniqueMemberIds(ms)
    requires forall c :: c in cs ==> c.payer < |ms| && InvolvesMembers(ms, c.expense)
    ensures Distribute(b, StoredMembers(ms), StoredCharges(ms, cs), CountsAsZero) == Ok(Accumulate(b, ms, cs))
    decreases |cs|
  {
    if |cs| > 0 {
      var c := cs[0];
      assert c in cs;
      var sm := StoredMembers(ms);
      var se := StoredCharge(ms, c);
      StepAgrees(b, ms, c);
      var next := ApplyExpense(b, ms, c.payer, c.expense);
      assert StoredCharges(ms, cs)[1..] == StoredCharges(ms, cs[1..]);
      assert StoredCharges(ms, cs)[0] == se;
      assert Distribute(b, sm, StoredCharges(ms, cs), CountsAsZero)
             == Distribute(next, sm, StoredCharges(ms, cs[1..]), CountsAsZero);
      assert forall x :: x in cs[1..] ==> x in cs;
      DistributeAgrees(next, ms, cs[1..]);
    }
  }

  /** The twins agree: over a consistent project the backend reaches the
      frontend's balances, runs the same scan, and emits the same transfers in
      the same order; the frontend records each amount rounded to cents. */
  lemma FrontendAgreesWithBackend(p: Project)
    requires Consistent(p.members)
    ensures var back := CalculateProjectPayments(AsStored(p));
      var front := CalculatePayments.CalculatePayments(p.members);
      && back.Ok?
      && back.value.balances == front.balances
      && |back.value.payments| == |front.payments|
      && forall k :: 0 <= k < |front.payments| ==>
           && back.value.payments[k].fromMember == Public(AsStored(p).members[front.payments[k].fromMember])
           && back.value.payments[k].toMember == Public(AsStored(p).members[front.payments[k].toMember])
           && front.payments[k].amount == RoundCents(back.value.payments[k].amount)
  {
    var ms := p.members;
    assert forall c :: c in Charges(ms) ==> c.payer < |ms| && InvolvesMembers(ms, c.expense);
    DistributeAgrees(Zeros(|ms|), ms, Charges(ms));
  }
}
